=== FILE: README.md ===
# Budget tracker: a Dafny model of its rules

The budget tracker is a Django REST Framework server with an Angular client.
Users keep categories (income or expense), transactions filed under a
category, and monthly budgets per expense category. This project models the
deterministic rules inside that system as pure functions over immutable
records, and proves what they promise:

- the server's list filters, the financial summary (totals, balance, expenses
  per category, six-month trend) and the budget-versus-actual comparison, with
  the ORM queries written as filters and sums over in-memory sequences;
- signup and login validation order;
- the model-level constraints: field limits, the unique budget key, cascading
  deletes;
- the client's session store (`AuthService`) over an explicit storage map,
  the public route guard and the route table;
- the API service's headers, query parameters and error-message
  classification;
- the budgets page's budget-to-comparison matching, percentages, statuses,
  progress-bar classes and month formatting;
- the summary page's balance styling and default date range;
- the list pages' paging and ordering parameters, filters and loading flags;
- the three form dialogs and the signup page.

Money is integer cents, dates are `Dates.Date(year, month, day)` triples and
months run 1..12. "Today" and every HTTP outcome are parameters. CPython's
`strptime` is modelled for the two formats the server uses:
- `%Y` takes exactly four digits;
- `%m` takes one or two digits, and `%d` also accepts a leading space;
- the `-` separators are literal.

JavaScript percentages are exact rationals. The one unguarded division
returns a `JsNumber`: finite, +Infinity, -Infinity or NaN.

Modules follow the source files:

| module | models |
|---|---|
| `Common` | options and results, JavaScript/Python truthiness of strings, decimal rendering |
| `Dates` | the calendar, month arithmetic, `strptime`, client date rendering |
| `Models` | `models.py` |
| `Views` | the list viewsets in `views.py` |
| `Summary` | `FinancialSummaryView` |
| `Comparison` | `BudgetComparisonView` |
| `AuthViews` | `signup` and `login_view` |
| `Session` | `auth.service.ts` |
| `Guard` | `public.guard.ts` |
| `Routes` | `app.routes.ts` |
| `Api` | `api.service.ts` |
| `BudgetsPage` | `budgets.component.ts` |
| `SummaryView` | `financial-summary.component.ts` |
| `ListPages` | `transactions.component.ts` and `categories.component.ts` |
| `Forms` | Angular's validators |
| `TransactionDialog`, `CategoryDialog`, `BudgetDialog`, `SignupPage` | the dialogs and the signup page |

The transaction dialog reads `transaction_type` and a category object from a
listed transaction. The serializer sends neither: it sends a category key
and `category_type`. The model follows what the serializer sends, and
`TransactionDialog` records the consequence under Findings.

## Model

| member | source | states |
|---|---|---|
| Common.NatToString | budget_tracker/budget/views.py:241 | the decimal rendering of a count is non-empty, all digits and has no leading zero except for 0 itself |
| Common.DigitsValueOfNatToString | budget_tracker/budget/views.py:241 | reading a rendered count back as digits gives the count, so `int(...)` of a rendered month is the month |
| Common.Pad4 | frontend/src/app/components/financial-summary/financial-summary.component.ts:98 | `toISOString()` writes a year 0..9999 as exactly four digits that denote it, zero-padded on the left |
| Common.Pad2 | budget_tracker/budget/views.py:220 | `strftime('%m')`: two digits for 1..99, a leading zero below 10, and the digits denote the month |
| Dates.FirstOfMonth | budget_tracker/budget/views.py:115 | `today.replace(day=1)` is a valid date in the same month, on or before today |
| Dates.LastOfMonth | budget_tracker/budget/views.py:155 | the last day of a month is valid, in that month, and no date of that month comes after it |
| Dates.AddMonths | budget_tracker/budget/views.py:206 | `relativedelta(months=n)` on a first of month lands on the first of the month n later, a calendar month that is a valid date exactly when it falls in years 1 to 9999 |
| Dates.HalfOpenMonth | budget_tracker/budget/views.py:228-229 | a valid date lies in `[month_start, next_month)` exactly when it has the month's year and month |
| Dates.ParseYearMonth | budget_tracker/budget/views.py:195 | `strptime(s, '%Y-%m')` accepts only a four-digit year, a dash and a one- or two-digit month 1..12, and yields that month's first day |
| Dates.YearMonthRoundTrip | budget_tracker/budget/views.py:170 | a first of month written as `%Y-%m` reads back as the same first of month for years 1000 and later |
| Dates.ParseDate | budget_tracker/budget/views.py:107-108 | `strptime(s, '%Y-%m-%d')` yields only valid calendar dates |
| Dates.DashedDateRoundTrip | frontend/src/app/components/transactions/transaction-form-dialog/transaction-form-dialog.component.ts:99 | the client's unpadded `Y-M-D` text of a valid date parses back to that date |
| Dates.IsoDateRoundTrip | frontend/src/app/components/financial-summary/financial-summary.component.ts:98 | the date part of `toISOString()`, a four-digit year and two-digit month and day, parses back to the same date for every year 1 to 9999 |
| Models.ParseCategoryType | budget_tracker/budget/models.py:6-12 | only "income" and "expense" are accepted as a category type, and each is stored as itself |
| Models.CreateBudget | budget_tracker/budget/models.py:31-42 | a budget is saved exactly when its fields are within limits, its user and category exist and no budget has the same (user, category, month, year); a duplicate key is an integrity error |
| Models.CreateBudgetKeepsValid | budget_tracker/budget/models.py:11-42 | saving a budget keeps every row within its field limits, the budget key unique and every foreign key resolving |
| Models.DeleteCategory | budget_tracker/budget/models.py:24 | deleting a category removes exactly it and the transactions and budgets that point at it |
| Models.DeleteUser | budget_tracker/budget/models.py:13 | deleting a user removes exactly the user and everything that points at the user or at the user's categories |
| Models.DeleteCategoryKeepsReferences | budget_tracker/budget/models.py:24 | after a cascading category delete every foreign key still resolves |
| Models.DeleteUserKeepsReferences | budget_tracker/budget/models.py:13 | after a cascading user delete every foreign key still resolves |
| Views.Lower | budget_tracker/budget/views.py:28 | case folding keeps the length and folds each character independently |
| Views.ListCategories | budget_tracker/budget/views.py:22-35 | the listed categories are exactly the user's, filtered by a case-insensitive name substring and an exact type, each filter only when its parameter is non-empty |
| Views.UnfilteredCategories | budget_tracker/budget/views.py:26-33 | any missing or empty name and type give the same list, in the same order, as no parameters: all of the user's categories |
| Views.InsertByDate | budget_tracker/budget/views.py:70 | inserting into a newest-first list keeps it newest first and adds exactly that row |
| Views.SortNewestFirst | budget_tracker/budget/views.py:70 | `order_by('-date')` returns a permutation of its input, newest first |
| Views.ListTransactions | budget_tracker/budget/views.py:41-70 | the listed transactions are exactly the user's rows passing every given filter, each exactly once, newest first |
| Views.ListBudgets | budget_tracker/budget/views.py:76-93 | the listed budgets are exactly the user's with the given category, the given month text as stored and the given year |
| Summary.ExpenseCategories | budget_tracker/budget/views.py:127 | the user's expense categories, and only those |
| Summary.ResolveRange | budget_tracker/budget/views.py:102-116 | both dates given: both parsed or the 400 message; otherwise the first of this month to today |
| Summary.TypeTotal | budget_tracker/budget/views.py:119-132 | the income or expense sum over `date__range`: 0 when no row of that type is dated in the range, and so 0 for a range that starts after it ends |
| Summary.CategoryTotal | budget_tracker/budget/views.py:138-144 | one category's sum over `date__range`: 0 when none of its rows is dated in the range, and so 0 for a range that starts after it ends |
| Summary.ExpensesByCategory | budget_tracker/budget/views.py:138-149 | every expense category with a positive total has an entry with its name and total, and every entry is such a category's |
| Summary.MonthTotal | budget_tracker/budget/views.py:154-167 | a trend month's sum from its first to its last day equals the sum over the rows dated in that calendar month |
| Summary.CalendarMonthRange | budget_tracker/budget/views.py:154-167 | over stored dates, the first-to-last-day range of a month selects exactly the rows of that calendar month |
| Summary.MonthlyTrend | budget_tracker/budget/views.py:152-174 | six points, oldest first: point `k` is the label and totals of the month `5 - k` months before the current one |
| Summary.TrendMonths | budget_tracker/budget/views.py:152-174 | the labels are six consecutive months ending with the current month, and each point carries that month's income and expense totals |
| Summary.Get | budget_tracker/budget/views.py:98-185 | the 400 error exactly when the range is invalid; a server error exactly for a valid range when today is in 0001-01 to 0001-05 or in December 9999, where the trend leaves years 1 to 9999, or when the income total, the expense total or the balance reaches 10^10 cents in magnitude, which `FinancialSummarySerializer` cannot quantize to ten digits; otherwise every one of those three fits, income and expenses are the type totals over the resolved range, the balance is their difference, the categories and the six-month trend are the ones defined for that range and today, and every category entry is positive |
| Summary.TotalOfSplit | budget_tracker/budget/views.py:119-132 | summing two disjoint selections equals summing their union |
| Summary.OversizedIncomeFails | budget_tracker/budget/serializers.py:43-45 | two valid income rows of 60,000,000.00 each, dated this month, make the summary answer a server error |
| Summary.IncomePlusExpensesIsEverything | budget_tracker/budget/views.py:119-132 | income total plus expense total is the total of every transaction filed under one of the user's categories in the range |
| Comparison.ResolveMonth | budget_tracker/budget/views.py:192-203 | a non-empty month that does not parse is a 400 error; a missing one is this month's first day |
| Comparison.FirstBudget | budget_tracker/budget/views.py:217-222 | `.first()`: no budget exactly when none matches, otherwise the earliest matching one |
| Comparison.ActualExpenses | budget_tracker/budget/views.py:225-230 | the category's sum over `[first, next month)`, 0 when none of its rows falls there |
| Comparison.ActualIsMonthSpending | budget_tracker/budget/views.py:225-230 | the half-open range sum equals the spending dated in that calendar month |
| Comparison.BudgetAmount | budget_tracker/budget/views.py:217-237 | the amount of the first budget stored under the zero-padded month, or 0 when there is none |
| Comparison.Row | budget_tracker/budget/views.py:214-242 | one record: category id and name, the month's spending, the first matching budget's amount (0 when none matches; the matching budget under unique keys), and `difference = budget - actual` |
| Comparison.Rows | budget_tracker/budget/views.py:214-242 | exactly one record per category, in order |
| Comparison.Get | budget_tracker/budget/views.py:190-244 | a 400 error exactly for an unparseable month, a server error exactly when the month is December 9999 (its successor cannot be formed); otherwise one record per expense category, in order, for the requested year and month |
| AuthViews.Signup | budget_tracker/budget/views.py:271-314 | a missing field is rejected first, then a taken username, then a taken email; otherwise exactly one account is added, answered 201 with a token when authentication succeeds and 401 otherwise |
| AuthViews.SignupKeepsAccountsDistinct | budget_tracker/budget/views.py:283-293 | signup keeps usernames and emails unique |
| AuthViews.UsersWithEmail | budget_tracker/budget/views.py:334 | the accounts with the given email, and only those |
| AuthViews.Login | budget_tracker/budget/views.py:324-344 | missing fields answer 400 with the fields message; with both fields, 500 exactly when several accounts share the email, and every other 400 carries the invalid-credentials message; 200 exactly when one account has the email and its password matches, and it carries that account's username |
| AuthViews.KeepAtMostOne | budget_tracker/budget/views.py:334 | with distinct emails at most one account matches an email |
| AuthViews.LoginNeverFailsOnDistinctEmails | budget_tracker/budget/views.py:333-336 | with unique emails login never ends in an unhandled multiple-results error |
| Session.GetItem | frontend/src/app/services/auth.service.ts:45-47 | a stored key reads back its value; a missing key reads back null |
| Session.SetToken | frontend/src/app/services/auth.service.ts:49-52 | after `setToken(t)` the stored and published token is t, logged in exactly when t is non-empty, and nothing else changes |
| Session.Logout | frontend/src/app/services/auth.service.ts:40-43 | after `logout()` the stored and published token are null, the user is logged out and the username is kept |
| Session.SetUsername | frontend/src/app/services/auth.service.ts:23-26 | `setUsername` stores and publishes the name and leaves the token alone |
| Session.Init | frontend/src/app/services/auth.service.ts:11-21 | on construction the published token is the stored one when non-empty, else null, and the username is the stored one |
| Session.InitCoherent | frontend/src/app/services/auth.service.ts:11-21 | a freshly constructed service publishes a token consistent with storage |
| Session.StepKeepsCoherent | frontend/src/app/services/auth.service.ts:23-52 | every operation keeps the published token and username consistent with storage |
| Session.RunKeepsCoherent | frontend/src/app/services/auth.service.ts:36-52 | after any sequence of operations the published token is truthy exactly when `isLoggedIn()` |
| Session.LogoutThenLogin | frontend/src/app/services/auth.service.ts:40-52 | logging out and in again logs in and keeps the stored username |
| Guard.CanActivate | frontend/src/app/public.guard.ts:11-17 | logged in: refuse and go to /dashboard; logged out: allow with no navigation |
| Guard.PublicGuardFn | frontend/src/app/public.guard.ts:20-22 | the exported guard function returns exactly the class's verdict |
| Guard.VerdictDependsOnLoginOnly | frontend/src/app/public.guard.ts:12 | the verdict depends only on whether the user is logged in, not on the route or router state |
| Guard.GuardFollowsSession | frontend/src/app/public.guard.ts:11-17 | after logout the guard allows; after storing a non-empty token it redirects to /dashboard |
| Routes.FirstMatch | frontend/src/app/app.routes.ts:7-53 | the router takes the first route whose path matches, or none when none matches |
| Routes.RunGuards | frontend/src/app/app.routes.ts:10 | a route opens exactly when every guard on it allows |
| Routes.FirstMatchAt | frontend/src/app/app.routes.ts:7-53 | the first matching index decides the route |
| Routes.PublicPages | frontend/src/app/app.routes.ts:8-21 | auth/signup and auth/login resolve to their pages under the public guard |
| Routes.DashboardPageProtected | frontend/src/app/app.routes.ts:12-16 | dashboard resolves to its page under the auth guard |
| Routes.TransactionsPageProtected | frontend/src/app/app.routes.ts:22-26 | transactions resolves to its page under the auth guard |
| Routes.ProfilePageProtected | frontend/src/app/app.routes.ts:27-31 | profile resolves to its page under the auth guard |
| Routes.BudgetsPageProtected | frontend/src/app/app.routes.ts:38-42 | budgets resolves to its page under the auth guard |
| Routes.CategoriesPageProtected | frontend/src/app/app.routes.ts:43-47 | categories resolves to its page under the auth guard |
| Routes.EmptyPathIsSignup | frontend/src/app/app.routes.ts:48-52 | the empty path redirects to auth/signup and navigates exactly as auth/signup does |
| Routes.PublicPagesRedirectWhenLoggedIn | frontend/src/app/app.routes.ts:8-21 | a logged-in user opening login or signup is sent to /dashboard; a logged-out one sees the page |
| Routes.ShadowedRouteIrrelevant | frontend/src/app/app.routes.ts:33-37 | a later route with an earlier route's path never changes resolution and can be dropped |
| Routes.NoShadowMatch | frontend/src/app/app.routes.ts:7-53 | dropping a route that does not match a URL leaves that URL's resolution unchanged |
| Routes.DuplicateTransactionsRoute | frontend/src/app/app.routes.ts:22-37 | the two transactions entries are identical and the second never affects resolution |
| Routes.UnknownUrl | frontend/src/app/app.routes.ts:7-53 | a URL matching no path opens nothing, in every session and whatever the guard says |
| Api.Lookup | frontend/src/app/services/api.service.ts:47-53 | a parameter is present exactly when some pair has its key, and its value is one of that key's values |
| Api.SetParam | frontend/src/app/services/api.service.ts:65 | `HttpParams.set` makes the key read back the new value and leaves every other key alone |
| Api.CopyParams | frontend/src/app/services/api.service.ts:61-68 | copying an object's keys onto parameters: a copied key reads back its last value, any other key its earlier value |
| Api.LastValueOfDistinct | frontend/src/app/services/api.service.ts:63-66 | with distinct keys the last value of a key is its only value |
| Api.Headers | frontend/src/app/services/api.service.ts:17-22 | JSON content type and `Token <stored token>` as Authorization, with "null" when no token is stored |
| Api.HeadersFollowSession | frontend/src/app/services/api.service.ts:17-22 | headers follow the latest `setToken` or `logout` and ignore `setUsername` |
| Api.SummaryParams | frontend/src/app/services/api.service.ts:46-53 | start_date and end_date are sent only when non-empty, and nothing else is sent |
| Api.SetIfTruthy | frontend/src/app/services/api.service.ts:48-50 | the key holds the value exactly when the value is non-empty, and every other key is unchanged |
| Api.ComparisonParams | frontend/src/app/services/api.service.ts:147-156 | the explicit month overrides any month in the extra parameters; the others pass through |
| Api.ListParams | frontend/src/app/services/api.service.ts:60-103 | the list calls send exactly the given parameters |
| Api.Build | frontend/src/app/services/api.service.ts:46-208 | every call but signup and login carries the session headers, and the summary and comparison calls send their parameters |
| Api.OnlyAuthCallsAreAnonymous | frontend/src/app/services/api.service.ts:133-145 | Authorization is missing exactly on signup and login |
| Api.ServerDetail | frontend/src/app/services/api.service.ts:34-40 | a truthy `detail` wins, then the JSON text of an object body, then the error's message |
| Api.ErrorMessage | frontend/src/app/services/api.service.ts:25-41 | a client-side event gives "Error: message" before any status check; status 0 gives the fixed connection message; otherwise "Error status: detail" |
| Api.ErrorMessageClassifies | frontend/src/app/services/api.service.ts:25-41 | the message alone recovers which case applied, and the status |
| Api.ServerMessageClass | frontend/src/app/services/api.service.ts:34-39 | a server-side message reads back as its own status, whatever detail follows it |
| Api.HandleError | frontend/src/app/services/api.service.ts:42-43 | the notification shows the same message the thrown error carries, with a Close action for 5 seconds |
| BudgetsPage.FindRecord | frontend/src/app/components/budgets/budgets.component.ts:238-242 | `find`: none exactly when no record has the budget's category, year and month, otherwise the first such record |
| BudgetsPage.SpentAmount | frontend/src/app/components/budgets/budgets.component.ts:233-246 | spent is the first matching record's actual amount, 0 when none matches |
| BudgetsPage.RemainingAmount | frontend/src/app/components/budgets/budgets.component.ts:153-156 | remaining plus spent is the allocation |
| BudgetsPage.RemainingIsServerDifference | frontend/src/app/components/budgets/budgets.component.ts:153-156 | when the budget's amount is the record's, remaining is the server's `difference` |
| BudgetsPage.SpentFromRows | frontend/src/app/components/budgets/budgets.component.ts:238-245 | matched against the comparison records of its month, a budget's spent is its category's spending in that month |
| BudgetsPage.SpentIsServerMonthSpending | frontend/src/app/components/budgets/budgets.component.ts:238-245 | against the server's comparison answer, spent equals the category's spending in the budget's month |
| BudgetsPage.Hundredfold | frontend/src/app/components/budgets/budgets.component.ts:163 | `spent / amount * 100` as an exact fraction |
| BudgetsPage.JsPercentage | frontend/src/app/components/budgets/budgets.component.ts:168 | the unguarded percentage: +Infinity, -Infinity or NaN for a zero allocation by the sign of spent; otherwise the exact fraction |
| BudgetsPage.PercentageAsWritten | frontend/src/app/components/budgets/budgets.component.ts:158-164 | 0 under the strict `=== 0` test, which only the number 0 passes; otherwise the unguarded quotient, so a listed "0.00" gives NaN with nothing spent and +Infinity with spending |
| BudgetsPage.StatusAsWritten | frontend/src/app/components/budgets/budgets.component.ts:166-177 | exceeded at 100% or more, warning from 80% to below 100%, otherwise on-track; for a zero allocation exceeded exactly when something was spent |
| BudgetsPage.ProgressBarClass | frontend/src/app/components/budgets/budgets.component.ts:248-265 | green below 80%, red at 100% or more; green for the number 0, and red for a listed "0.00" exactly when nothing or something positive was spent |
| BudgetsPage.StatusMatchesBarForNonZeroAmount | frontend/src/app/components/budgets/budgets.component.ts:166-177 | for a non-zero allocation the status and the bar class agree: on-track/green, warning/yellow, exceeded/red |
| BudgetsPage.StatusMatchesBarUnlessZero | frontend/src/app/components/budgets/budgets.component.ts:158-177 | status and bar disagree exactly for the number 0 with spending and for a listed "0.00" with nothing spent |
| BudgetsPage.ZeroAmountStatusDisagrees | frontend/src/app/components/budgets/budgets.component.ts:248-265 | a listed "0.00" budget with nothing spent shows "on-track" next to a red bar |
| BudgetsPage.ZeroAmountExample | frontend/src/app/components/budgets/budgets.component.ts:248-265 | a concrete "0.00" budget whose comparison record shows nothing spent is "on-track" with a red bar |
| BudgetsPage.GuardedPercentage | frontend/src/app/components/budgets/budgets.component.ts:158-164 | with the zero test on the amount's value: 0 for a zero allocation in either form, otherwise spent times 100 over the allocation |
| BudgetsPage.BarClass | frontend/src/app/components/budgets/budgets.component.ts:256-265 | the bar colour from the guarded percentage: green for a zero allocation, green below 80%, red from 100% |
| BudgetsPage.BudgetStatus | frontend/src/app/components/budgets/budgets.component.ts:158-177 | the status from the guarded percentage always agrees with the guarded bar colour; a zero allocation is on-track |
| BudgetsPage.GuardedStatusAgreesElsewhere | frontend/src/app/components/budgets/budgets.component.ts:158-177 | the guarded status and colour differ from the written ones exactly for a zero allocation with spending or a listed "0.00" with nothing spent |
| BudgetsPage.CategoryName | frontend/src/app/components/budgets/budgets.component.ts:143-145 | the first matching category's name, "N/A" when none matches or the name is empty |
| BudgetsPage.ExpenseOnly | frontend/src/app/components/budgets/budgets.component.ts:185 | the page keeps exactly the expense categories |
| BudgetsPage.FormatMonth | frontend/src/app/components/budgets/budgets.component.ts:329-331 | a month 1..12 becomes two digits denoting it |
| BudgetsPage.FormatMonthIsPad2 | frontend/src/app/components/budgets/budgets.component.ts:329-331 | the client's month formatting is the server's `%m` |
| BudgetsPage.Years | frontend/src/app/components/budgets/budgets.component.ts:333-336 | five consecutive ascending years centred on the current year |
| BudgetsPage.ComparisonMonthParam | frontend/src/app/components/budgets/budgets.component.ts:221 | the comparison month parameter is the server's `%Y-%m` text of the selected month |
| BudgetsPage.ComparisonMonthRoundTrip | frontend/src/app/components/budgets/budgets.component.ts:221 | the server parses the sent month parameter back to the selected month |
| BudgetsPage.ListParamsAsWritten | frontend/src/app/components/budgets/budgets.component.ts:197-202 | the list request sends the month unpadded, the year, page = pageIndex + 1 and the page size |
| BudgetsPage.ListParams | frontend/src/app/components/budgets/budgets.component.ts:197-202 | the list request with the month zero-padded |
| BudgetsPage.PageParams | frontend/src/app/components/budgets/budgets.component.ts:197-202 | month, year, page = pageIndex + 1 and page size, each under its own key |
| BudgetsPage.UnpaddedListMissesDialogBudget | frontend/src/app/components/budgets/budgets.component.ts:198 | for January to September a budget saved as "01".."09" is never listed |
| BudgetsPage.PaddedListMatchesComparisonLookup | budget_tracker/budget/views.py:85-91 | with a padded month the list holds exactly the budgets the comparison looks up for that month |
| BudgetsPage.AddBudget | frontend/src/app/components/budgets/budgets.component.ts:267-272 | a request is sent exactly when category and amount are both truthy, carrying the selected month and year |
| BudgetsPage.StoredAsWritten | frontend/src/app/components/budgets/budgets.component.ts:270 | the number month posted by `addBudget` is stored as its unpadded text |
| BudgetsPage.StoredPadded | frontend/src/app/components/budgets/budgets.component.ts:270 | posting the month formatted stores the two-digit form |
| BudgetsPage.AddedBudgetMissedByComparison | frontend/src/app/components/budgets/budgets.component.ts:267-277 | a budget added for January to September is invisible to the comparison, which reports 0 budgeted |
| BudgetsPage.AddedBudgetSeenByComparison | budget_tracker/budget/views.py:217-237 | a budget stored with a padded month is the amount the comparison reports |
| SummaryView.Balance | frontend/src/app/components/financial-summary/financial-summary.component.ts:126-129 | 0 without data, otherwise income minus expenses |
| SummaryView.BalanceIsNetBalance | frontend/src/app/components/financial-summary/financial-summary.component.ts:126-129 | the page's balance equals the server's net balance, that is, income minus expenses over the resolved range |
| SummaryView.Look | frontend/src/app/components/financial-summary/financial-summary.component.ts:131-165 | blue card, icon and trend, an upward arrow and "Positive cash flow" exactly when the balance is at least 0; the text class never changes |
| SummaryView.LookIsConsistent | frontend/src/app/components/financial-summary/financial-summary.component.ts:131-165 | every sign-dependent piece flips together, and zero counts as positive |
| SummaryView.DefaultRange | frontend/src/app/components/financial-summary/financial-summary.component.ts:50-52 | the default range is the current month's first to last day, covering exactly that month |
| SummaryView.RequestParams | frontend/src/app/components/financial-summary/financial-summary.component.ts:97-105 | each chosen date is sent under its key as `YYYY-MM-DD` with a four-digit year, and a cleared date is not sent |
| SummaryView.DefaultRangeReachesServer | frontend/src/app/components/financial-summary/financial-summary.component.ts:97-105 | for every supported clock date, the server reads the default request back as the same whole month |
| SummaryView.OneEndIgnored | budget_tracker/budget/views.py:105-116 | when one date is cleared the server ignores the other and uses this month up to today |
| ListPages.Ordering | frontend/src/app/components/transactions/transactions.component.ts:102 | "" exactly without an active sort; otherwise the column, prefixed by "-" exactly when descending |
| ListPages.OrderingRoundTrip | frontend/src/app/components/categories/categories.component.ts:98 | the ordering text reads back as the column and whether it is descending |
| ListPages.PageNumber | frontend/src/app/components/transactions/transactions.component.ts:100 | page is pageIndex + 1, or 1 without a paginator |
| ListPages.PageSize | frontend/src/app/components/transactions/transactions.component.ts:101 | page_size is the paginator's size, or 10 without one |
| ListPages.BaseParams | frontend/src/app/components/categories/categories.component.ts:95-99 | exactly page, page_size and ordering are sent |
| ListPages.FirstLoadAsksForFirstPage | frontend/src/app/components/categories/categories.component.ts:96-97 | before the paginator exists the request asks for page 1 of size 10 |
| ListPages.TransactionParams | frontend/src/app/components/transactions/transactions.component.ts:99-104 | filter keys override the defaults; other keys keep the default paging and ordering |
| ListPages.FiltersOverrideDefaults | frontend/src/app/components/transactions/transactions.component.ts:99-104 | a given filter is sent with its value, and page and ordering are always sent |
| ListPages.CategoryParams | frontend/src/app/components/categories/categories.component.ts:101-107 | name and type are sent only when non-empty, with the paging and ordering defaults |
| ListPages.CategoryFiltersReachServer | budget_tracker/budget/views.py:22-35 | the server lists exactly the categories matching the form's filter values |
| ListPages.StartLoad | frontend/src/app/components/transactions/transactions.component.ts:97-98 | a load sets the loading flag and clears the error, keeping the items |
| ListPages.FinishLoad | frontend/src/app/components/transactions/transactions.component.ts:106-114 | either outcome clears loading; success replaces the items, failure sets the message |
| ListPages.Delete | frontend/src/app/components/categories/categories.component.ts:136-163 | nothing happens without confirmation; otherwise the delete is sent, loading ends off, a reload follows exactly on success and the message is set exactly on failure |
| ListPages.FindCategory | frontend/src/app/components/transactions/transactions.component.ts:181 | none exactly when no category has the id, otherwise the first that does |
| ListPages.TransactionCategoryName | frontend/src/app/components/transactions/transactions.component.ts:180-183 | the matching category's name, "Unknown" when none matches |
| ListPages.CategoryNameOfUniqueIds | frontend/src/app/components/transactions/transactions.component.ts:180-183 | with unique ids a listed category's id gives back its name |
| Forms.RequiredAmount | frontend/src/app/components/transactions/transaction-form-dialog/transaction-form-dialog.component.ts:53 | `required` with `min(0.01)` asks for at least one cent |
| Forms.RequiredText | frontend/src/app/components/categories/category-form-dialog/category-form-dialog.component.ts:49 | `required` with `minLength(n)` asks for a JavaScript length of at least n, and at least one character |
| Forms.Utf16Length | frontend/src/app/components/categories/category-form-dialog/category-form-dialog.component.ts:49 | the `length` a validator sees: between the number of characters and twice it, equal to it without characters beyond the Basic Multilingual Plane |
| Forms.AstralCharactersCountTwice | frontend/src/app/components/signup/signup.component.ts:44 | four characters beyond the Basic Multilingual Plane satisfy `minLength(8)` |
| Forms.OneAtSign | frontend/src/app/components/signup/signup.component.ts:43 | an address passing `Validators.email` has exactly one @, splitting it into local part and domain |
| Forms.PlainAddress | frontend/src/app/components/signup/signup.component.ts:43 | `user@host.tld` with letters and digits and short enough parts passes `Validators.email` |
| Forms.PlainDomain | frontend/src/app/components/signup/signup.component.ts:43 | `host.tld` with letters and digits and labels of at most 63 characters is a valid domain part |
| Forms.MissingPartsRefused | frontend/src/app/components/signup/signup.component.ts:43 | an address with nothing before or after the @ fails `Validators.email` |
| TransactionDialog.ValidMeans | frontend/src/app/components/transactions/transaction-form-dialog/transaction-form-dialog.component.ts:52-58 | valid exactly with an amount of at least 0.01 and description, category, date and type present; the blank form is invalid with type "expense" |
| TransactionDialog.PatchAsWritten | frontend/src/app/components/transactions/transaction-form-dialog/transaction-form-dialog.component.ts:80-88 | the edit form gets the listed amount, description and date, and empty category and type |
| TransactionDialog.Patch | budget_tracker/budget/serializers.py:19-25 | the edit form filled from the members the server sends: category key and `category_type` |
| TransactionDialog.OpenAsWritten | frontend/src/app/components/transactions/transaction-form-dialog/transaction-form-dialog.component.ts:61-66 | the form is patched only when editing a given transaction |
| TransactionDialog.Open | frontend/src/app/components/transactions/transaction-form-dialog/transaction-form-dialog.component.ts:61-66 | the blank form unless editing a given transaction, which is patched in |
| TransactionDialog.EditFormStartsInvalid | frontend/src/app/components/transactions/transaction-form-dialog/transaction-form-dialog.component.ts:84-86 | every edit dialog opens invalid |
| TransactionDialog.EditFormStartsValid | budget_tracker/budget/serializers.py:19-25 | patched from the served members, a complete transaction's edit form opens valid |
| TransactionDialog.Payload | frontend/src/app/components/transactions/transaction-form-dialog/transaction-form-dialog.component.ts:97-99 | the posted body is the form value with the date rewritten as text |
| TransactionDialog.Submit | frontend/src/app/components/transactions/transaction-form-dialog/transaction-form-dialog.component.ts:90-128 | an invalid form sends nothing and changes nothing; an update exactly with edit mode and a truthy id; success closes with true; failure clears the flag and sets the mode's message |
| TransactionDialog.Cancel | frontend/src/app/components/transactions/transaction-form-dialog/transaction-form-dialog.component.ts:130-132 | cancel closes with false |
| TransactionDialog.SubmittedDateReadBack | frontend/src/app/components/transactions/transaction-form-dialog/transaction-form-dialog.component.ts:98-99 | the server reads the sent date back as the picked date |
| TransactionDialog.UnchangedEditSavesSameTransaction | frontend/src/app/components/transactions/transaction-form-dialog/transaction-form-dialog.component.ts:101-102 | saving an unchanged edit updates the same transaction with its own amount, category and date |
| CategoryDialog.Prefill | frontend/src/app/components/categories/category-form-dialog/category-form-dialog.component.ts:48-53 | fields come from the given category when non-empty, else empty, with type "expense" |
| CategoryDialog.ValidMeans | frontend/src/app/components/categories/category-form-dialog/category-form-dialog.component.ts:49-50 | valid exactly with a name whose JavaScript length is two or more and a type; a new dialog starts invalid |
| CategoryDialog.Open | frontend/src/app/components/categories/category-form-dialog/category-form-dialog.component.ts:36-53 | the prefilled form with no flag set and no message |
| CategoryDialog.Submit | frontend/src/app/components/categories/category-form-dialog/category-form-dialog.component.ts:62-102 | an invalid form sends nothing; update in edit mode, create otherwise; success closes with the server's category and the mode; failure clears both flags and sets the mode's message |
| CategoryDialog.Cancel | frontend/src/app/components/categories/category-form-dialog/category-form-dialog.component.ts:58-60 | cancel closes with no value |
| CategoryDialog.SuccessKeepsLoading | frontend/src/app/components/categories/category-form-dialog/category-form-dialog.component.ts:73-84 | only a failure clears the loading flag |
| CategoryDialog.UnchangedEditSavesSameCategory | frontend/src/app/components/categories/category-form-dialog/category-form-dialog.component.ts:71-72 | saving an unchanged edit updates the same category with its own name and type |
| CategoryDialog.SavedMessage | frontend/src/app/components/categories/categories.component.ts:128-132 | a confirmation only for a truthy result |
| CategoryDialog.ReportFollowsMode | frontend/src/app/components/categories/categories.component.ts:128-132 | the page reports "updated" exactly for an edit, naming the category the server returned; a cancelled dialog reports nothing |
| BudgetDialog.Open | frontend/src/app/components/budgets/budget-form-dialog/budget-form-dialog.component.ts:44-61 | editing exactly when a budget is given, copying its four fields; a new form has today's month as two digits and today's year |
| BudgetDialog.NewMonthIsStoredForm | frontend/src/app/components/budgets/budget-form-dialog/budget-form-dialog.component.ts:57 | a new budget's month is the two-digit form the comparison looks up |
| BudgetDialog.NewFormNeedsAmountAndCategory | frontend/src/app/components/budgets/budget-form-dialog/budget-form-dialog.component.ts:36-41 | a new form is invalid until an amount and a category are given |
| BudgetDialog.Submit | frontend/src/app/components/budgets/budget-form-dialog/budget-form-dialog.component.ts:63-74 | an invalid form stays open unchanged; a valid one closes with exactly the form value |
| BudgetDialog.Cancel | frontend/src/app/components/budgets/budget-form-dialog/budget-form-dialog.component.ts:76-79 | cancel closes with no value |
| BudgetDialog.UnchangedEditReturnsBudget | frontend/src/app/components/budgets/budget-form-dialog/budget-form-dialog.component.ts:46-53 | saving an unchanged edit hands back the budget's own fields |
| SignupPage.ValidMeans | frontend/src/app/components/signup/signup.component.ts:41-45 | valid exactly with a username, an email-shaped address and a password whose JavaScript length is eight or more |
| SignupPage.Submit | frontend/src/app/components/signup/signup.component.ts:48-64 | no request unless valid; the payload is exactly the three fields; on success the token, then the username, are stored and the page goes to /dashboard |
| SignupPage.ValidFormHasEveryField | budget_tracker/budget/views.py:277-281 | a valid form always passes the server's missing-field check |
| SignupPage.AcceptedSignupLogsIn | frontend/src/app/components/signup/signup.component.ts:56-60 | a fresh account accepted with a token leaves the browser logged in as that user, and the public guard then redirects |

## Left out

- HTTP transport, rxjs subscriptions, MatDialog and Angular dependency injection are not modelled. Each request's outcome is a parameter: a success value or an error shape.
- localStorage is not real storage here. It is a key-to-string map carried in the session state.
- The system clock is not modelled. "Today" is a parameter.
- Time zones are left out. `toISOString` can shift a locally picked date by one day; the model renders the picked date itself.
- `new Date(string)` parsing is left out. It is also time-zone dependent.
- `toLocaleString` month names (`getMonthName`) are left out because they depend on the locale.
- The d3 charts are left out. They are DOM and floating-point rendering.
- Floating-point arithmetic is replaced by exact arithmetic. Amounts are integer cents and percentages are exact fractions, so no rounding is modelled.
- DRF serialises decimal fields as strings. The model treats amounts as numbers, as the client's interfaces do, except in the budgets page's strict `=== 0` test, where `ClientBudget.amountIsText` records that a listed amount is a string.
- `Number()` conversion of serialised values is left out. Month and year comparisons use numbers directly.
- DRF pagination is not modelled. List endpoints return every matching row; the `results`/`count` envelope is left out.
- Query-parameter parsing by the ORM is left out. The transaction filters are taken already parsed as dates and amounts.
- The server has no ordering backend. The `ordering` parameter is built and sent, but the server always orders transactions newest first.
- The order of rows with equal dates is not promised. `ListTransactions` only promises newest-first order by date.
- Dates.ParseDate: Django's own date parsing of filter parameters is approximated by the `strptime` model.
- Dates.ParseDate: only ASCII digits are accepted. Python's `\d` also accepts other Unicode digits.
- Dates.ParseYearMonth: only ASCII digits are accepted, while Python's `\d` also accepts other Unicode decimal digits, so `"２０２４-06"` parses on the server. `Comparison.ResolveMonth` and `Comparison.Get` inherit this and answer 400 for such a month where the server answers 200.
- Passwords, `authenticate`, token issuance and hashing are not modelled. Whether authentication succeeds, the issued token and the password check are parameters.
- AuthViews.Signup: exceptions from `create_user` and the 500 answer are not modelled.
- The body of an uncaught-error 500 is a fixed placeholder, not Django's error page.
- The auth guard is a parameter of navigation: `auth.guard.ts` is not part of this model.
- The login page, profile page, dashboard and navigation are not modelled.
- `ProfileView`, `predict_expenses` and `get_records` are not modelled. They are profile plumbing and placeholders.
- The serializers' ownership stamping (`user = request.user`) is folded into the model: every created row belongs to the requesting user.
- `updateBudget`, `deleteBudget` and `loadCategories` on the budgets page are not modelled; each only sends a request and reloads.
- The `category_name` join on the budgets list is not modelled.
- `isFilterActive` is not modelled.
- The race between overlapping list loads is left out. It is a concurrency concern.
- Snackbar texts and durations are modelled only in `Api.HandleError`.
- Api.Build: the list calls require parameter objects with distinct keys, as JavaScript objects have. Request bodies are not modelled.
- CategoryDialog.SavedMessage: its contract states only when a message appears. `CategoryDialog.ReportFollowsMode` states the text.
- Views.Lower: folds ASCII letters only, as SQLite's case-insensitive `LIKE` does. On PostgreSQL `icontains` compares `UPPER()` of both sides and folds every cased letter. The database engine is a deployment setting outside this model.
- Models.DeleteUserKeepsReferences: this requires category ids to be unique, as database primary keys are.

## Findings

| source | as written | input that shows it | evidently intended | confidence | as-written member | corrected member |
|---|---|---|---|---|---|---|
| frontend/src/app/components/budgets/budgets.component.ts:248-265 | the zero test `budget.amount === 0` compares with the number 0, but the budget list serialises amounts as decimal strings, so the test never holds for a listed budget, and `getBudgetStatus` has no zero test at all | a budget listed with amount "0.00" and nothing spent that month: 0 / "0.00" is NaN, which fails `< 80` and `< 100` (red bar) and fails `>= 100` and `>= 80` ("on-track") | test the amount's value, `Number(budget.amount) === 0`, in the percentage and the status alike, so a zero allocation reads 0%: green and on-track | high, not executed | BudgetsPage.ZeroAmountStatusDisagrees | BudgetsPage.BudgetStatus |
| frontend/src/app/components/budgets/budgets.component.ts:198 | the budgets list sends `month` as `selectedMonth.toString()`, while budgets are stored and compared as two-character text | month 6: the list asks for "6"; a budget stored with month "06", the form the comparison looks up and the budget dialog sends, is not listed | send `formatMonth(selectedMonth)`, the form the comparison already uses; together with the two-digit post at line 270 the list and the comparison then agree | high, not executed | BudgetsPage.UnpaddedListMissesDialogBudget | BudgetsPage.PaddedListMatchesComparisonLookup |
| frontend/src/app/components/budgets/budgets.component.ts:270 | `addBudget` posts the month as a number, which the character field stores unpadded | month 6: stored "6"; the comparison looks up "06" and reports 0 budgeted | post the two-digit month, as the budget dialog does | high, not executed | BudgetsPage.AddedBudgetMissedByComparison | BudgetsPage.AddedBudgetSeenByComparison |
| frontend/src/app/components/transactions/transaction-form-dialog/transaction-form-dialog.component.ts:84-86 | `patchForm` reads `transaction.category.id` and `transaction.transaction_type`, but the list serialises `category` as a number and the type as `category_type` | any listed transaction opened for editing: category and type are undefined, so the form is invalid and Save does nothing | patch `category` and `category_type` as the serializer sends them | medium, not executed | TransactionDialog.EditFormStartsInvalid | TransactionDialog.EditFormStartsValid |

=== FILE: api.dfy ===
/** The client's HTTP layer (`ApiService`): the request each call builds,
    its headers and query parameters, and the classification of a failed
    response into one user-facing message. Transport is outside the model;
    a request is the description of what would be sent. */
module Api {
  import opened Common
  import opened Session

  // ---------------------------------------------------------------------
  // Headers and query parameters.

  type Pairs = seq<(string, string)>

  /** The value stored under `key`, if any. */
  function Lookup(ps: Pairs, key: string): (r: Option<string>)
    ensures r.Some? <==> exists i :: 0 <= i < |ps| && ps[i].0 == key
    ensures r.Some? ==> (key, r.value) in ps
  {
    if |ps| == 0 then None
    else if ps[0].0 == key then Some(ps[0].1)
    else
      var r := Lookup(ps[1..], key);
      assert forall i :: 1 <= i < |ps| ==> ps[i] == ps[1..][i - 1];
      r
  }

  predicate DistinctKeys(ps: Pairs) {
    forall i, j :: 0 <= i < j < |ps| ==> ps[i].0 != ps[j].0
  }

  /** `HttpParams.set`: replaces the value of an existing key in place, or
      appends the key. */
  function SetParam(ps: Pairs, key: string, value: string): (r: Pairs)
    ensures Lookup(r, key) == Some(value)
    ensures forall k :: k != key ==> Lookup(r, k) == Lookup(ps, k)
  {
    if |ps| == 0 then [(key, value)]
    else if ps[0].0 == key then [(key, value)] + ps[1..]
    else [ps[0]] + SetParam(ps[1..], key, value)
  }

  /** Copying every own key of a caller's parameter object, one `set` at a
      time. */
  function CopyParams(acc: Pairs, ps: Pairs): (r: Pairs)
    ensures forall k :: Lookup(r, k) == (if Lookup(ps, k).Some? && LastValue(ps, k).Some?
                                           then LastValue(ps, k) else Lookup(acc, k))
    decreases |ps|
  {
    if |ps| == 0 then acc
    else
      var r := CopyParams(SetParam(acc, ps[0].0, ps[0].1), ps[1..]);
      assert forall k :: Lookup(ps, k).Some? <==> k == ps[0].0 || Lookup(ps[1..], k).Some?;
      r
  }

  /** The value a key ends up with when its pairs are applied in order. */
  function LastValue(ps: Pairs, key: string): (r: Option<string>)
    ensures r.Some? <==> Lookup(ps, key).Some?
  {
    if |ps| == 0 then None
    else
      var rest := LastValue(ps[1..], key);
      assert Lookup(ps, key).Some? <==> ps[0].0 == key || Lookup(ps[1..], key).Some? by {
        assert forall i :: 1 <= i < |ps| ==> ps[i] == ps[1..][i - 1];
      }
      if rest.Some? then rest else if ps[0].0 == key then Some(ps[0].1) else None
  }

  /** With distinct keys, every pair is what its key looks up. */
  lemma LookupOfDistinct(ps: Pairs, k: string, v: string)
    requires DistinctKeys(ps) && (k, v) in ps
    ensures Lookup(ps, k) == Some(v)
  {
    var i :| 0 <= i < |ps| && ps[i] == (k, v);
    assert ps[i].0 == k;
    var w := Lookup(ps, k).value;
    var j :| 0 <= j < |ps| && ps[j] == (k, w);
    assert i == j;
  }

  /** A JavaScript object has one value per key, so the last value of a key
      is its only one. */
  lemma {:induction false} LastValueOfDistinct(ps: Pairs, key: string)
    requires DistinctKeys(ps)
    ensures LastValue(ps, key) == Lookup(ps, key)
  {
    if |ps| > 0 {
      assert DistinctKeys(ps[1..]) by {
        assert forall i :: 1 <= i < |ps| ==> ps[i] == ps[1..][i - 1];
      }
      LastValueOfDistinct(ps[1..], key);
      if ps[0].0 == key {
        forall i | 0 <= i < |ps[1..]| ensures ps[1..][i].0 != key {
          assert ps[1..][i] == ps[i + 1];
        }
      }
    }
  }

  /** `Content-Type` and the token header. A missing token is rendered the
      way a template literal renders null. */
  function Headers(s: State): (r: Pairs)
    ensures Lookup(r, "Content-Type") == Some("application/json")
    ensures GetToken(s).Some? ==> Lookup(r, "Authorization") == Some("Token " + GetToken(s).value)
    ensures GetToken(s).None? ==> Lookup(r, "Authorization") == Some("Token null")
    ensures |r| == 2
  {
    var token := if GetToken(s).Some? then GetToken(s).value else "null";
    assert "Token " + "null" == "Token null";
    [("Content-Type", "application/json"), ("Authorization", "Token " + token)]
  }

  /** Headers follow the session: the token just stored, or the literal
      "null" once logged out. */
  lemma HeadersFollowSession(s: State, t: string)
    ensures Lookup(Headers(SetToken(s, t)), "Authorization") == Some("Token " + t)
    ensures Lookup(Headers(Logout(s)), "Authorization") == Some("Token null")
    ensures Lookup(Headers(SetUsername(s, t)), "Authorization") == Lookup(Headers(s), "Authorization")
  {
  }

  /** `if (value) { params = params.set(key, value); }`: the key is set
      only for a non-empty value. */
  function SetIfTruthy(ps: Pairs, key: string, value: Option<string>): (r: Pairs)
    ensures Lookup(r, key) == (if Truthy(value) then value else Lookup(ps, key))
    ensures forall k :: k != key ==> Lookup(r, k) == Lookup(ps, k)
  {
    if Truthy(value) then SetParam(ps, key, value.value) else ps
  }

  /** Two optional filters set one after the other on keys the base does
      not hold: each key carries its own filter, every other key the base's
      value. */
  lemma TwoFilters(ps: Pairs, k1: string, v1: Option<string>, k2: string, v2: Option<string>)
    requires k1 != k2 && Lookup(ps, k1).None? && Lookup(ps, k2).None?
    ensures var r := SetIfTruthy(SetIfTruthy(ps, k1, v1), k2, v2);
            && Lookup(r, k1) == (if Truthy(v1) then v1 else None)
            && Lookup(r, k2) == (if Truthy(v2) then v2 else None)
            && forall k :: k != k1 && k != k2 ==> Lookup(r, k) == Lookup(ps, k)
  {
  }

  /** `start_date` and `end_date` are sent only when given and non-empty. */
  function SummaryParams(start: Option<string>, end: Option<string>): (r: Pairs)
    ensures Lookup(r, "start_date") == (if Truthy(start) then start else None)
    ensures Lookup(r, "end_date") == (if Truthy(end) then end else None)
    ensures forall k :: k != "start_date" && k != "end_date" ==> Lookup(r, k).None?
  {
    var withStart := SetIfTruthy([], "start_date", start);
    assert Lookup(withStart, "end_date").None?;
    SetIfTruthy(withStart, "end_date", end)
  }

  /** The caller's parameters, then `month`, which wins over any `month`
      key among them. */
  function ComparisonParams(month: string, ps: Pairs): (r: Pairs)
    requires DistinctKeys(ps)
    ensures Lookup(r, "month") == Some(month)
    ensures forall k :: k != "month" ==> Lookup(r, k) == Lookup(ps, k)
  {
    forall k ensures LastValue(ps, k) == Lookup(ps, k) {
      LastValueOfDistinct(ps, k);
    }
    SetParam(CopyParams([], ps), "month", month)
  }

  /** The generic list calls copy the caller's parameters unchanged. */
  function ListParams(ps: Pairs): (r: Pairs)
    requires DistinctKeys(ps)
    ensures forall k :: Lookup(r, k) == Lookup(ps, k)
  {
    forall k ensures LastValue(ps, k) == Lookup(ps, k) {
      LastValueOfDistinct(ps, k);
    }
    CopyParams([], ps)
  }

  // ---------------------------------------------------------------------
  // Requests.

  datatype Call =
    | GetFinancialSummary(start: Option<string>, end: Option<string>)
    | GetBudgets(params: Pairs)
    | GetCategories(params: Pairs)
    | GetTransactions(params: Pairs)
    | AddTransaction
    | UpdateTransaction(id: int)
    | DeleteTransaction(id: int)
    | UpdateUserProfile
    | SignupCall
    | LoginCall
    | GetBudgetComparison(month: string, params: Pairs)
    | DeleteBudget(id: int)
    | DeleteCategory(id: int)
    | CreateCategory
    | UpdateCategory(id: int)
    | UpdateBudget(id: int)
    | CreateBudget
    | CreateTransaction

  predicate WellFormedCall(c: Call) {
    match c
    case GetBudgets(ps) => DistinctKeys(ps)
    case GetCategories(ps) => DistinctKeys(ps)
    case GetTransactions(ps) => DistinctKeys(ps)
    case GetBudgetComparison(_, ps) => DistinctKeys(ps)
    case _ => true
  }

  datatype Request = Request(verb: string, path: string, headers: Pairs, params: Pairs)

  function Item(resource: string, id: int): string {
    resource + IntToString(id) + "/"
  }

  /** Every call but signup and login carries the session's headers. */
  function Build(s: State, c: Call): (r: Request)
    requires WellFormedCall(c)
    ensures r.headers == [] <==> c.SignupCall? || c.LoginCall?
    ensures r.headers != [] ==> r.headers == Headers(s)
    ensures c.GetFinancialSummary? ==> r.params == SummaryParams(c.start, c.end)
    ensures c.GetBudgetComparison? ==> Lookup(r.params, "month") == Some(c.month)
  {
    var h := Headers(s);
    match c
    case GetFinancialSummary(start, end) => Request("GET", "summary/", h, SummaryParams(start, end))
    case GetBudgets(ps) => Request("GET", "budgets/", h, ListParams(ps))
    case GetCategories(ps) => Request("GET", "categories/", h, ListParams(ps))
    case GetTransactions(ps) => Request("GET", "transactions/", h, ListParams(ps))
    case AddTransaction => Request("POST", "transactions/", h, [])
    case UpdateTransaction(id) => Request("PUT", Item("transactions/", id), h, [])
    case DeleteTransaction(id) => Request("DELETE", Item("transactions/", id), h, [])
    case UpdateUserProfile => Request("PUT", "profile/", h, [])
    case SignupCall => Request("POST", "signup/", [], [])
    case LoginCall => Request("POST", "login/", [], [])
    case GetBudgetComparison(month, ps) => Request("GET", "budget-comparison/", h, ComparisonParams(month, ps))
    case DeleteBudget(id) => Request("DELETE", Item("budgets/", id), h, [])
    case DeleteCategory(id) => Request("DELETE", Item("categories/", id), h, [])
    case CreateCategory => Request("POST", "categories/", h, [])
    case UpdateCategory(id) => Request("PUT", Item("categories/", id), h, [])
    case UpdateBudget(id) => Request("PUT", Item("budgets/", id), h, [])
    case CreateBudget => Request("POST", "budgets/", h, [])
    case CreateTransaction => Request("POST", "transactions/", h, [])
  }

  /** Signup and login never send a token, even from a logged-in session;
      every other call always sends one. */
  lemma OnlyAuthCallsAreAnonymous(s: State, c: Call)
    requires WellFormedCall(c)
    ensures Lookup(Build(s, c).headers, "Authorization").None? <==> c.SignupCall? || c.LoginCall?
  {
  }

  // ---------------------------------------------------------------------
  // Error classification.

  /** What a failed request's `error` field held: a client-side
      `ErrorEvent`, a parsed JSON object (with its `detail` member when it
      has one, and its JSON text), a bare string or number, or nothing. */
  datatype ErrorPayload =
    | EventPayload(eventMessage: string)
    | ObjectPayload(detail: Option<string>, json: string)
    | TextPayload(text: string)
    | NoPayload

  datatype HttpError = HttpError(status: nat, message: string, payload: ErrorPayload)

  const ConnectionMessage: string :=
    "Cannot connect to the server. " + "Please check your internet connection or try again later."

  /** The part of a server-side message after the status. */
  function ServerDetail(e: HttpError): (r: string)
    ensures e.payload.ObjectPayload? && Truthy(e.payload.detail) ==> r == e.payload.detail.value
    ensures e.payload.ObjectPayload? && !Truthy(e.payload.detail) ==> r == e.payload.json
    ensures !e.payload.ObjectPayload? ==> r == e.message
  {
    match e.payload
    case ObjectPayload(detail, json) => if Truthy(detail) then detail.value else json
    case _ => e.message
  }

  /** `handleError`'s message: client-side errors first, then the status 0
      connection failure, then the server's answer. */
  function ErrorMessage(e: HttpError): (r: string)
    ensures e.payload.EventPayload? ==> r == "Error: " + e.payload.eventMessage
    ensures !e.payload.EventPayload? && e.status == 0 ==> r == ConnectionMessage
    ensures !e.payload.EventPayload? && e.status != 0 ==>
      r == "Error " + NatToString(e.status) + ": " + ServerDetail(e)
  {
    if e.payload.EventPayload? then "Error: " + e.payload.eventMessage
    else if e.status == 0 then ConnectionMessage
    else "Error " + NatToString(e.status) + ": " + ServerDetail(e)
  }

  datatype ErrorClass = ClientSide | Unreachable | ServerStatus(status: nat) | Unrecognised

  /** Reading a message back: which branch produced it, and with which
      status. */
  function ClassOf(msg: string): ErrorClass {
    if msg == ConnectionMessage then Unreachable
    else if |msg| >= 7 && msg[..7] == "Error: " then ClientSide
    else if |msg| >= 6 && msg[..6] == "Error " && |LeadingDigits(msg[6..])| > 0 then
      ServerStatus(DigitsValue(LeadingDigits(msg[6..])))
    else Unrecognised
  }

  /** The message alone tells the three branches apart and carries the
      status faithfully. */
  lemma ErrorMessageClassifies(e: HttpError)
    ensures ClassOf(ErrorMessage(e)) ==
      if e.payload.EventPayload? then ClientSide
      else if e.status == 0 then Unreachable
      else ServerStatus(e.status)
  {
    var r := ErrorMessage(e);
    assert ConnectionMessage[0] == 'C';
    if e.payload.EventPayload? {
      assert r[0] == 'E';
      assert r[..7] == "Error: ";
    } else if e.status != 0 {
      ServerMessageClass(e.status, ServerDetail(e));
    }
  }

  /** A server-side message reads back as its status, whatever detail
      follows. */
  lemma ServerMessageClass(status: nat, detail: string)
    ensures ClassOf("Error " + NatToString(status) + ": " + detail) == ServerStatus(status)
  {
    var digits := NatToString(status);
    var rest := ": " + detail;
    var r := "Error " + NatToString(status) + ": " + detail;
    assert r != ConnectionMessage by {
      assert r == "Error " + (digits + rest);
      assert r[0] == 'E' && ConnectionMessage[0] == 'C';
    }
    assert r[..6] == "Error " && r[..7] != "Error: " by {
      assert r == "Error " + (digits + rest);
      assert r[..7][6] == r[6] == digits[0] && IsDigit(r[6]);
    }
    assert LeadingDigits(r[6..]) == digits by {
      assert r == "Error " + (digits + rest);
      assert r[6..] == digits + rest;
      LeadingDigitsOfRendering(status, rest);
    }
    DigitsValueOfNatToString(status);
  }

  datatype Notification = Notification(text: string, action: string, durationMs: int)

  /** The snackbar and the thrown error carry the same message. */
  function HandleError(e: HttpError): (r: (Notification, string))
    ensures r.0.text == r.1 && ClassOf(r.1) == ClassOf(ErrorMessage(e))
    ensures r.0.action == "Close" && r.0.durationMs == 5000
  {
    var m := ErrorMessage(e);
    (Notification(m, "Close", 5000), m)
  }
}

=== FILE: auth_views.dfy ===
/** The two unauthenticated endpoints (`signup` and `login_view`): the order
    in which they validate a request and the answer each check produces.
    Password hashing, `authenticate` and token issuance are outside the
    model: whether the credentials check out is a parameter, and so is the
    token key handed back. */
module AuthViews {
  import opened Common
  import opened Models

  datatype Body =
    | ErrorBody(error: string)
    | SignedUp(message: string, token: string, username: string)
    | LoggedIn(token: string, username: string)
    | ServerFailure

  datatype Response = Response(status: int, body: Body)

  const SignupFieldsMessage: string := "Username, email, and password are required"
  const UsernameTakenMessage: string := "Username already exists"
  const EmailTakenMessage: string := "Email already exists"
  const SignupAuthFailedMessage: string := "Authentication failed after user creation"
  const SignupSuccessMessage: string := "User created successfully"
  const LoginFieldsMessage: string := "Email and password are required"
  const InvalidCredentialsMessage: string := "Invalid Credentials"

  predicate UsernameTaken(db: Db, name: string) {
    exists x :: x in db.users && x.username == name
  }

  predicate EmailTaken(db: Db, email: string) {
    exists x :: x in db.users && x.email == email
  }

  predicate UniqueUsernames(db: Db) {
    forall i, j :: 0 <= i < j < |db.users| ==> db.users[i].username != db.users[j].username
  }

  predicate UniqueEmails(db: Db) {
    forall i, j :: 0 <= i < j < |db.users| ==> db.users[i].email != db.users[j].email
  }

  /** `signup`: every field present, then a fresh username, then a fresh
      email, then the account is created. The account stays even when the
      follow-up authentication fails (401). */
  function Signup(db: Db, username: Option<string>, email: Option<string>, password: Option<string>,
                  newId: UserId, authenticates: bool, token: string)
    : (r: (Db, Response))
    ensures !Truthy(username) || !Truthy(email) || !Truthy(password) ==>
      r == (db, Response(400, ErrorBody(SignupFieldsMessage)))
    ensures Truthy(username) && Truthy(email) && Truthy(password) && UsernameTaken(db, username.value) ==>
      r == (db, Response(400, ErrorBody(UsernameTakenMessage)))
    ensures Truthy(username) && Truthy(email) && Truthy(password) && !UsernameTaken(db, username.value)
            && EmailTaken(db, email.value) ==>
      r == (db, Response(400, ErrorBody(EmailTakenMessage)))
    ensures r.1.status != 400 <==>
      Truthy(username) && Truthy(email) && Truthy(password)
      && !UsernameTaken(db, username.value) && !EmailTaken(db, email.value)
    ensures r.1.status != 400 ==>
      && r.0 == db.(users := db.users + [User(newId, username.value, email.value)])
      && (r.1.status == 201 <==> authenticates)
      && (authenticates ==> r.1.body == SignedUp(SignupSuccessMessage, token, username.value))
      && (!authenticates ==> r.1 == Response(401, ErrorBody(SignupAuthFailedMessage)))
  {
    if !Truthy(username) || !Truthy(email) || !Truthy(password) then
      (db, Response(400, ErrorBody(SignupFieldsMessage)))
    else if UsernameTaken(db, username.value) then
      (db, Response(400, ErrorBody(UsernameTakenMessage)))
    else if EmailTaken(db, email.value) then
      (db, Response(400, ErrorBody(EmailTakenMessage)))
    else
      var db' := db.(users := db.users + [User(newId, username.value, email.value)]);
      if authenticates then (db', Response(201, SignedUp(SignupSuccessMessage, token, username.value)))
      else (db', Response(401, ErrorBody(SignupAuthFailedMessage)))
  }

  /** Accounts created through `signup` never share a username or an email. */
  lemma SignupKeepsAccountsDistinct(db: Db, username: Option<string>, email: Option<string>,
                                    password: Option<string>, newId: UserId, authenticates: bool, token: string)
    requires UniqueUsernames(db) && UniqueEmails(db)
    ensures UniqueUsernames(Signup(db, username, email, password, newId, authenticates, token).0)
    ensures UniqueEmails(Signup(db, username, email, password, newId, authenticates, token).0)
  {
    var r := Signup(db, username, email, password, newId, authenticates, token);
    if r.1.status != 400 {
      var us := r.0.users;
      forall i, j | 0 <= i < j < |us|
        ensures us[i].username != us[j].username && us[i].email != us[j].email
      {
        if j == |db.users| {
          assert us[i] in db.users;
        } else {
          assert us[i] == db.users[i] && us[j] == db.users[j];
        }
      }
    }
  }

  /** The accounts whose email is `email`, in table order. */
  function UsersWithEmail(db: Db, email: string): (r: seq<User>)
    ensures forall x :: x in r <==> x in db.users && x.email == email
  {
    Keep(db.users, (x: User) => x.email == email)
  }

  /** `login_view`: both fields present, exactly one account with the email
      (several raise an uncaught error, a 500), then the password check. */
  function Login(db: Db, email: Option<string>, password: Option<string>,
                 passwordMatches: (User, string) -> bool, token: string)
    : (r: Response)
    ensures !Truthy(email) || !Truthy(password) ==> r == Response(400, ErrorBody(LoginFieldsMessage))
    ensures Truthy(email) && Truthy(password) && !EmailTaken(db, email.value) ==>
      r == Response(400, ErrorBody(InvalidCredentialsMessage))
    ensures r.status == 200 <==>
      && Truthy(email) && Truthy(password)
      && (exists x :: x in db.users && x.email == email.value &&
                      UsersWithEmail(db, email.value) == [x] && passwordMatches(x, password.value))
    ensures r.status == 200 ==>
      exists x :: x in db.users && x.email == email.value && r.body == LoggedIn(token, x.username)
    ensures Truthy(email) && Truthy(password) ==>
      (r.status == 500 <==> |UsersWithEmail(db, email.value)| > 1)
    ensures Truthy(email) && Truthy(password) && r.status == 400 ==>
      r.body == ErrorBody(InvalidCredentialsMessage)
    ensures r.status == 500 ==> r.body == ServerFailure
    ensures r.status in {200, 400, 500}
  {
    if !Truthy(email) || !Truthy(password) then Response(400, ErrorBody(LoginFieldsMessage))
    else
      var found := UsersWithEmail(db, email.value);
      if |found| == 0 then Response(400, ErrorBody(InvalidCredentialsMessage))
      else
        assert found[0] in found;
        if |found| > 1 then Response(500, ServerFailure)
        else if passwordMatches(found[0], password.value) then Response(200, LoggedIn(token, found[0].username))
        else Response(400, ErrorBody(InvalidCredentialsMessage))
  }

  lemma {:induction false} KeepAtMostOne(s: seq<User>, email: string)
    requires forall i, j :: 0 <= i < j < |s| ==> s[i].email != s[j].email
    ensures |Keep(s, (x: User) => x.email == email)| <= 1
  {
    if |s| > 0 {
      KeepAtMostOne(s[1..], email);
      if s[0].email == email {
        forall y | y in s[1..] ensures y.email != email {
          var k :| 0 <= k < |s[1..]| && s[1..][k] == y;
          assert s[k + 1] == y;
        }
        NothingKept(s[1..], (x: User) => x.email == email);
      }
    }
  }

  lemma {:induction false} NothingKept<T(!new)>(s: seq<T>, p: T -> bool)
    requires forall x :: x in s ==> !p(x)
    ensures Keep(s, p) == []
  {
    if |s| > 0 {
      assert forall x :: x in s[1..] ==> x in s;
      NothingKept(s[1..], p);
    }
  }

  /** With distinct emails, which accounts created by `signup` always have,
      login never reaches the 500 of a duplicated email. */
  lemma LoginNeverFailsOnDistinctEmails(db: Db, email: Option<string>, password: Option<string>,
                                        passwordMatches: (User, string) -> bool, token: string)
    requires UniqueEmails(db)
    ensures Login(db, email, password, passwordMatches, token).status != 500
  {
    if Truthy(email) {
      KeepAtMostOne(db.users, email.value);
    }
  }
}

=== FILE: budget_dialog.dfy ===
/** The add/edit budget dialog (`BudgetFormDialogComponent`): its form, how
    it is filled when it opens, and what it closes with. The dialog sends no
    request of its own; its opener receives the form value. */
module BudgetDialog {
  import opened Common
  import opened Dates
  import opened Forms
  import BudgetsPage

  datatype BudgetForm = BudgetForm(amount: Option<int>, category: Value, month: Value, year: Value)

  /** amount: required, at least 0.01; category, month and year: required. */
  predicate Valid(f: BudgetForm) {
    && f.amount.Some? && MinCents(f.amount)
    && Required(f.category)
    && Required(f.month)
    && Required(f.year)
  }

  /** A budget handed in for editing, as the server serialises it. */
  datatype GivenBudget = GivenBudget(amount: int, category: int, month: string, year: int)

  datatype Closing = StillOpen | ClosedWith(result: Option<BudgetForm>)

  datatype DialogState = DialogState(
    form: BudgetForm,
    isEditing: bool,
    isSubmitting: bool,
    errorMessage: Option<string>,
    closing: Closing)

  /** `ngOnInit`: a given budget's four fields are copied; otherwise the
      month is today's, two characters wide, and the year is today's as
      text. */
  function Open(budget: Option<GivenBudget>, today: Date): (st: DialogState)
    requires ValidDate(today)
    ensures st.isEditing <==> budget.Some?
    ensures budget.Some? ==>
      st.form == BudgetForm(Some(budget.value.amount), Num(budget.value.category),
                            Str(budget.value.month), Num(budget.value.year))
    ensures budget.None? ==>
      && st.form.amount.None? && IsEmpty(st.form.category)
      && st.form.month.Str? && |st.form.month.s| == 2
      && AllDigits(st.form.month.s) && DigitsValue(st.form.month.s) == today.month
      && st.form.year.Str? && AllDigits(st.form.year.s) && DigitsValue(st.form.year.s) == today.year
    ensures !st.isSubmitting && st.errorMessage.None? && st.closing == StillOpen
  {
    match budget
    case Some(b) =>
      DialogState(BudgetForm(Some(b.amount), Num(b.category), Str(b.month), Num(b.year)),
                  true, false, None, StillOpen)
    case None =>
      DigitsValueOfNatToString(today.year);
      DialogState(BudgetForm(None, Str(""), Str(Pad2(today.month)), Str(NatToString(today.year))),
                  false, false, None, StillOpen)
  }

  /** A new budget's month is in the stored two-digit form, the one the
      budgets page's `formatMonth` prints and the comparison looks up. */
  lemma NewMonthIsStoredForm(today: Date)
    requires ValidDate(today)
    ensures Open(None, today).form.month == Str(Pad2(today.month))
    ensures Open(None, today).form.month == Str(BudgetsPage.FormatMonth(today.month))
  {
    BudgetsPage.FormatMonthIsPad2(today.month);
  }

  /** A new budget's form is invalid until an amount and a category are
      filled in; with those, it is valid. */
  lemma NewFormNeedsAmountAndCategory(today: Date, amount: int, category: int)
    requires ValidDate(today)
    ensures !Valid(Open(None, today).form)
    ensures amount >= 1 ==> Valid(Open(None, today).form.(amount := Some(amount), category := Num(category)))
  {
  }

  /** `onSubmit`: an invalid form stays open unchanged; a valid one closes
      with exactly the form value. */
  function Submit(st: DialogState): (r: DialogState)
    ensures !Valid(st.form) ==> r == st
    ensures Valid(st.form) ==> r.closing == ClosedWith(Some(st.form)) && r.isSubmitting && r.errorMessage.None?
    ensures r.form == st.form && r.isEditing == st.isEditing
  {
    if !Valid(st.form) then st
    else st.(isSubmitting := true, errorMessage := None, closing := ClosedWith(Some(st.form)))
  }

  /** `onCancel`: closes with no value. */
  function Cancel(st: DialogState): (r: DialogState)
    ensures r.closing == ClosedWith(None) && r.form == st.form
  {
    st.(closing := ClosedWith(None))
  }

  /** Editing a budget and saving it unchanged hands back its own fields;
      a cancelled dialog hands back nothing. */
  lemma UnchangedEditReturnsBudget(b: GivenBudget, today: Date)
    requires ValidDate(today)
    requires b.amount >= 1 && b.month != ""
    ensures Submit(Open(Some(b), today)).closing
         == ClosedWith(Some(BudgetForm(Some(b.amount), Num(b.category), Str(b.month), Num(b.year))))
    ensures Cancel(Open(Some(b), today)).closing.result.None?
  {
  }
}

=== FILE: budgets.dfy ===
/** The budgets page (`BudgetsComponent`): how each budget row is joined
    with the server's comparison records, the spent/remaining/percentage
    figures, the status and progress-bar colour, and the requests the page
    builds. Amounts are integer cents; percentages are exact fractions, and
    every threshold test is a cross-multiplication. */
module BudgetsPage {
  import opened Common
  import opened Dates
  import opened Models
  import opened Views
  import opened Summary
  import opened Comparison
  import Api

  /** A budget as the page holds it; `month` is the number the page compares
      with `Number(...)`. `amountIsText` records that the amount arrived as
      the decimal string ("0.00") the server's serializer writes rather
      than as a JavaScript number; `amount` is its value in cents either way. */
  datatype ClientBudget = ClientBudget(id: int, category: int, amount: int, amountIsText: bool, month: int, year: int)

  // ---------------------------------------------------------------------
  // Joining a budget with the comparison records.

  predicate RecordFor(row: ComparisonRow, b: ClientBudget) {
    row.categoryId == b.category && row.year == b.year && row.month == b.month
  }

  /** `comparisonData.find(...)`: the first record with the budget's
      category, year and month. */
  function FindRecord(rows: seq<ComparisonRow>, b: ClientBudget): (r: Option<ComparisonRow>)
    ensures r.None? <==> forall i :: 0 <= i < |rows| ==> !RecordFor(rows[i], b)
    ensures r.Some? ==> exists i :: 0 <= i < |rows| && rows[i] == r.value && RecordFor(r.value, b)
                         && forall j :: 0 <= j < i ==> !RecordFor(rows[j], b)
  {
    if |rows| == 0 then None
    else if RecordFor(rows[0], b) then Some(rows[0])
    else
      var r := FindRecord(rows[1..], b);
      assert forall i :: 1 <= i < |rows| ==> rows[i] == rows[1..][i - 1];
      if r.Some? then
        var i :| 0 <= i < |rows[1..]| && rows[1..][i] == r.value && RecordFor(r.value, b)
                 && forall j :: 0 <= j < i ==> !RecordFor(rows[1..][j], b);
        assert rows[i + 1] == r.value;
        r
      else r
  }

  /** The first matching record's actual amount, or 0 without one. */
  function SpentAmount(rows: seq<ComparisonRow>, b: ClientBudget): (r: int)
    ensures (forall i :: 0 <= i < |rows| ==> !RecordFor(rows[i], b)) ==> r == 0
    ensures forall i :: (0 <= i < |rows| && RecordFor(rows[i], b) &&
                         forall j :: 0 <= j < i ==> !RecordFor(rows[j], b)) ==> r == rows[i].actualAmount
  {
    var found := FindRecord(rows, b);
    if found.Some? then
      var k :| 0 <= k < |rows| && rows[k] == found.value && RecordFor(found.value, b)
               && forall j :: 0 <= j < k ==> !RecordFor(rows[j], b);
      assert forall i :: (0 <= i < |rows| && RecordFor(rows[i], b) &&
                          forall j :: 0 <= j < i ==> !RecordFor(rows[j], b)) ==> i == k;
      found.value.actualAmount
    else 0
  }

  function RemainingAmount(rows: seq<ComparisonRow>, b: ClientBudget): (r: int)
    ensures r + SpentAmount(rows, b) == b.amount
  {
    b.amount - SpentAmount(rows, b)
  }

  /** When the page's budget is the one the server found, the page's
      remaining amount is the server's `difference`. */
  lemma RemainingIsServerDifference(rows: seq<ComparisonRow>, b: ClientBudget, i: nat)
    requires i < |rows| && RecordFor(rows[i], b)
    requires forall j :: 0 <= j < i ==> !RecordFor(rows[j], b)
    requires rows[i].difference == rows[i].budgetAmount - rows[i].actualAmount
    requires b.amount == rows[i].budgetAmount
    ensures RemainingAmount(rows, b) == rows[i].difference
  {
  }

  /** When every matching record carries the same actual amount, that is
      the spent amount, whichever record `find` meets first. */
  lemma SpentOfAgreeingRecords(rows: seq<ComparisonRow>, b: ClientBudget, k: nat)
    requires k < |rows| && RecordFor(rows[k], b)
    requires forall j :: 0 <= j < |rows| && RecordFor(rows[j], b) ==> rows[j].actualAmount == rows[k].actualAmount
    ensures SpentAmount(rows, b) == rows[k].actualAmount
  {
    var found := FindRecord(rows, b);
    var i :| 0 <= i < |rows| && rows[i] == found.value && RecordFor(found.value, b)
             && forall j :: 0 <= j < i ==> !RecordFor(rows[j], b);
  }

  /** With unique ids a category is determined by its id. */
  lemma SameIdSameCategory(db: Db, x: Category, y: Category)
    requires UniqueCategoryIds(db)
    requires x in db.categories && y in db.categories && x.id == y.id
    ensures x == y
  {
    var p :| 0 <= p < |db.categories| && db.categories[p] == x;
    var q :| 0 <= q < |db.categories| && db.categories[q] == y;
    assert db.categories[p].id == db.categories[q].id;
  }

  /** Rows built for one month, one per category: with category ids
      unique, the spent amount the page finds for a budget of that month is
      the category's spending in it. */
  lemma SpentFromRows(db: Db, u: UserId, cats: seq<Category>, first: Date, b: ClientBudget, c: Category)
    requires ValidDate(first) && first.day == 1
    requires forall t :: t in db.transactions ==> ValidDate(t.date)
    requires UniqueCategoryIds(db)
    requires forall x :: x in cats ==> x in db.categories
    requires c in cats && c.id == b.category
    requires b.year == first.year && b.month == first.month
    ensures SpentAmount(Rows(db, u, cats, first), b) == SpentInMonth(db, u, c, first)
  {
    var rows := Rows(db, u, cats, first);
    var k :| 0 <= k < |cats| && cats[k] == c;
    assert rows[k] == Row(db, u, c, first);
    forall j | 0 <= j < |rows| && RecordFor(rows[j], b)
      ensures rows[j].actualAmount == rows[k].actualAmount
    {
      assert rows[j] == Row(db, u, cats[j], first);
      SameIdSameCategory(db, cats[j], c);
    }
    SpentOfAgreeingRecords(rows, b, k);
  }

  /** The records of one server answer describe one month, one per expense
      category; with category ids unique, the page's spent amount for a
      budget of that month is exactly the category's spending in it. */
  lemma SpentIsServerMonthSpending(db: Db, u: UserId, today: Date, month: Option<string>,
                                   b: ClientBudget, c: Category)
    requires ValidDate(today)
    requires forall t :: t in db.transactions ==> ValidDate(t.date)
    requires UniqueCategoryIds(db)
    requires Comparison.Get(db, u, today, month).Ok?
    requires c in ExpenseCategories(db, u) && c.id == b.category
    requires b.year == ResolveMonth(today, month).value.year
    requires b.month == ResolveMonth(today, month).value.month
    ensures SpentAmount(Comparison.Get(db, u, today, month).value, b)
         == SpentInMonth(db, u, c, ResolveMonth(today, month).value)
  {
    var first := ResolveMonth(today, month).value;
    var cats := ExpenseCategories(db, u);
    assert Comparison.Get(db, u, today, month).value == Rows(db, u, cats, first);
    SpentFromRows(db, u, cats, first, b, c);
  }

  // ---------------------------------------------------------------------
  // Percentages, status and progress colour.

  /** The fraction `num / den`, with a positive denominator. */
  datatype Ratio = Ratio(num: int, den: int)

  predicate AtLeast(r: Ratio, k: int)
    requires r.den > 0
  {
    r.num >= k * r.den
  }

  /** `(spent / amount) * 100` for a non-zero amount. */
  function Hundredfold(spent: int, amount: int): (r: Ratio)
    requires amount != 0
    ensures r.den > 0 && r.num * amount == 100 * spent * r.den
  {
    if amount > 0 then Ratio(100 * spent, amount) else Ratio(-100 * spent, -amount)
  }

  /** A JavaScript number as the unguarded division produces it. */
  datatype JsNumber = Finite(ratio: Ratio) | PosInfinity | NegInfinity | NaN

  /** `(spent / amount) * 100` in JavaScript: dividing by zero gives an
      infinity of the numerator's sign, and 0 / 0 gives NaN. A decimal
      string divisor is converted to its number first. */
  function JsPercentage(spent: int, amount: int): (r: JsNumber)
    ensures amount == 0 ==> (r == PosInfinity <==> spent > 0)
    ensures amount == 0 ==> (r == NegInfinity <==> spent < 0)
    ensures amount == 0 ==> (r == NaN <==> spent == 0)
    ensures amount != 0 ==> r.Finite? && r.ratio.den > 0 && r.ratio.num * amount == 100 * spent * r.ratio.den
  {
    if amount != 0 then Finite(Hundredfold(spent, amount))
    else if spent > 0 then PosInfinity
    else if spent < 0 then NegInfinity
    else NaN
  }

  /** `x >= k`: true for +Infinity, false for -Infinity and for NaN. */
  predicate JsAtLeast(x: JsNumber, k: int) {
    match x
    case Finite(r) => r.den > 0 && AtLeast(r, k)
    case PosInfinity => true
    case NegInfinity => false
    case NaN => false
  }

  /** `x < k`: true for -Infinity, false for +Infinity and for NaN. */
  predicate JsBelow(x: JsNumber, k: int) {
    match x
    case Finite(r) => r.den > 0 && !AtLeast(r, k)
    case PosInfinity => false
    case NegInfinity => true
    case NaN => false
  }

  /** `budget.amount === 0`: strict equality with the number 0. A decimal
      string such as "0.00", the form the server lists amounts in, never
      satisfies it. */
  predicate StrictlyZero(b: ClientBudget) {
    b.amount == 0 && !b.amountIsText
  }

  /** `getSpentPercentage` and `getProgressBarValue` (the same code) as
      written: 0 when the strict zero test holds, otherwise the unguarded
      quotient, so a listed "0.00" still divides by zero. */
  function PercentageAsWritten(rows: seq<ComparisonRow>, b: ClientBudget): (r: JsNumber)
    ensures StrictlyZero(b) ==> r == Finite(Ratio(0, 1))
    ensures b.amount != 0 ==> r.Finite? && r.ratio.den > 0
                              && r.ratio.num * b.amount == 100 * SpentAmount(rows, b) * r.ratio.den
    ensures b.amount == 0 && b.amountIsText ==> (r == NaN <==> SpentAmount(rows, b) == 0)
    ensures b.amount == 0 && b.amountIsText ==> (r == PosInfinity <==> SpentAmount(rows, b) > 0)
  {
    if StrictlyZero(b) then Finite(Ratio(0, 1)) else JsPercentage(SpentAmount(rows, b), b.amount)
  }

  datatype Status = OnTrack | Warning | Exceeded

  datatype ProgressColour = Green | Yellow | Red

  /** The colour that goes with each status. */
  function ColourOf(s: Status): ProgressColour {
    match s
    case OnTrack => Green
    case Warning => Yellow
    case Exceeded => Red
  }

  /** `getBudgetStatus` as written: the percentage is computed without any
      zero test, so a zero allocation yields +Infinity ("exceeded") when
      something was spent, and NaN or -Infinity ("on-track") otherwise. */
  function StatusAsWritten(rows: seq<ComparisonRow>, b: ClientBudget): (r: Status)
    ensures b.amount > 0 ==> (r == Exceeded <==> SpentAmount(rows, b) >= b.amount)
    ensures b.amount > 0 ==> (r == Warning <==>
      4 * b.amount <= 5 * SpentAmount(rows, b) && SpentAmount(rows, b) < b.amount)
    ensures b.amount > 0 ==> (r == OnTrack <==> 5 * SpentAmount(rows, b) < 4 * b.amount)
    ensures b.amount < 0 ==> (r == Exceeded <==> SpentAmount(rows, b) <= b.amount)
    ensures b.amount < 0 ==> (r == OnTrack <==> 5 * SpentAmount(rows, b) > 4 * b.amount)
    ensures b.amount == 0 ==> (r == Exceeded <==> SpentAmount(rows, b) > 0)
    ensures b.amount == 0 ==> r != Warning
  {
    var p := JsPercentage(SpentAmount(rows, b), b.amount);
    if JsAtLeast(p, 100) then Exceeded
    else if JsAtLeast(p, 80) then Warning
    else OnTrack
  }

  /** `getProgressBarClass` as written: green below 80 %, yellow below
      100 %, red otherwise, so NaN, failing both tests, is red. */
  function ProgressBarClass(rows: seq<ComparisonRow>, b: ClientBudget): (r: ProgressColour)
    ensures StrictlyZero(b) ==> r == Green
    ensures b.amount > 0 ==> (r == Green <==> 5 * SpentAmount(rows, b) < 4 * b.amount)
    ensures b.amount > 0 ==> (r == Red <==> SpentAmount(rows, b) >= b.amount)
    ensures b.amount == 0 && b.amountIsText ==> (r == Red <==> SpentAmount(rows, b) >= 0)
  {
    var v := PercentageAsWritten(rows, b);
    if JsBelow(v, 80) then Green
    else if JsBelow(v, 100) then Yellow
    else Red
  }

  /** For every non-zero allocation, the status and the bar colour agree. */
  lemma StatusMatchesBarForNonZeroAmount(rows: seq<ComparisonRow>, b: ClientBudget)
    requires b.amount != 0
    ensures ColourOf(StatusAsWritten(rows, b)) == ProgressBarClass(rows, b)
  {
  }

  /** The status and the bar colour disagree exactly on two kinds of zero
      allocation: the number 0 with something spent, and the listed text
      "0.00" with nothing spent. */
  lemma StatusMatchesBarUnlessZero(rows: seq<ComparisonRow>, b: ClientBudget)
    ensures ColourOf(StatusAsWritten(rows, b)) != ProgressBarClass(rows, b) <==>
      b.amount == 0 && (if b.amountIsText then SpentAmount(rows, b) == 0 else SpentAmount(rows, b) > 0)
  {
  }

  /** A listed budget of "0.00" with nothing spent: 0 / "0.00" is NaN,
      which fails every comparison, so the status is "on-track" while the
      bar is red. */
  lemma ZeroAmountStatusDisagrees(rows: seq<ComparisonRow>, b: ClientBudget)
    requires b.amount == 0 && b.amountIsText && SpentAmount(rows, b) == 0
    ensures StatusAsWritten(rows, b) == OnTrack
    ensures ProgressBarClass(rows, b) == Red
  {
  }

  /** A concrete case: a budget listed as "0.00" for category 7 in June
      2024, whose comparison record shows nothing spent. */
  lemma ZeroAmountExample()
    ensures StatusAsWritten([ComparisonRow(7, "Food", 0, 0, 0, 2024, 6)], ClientBudget(1, 7, 0, true, 6, 2024)) == OnTrack
    ensures ProgressBarClass([ComparisonRow(7, "Food", 0, 0, 0, 2024, 6)], ClientBudget(1, 7, 0, true, 6, 2024)) == Red
  {
    var rows := [ComparisonRow(7, "Food", 0, 0, 0, 2024, 6)];
    var b := ClientBudget(1, 7, 0, true, 6, 2024);
    assert RecordFor(rows[0], b);
    assert SpentAmount(rows, b) == 0;
  }

  /** The percentage with the zero test the code evidently means,
      `Number(budget.amount) === 0`: 0 for a zero allocation in either
      form, otherwise the spent share in percent. */
  function GuardedPercentage(rows: seq<ComparisonRow>, b: ClientBudget): (r: Ratio)
    ensures r.den > 0
    ensures b.amount == 0 ==> r.num == 0
    ensures b.amount != 0 ==> r.num * b.amount == 100 * SpentAmount(rows, b) * r.den
  {
    if b.amount == 0 then Ratio(0, 1) else Hundredfold(SpentAmount(rows, b), b.amount)
  }

  /** The bar colour from the guarded percentage. */
  function BarClass(rows: seq<ComparisonRow>, b: ClientBudget): (r: ProgressColour)
    ensures b.amount == 0 ==> r == Green
    ensures b.amount > 0 ==> (r == Green <==> 5 * SpentAmount(rows, b) < 4 * b.amount)
    ensures b.amount > 0 ==> (r == Red <==> SpentAmount(rows, b) >= b.amount)
  {
    var v := GuardedPercentage(rows, b);
    if !AtLeast(v, 80) then Green
    else if !AtLeast(v, 100) then Yellow
    else Red
  }

  /** The status from the guarded percentage. */
  function BudgetStatus(rows: seq<ComparisonRow>, b: ClientBudget): (r: Status)
    ensures ColourOf(r) == BarClass(rows, b)
    ensures b.amount == 0 ==> r == OnTrack
    ensures b.amount > 0 ==> (r == Exceeded <==> SpentAmount(rows, b) >= b.amount)
    ensures b.amount > 0 ==> (r == Warning <==>
      4 * b.amount <= 5 * SpentAmount(rows, b) && SpentAmount(rows, b) < b.amount)
  {
    var v := GuardedPercentage(rows, b);
    if AtLeast(v, 100) then Exceeded
    else if AtLeast(v, 80) then Warning
    else OnTrack
  }

  /** The guarded status and colour differ from the written ones exactly
      on zero allocations with something spent, and on a listed "0.00"
      with nothing spent. */
  lemma GuardedStatusAgreesElsewhere(rows: seq<ComparisonRow>, b: ClientBudget)
    ensures BudgetStatus(rows, b) == StatusAsWritten(rows, b) && BarClass(rows, b) == ProgressBarClass(rows, b)
      <==> !(b.amount == 0 && (SpentAmount(rows, b) > 0 || (b.amountIsText && SpentAmount(rows, b) == 0)))
  {
  }

  // ---------------------------------------------------------------------
  // Labels, months and years.

  /** `categories.find(...)?.name || 'N/A'`: an empty name reads as missing. */
  function CategoryName(cats: seq<Category>, id: CategoryId): (r: string)
    ensures (forall c :: c in cats ==> c.id != id) ==> r == "N/A"
    ensures forall i :: 0 <= i < |cats| && cats[i].id == id && (forall j :: 0 <= j < i ==> cats[j].id != id)
              ==> r == (if cats[i].name == "" then "N/A" else cats[i].name)
  {
    if |cats| == 0 then "N/A"
    else if cats[0].id == id then (if cats[0].name == "" then "N/A" else cats[0].name)
    else
      assert forall c :: c in cats[1..] ==> c in cats;
      assert forall i :: 1 <= i < |cats| ==> cats[i] == cats[1..][i - 1];
      CategoryName(cats[1..], id)
  }

  /** The page keeps only expense categories of what the server lists. */
  function ExpenseOnly(cats: seq<Category>): (r: seq<Category>)
    ensures forall c :: c in r <==> c in cats && c.ctype == Expense
  {
    Keep(cats, (c: Category) => c.ctype == Expense)
  }

  /** `formatMonth`: a leading zero below 10. */
  function FormatMonth(m: int): (s: string)
    ensures 1 <= m <= 12 ==> |s| == 2 && AllDigits(s) && DigitsValue(s) == m
  {
    var s := if m < 10 then "0" + IntToString(m) else IntToString(m);
    assert 1 <= m <= 12 ==> s == Pad2(m);
    s
  }

  /** On calendar months `formatMonth` and `strftime('%m')` print the same. */
  lemma FormatMonthIsPad2(m: int)
    requires 1 <= m <= 12
    ensures FormatMonth(m) == Pad2(m)
  {
  }

  /** `getYears`: five consecutive years, centred on the current one. */
  function Years(currentYear: int): (r: seq<int>)
    ensures |r| == 5 && r[2] == currentYear
    ensures forall i :: 0 < i < |r| ==> r[i] == r[i - 1] + 1
  {
    seq(5, i requires 0 <= i < 5 => currentYear - 2 + i)
  }

  // ---------------------------------------------------------------------
  // Requests.

  /** The comparison request's month, `${year}-${formatMonth(month)}`. */
  function ComparisonMonthParam(year: nat, month: int): (s: string)
    requires 1 <= month <= 12
    ensures s == YearMonthText(Date(year, month, 1))
  {
    FormatMonthIsPad2(month);
    NatToString(year) + "-" + FormatMonth(month)
  }

  /** The server reads the page's month back as the month that was meant. */
  lemma ComparisonMonthRoundTrip(year: nat, month: int)
    requires 1000 <= year <= MaxYear && 1 <= month <= 12
    ensures ParseYearMonth(ComparisonMonthParam(year, month)) == Some(Date(year, month, 1))
  {
    YearMonthRoundTrip(Date(year, month, 1));
  }

  /** `loadBudgets` as written: the month is sent unpadded. */
  function ListParamsAsWritten(month: nat, year: nat, pageIndex: nat, pageSize: nat): (r: Api.Pairs)
    ensures Api.Lookup(r, "month") == Some(NatToString(month))
    ensures Api.Lookup(r, "year") == Some(NatToString(year))
    ensures Api.Lookup(r, "page") == Some(NatToString(pageIndex + 1))
    ensures Api.Lookup(r, "page_size") == Some(NatToString(pageSize))
  {
    PageParams(NatToString(month), year, pageIndex, pageSize)
  }

  /** The list request with the month in the two-digit form budgets are
      stored and looked up in. */
  function ListParams(month: nat, year: nat, pageIndex: nat, pageSize: nat): (r: Api.Pairs)
    ensures Api.Lookup(r, "month") == Some(FormatMonth(month))
    ensures Api.Lookup(r, "year") == Some(NatToString(year))
    ensures Api.Lookup(r, "page") == Some(NatToString(pageIndex + 1))
    ensures Api.Lookup(r, "page_size") == Some(NatToString(pageSize))
  {
    PageParams(FormatMonth(month), year, pageIndex, pageSize)
  }

  function PageParams(month: string, year: nat, pageIndex: nat, pageSize: nat): (r: Api.Pairs)
    ensures Api.Lookup(r, "month") == Some(month)
    ensures Api.Lookup(r, "year") == Some(NatToString(year))
    ensures Api.Lookup(r, "page") == Some(NatToString(pageIndex + 1))
    ensures Api.Lookup(r, "page_size") == Some(NatToString(pageSize))
  {
    assert "year"[0] != "page"[0];
    var ps := Api.SetParam([], "month", month);
    var ps := Api.SetParam(ps, "year", NatToString(year));
    var ps := Api.SetParam(ps, "page", NatToString(pageIndex + 1));
    Api.SetParam(ps, "page_size", NatToString(pageSize))
  }

  /** The server's budget query for a list request. */
  function ListQuery(ps: Api.Pairs, year: int): BudgetQuery {
    BudgetQuery(None, Api.Lookup(ps, "month"), Some(year))
  }

  /** For January to September the unpadded request never lists a budget
      saved through the budget dialog, which stores "01".."09". */
  lemma UnpaddedListMissesDialogBudget(db: Db, u: UserId, b: Budget, month: nat, pageIndex: nat, pageSize: nat)
    requires 1 <= month <= 9 && b in db.budgets && b.user == u
    requires b.month == Pad2(month) && b.year >= 0
    ensures b !in ListBudgets(db, u, ListQuery(ListParamsAsWritten(month, b.year, pageIndex, pageSize), b.year))
  {
    var q := ListQuery(ListParamsAsWritten(month, b.year, pageIndex, pageSize), b.year);
    assert q.month == Some(NatToString(month));
    assert |NatToString(month)| == 1 && |b.month| == 2;
    assert b.month != q.month.value;
  }

  /** With the padded month, the list for a month is exactly the budgets the
      comparison looks up for it. */
  lemma PaddedListMatchesComparisonLookup(db: Db, u: UserId, month: nat, year: nat, pageIndex: nat, pageSize: nat)
    requires 1 <= month <= 12
    ensures forall b :: b in ListBudgets(db, u, ListQuery(ListParams(month, year, pageIndex, pageSize), year))
                    <==> b in db.budgets && b.user == u && b.month == Pad2(month) && b.year == year
  {
    FormatMonthIsPad2(month);
  }

  /** What `addBudget` posts: the draft's category and amount with the
      page's month and year. */
  datatype BudgetPayload = BudgetPayload(category: int, amount: int, month: int, year: int)

  /** `addBudget`'s guard: no request unless category and amount are both
      truthy (present and non-zero). */
  function AddBudget(category: Option<int>, amount: Option<int>, month: int, year: int): (r: Option<BudgetPayload>)
    ensures r.Some? <==> category.Some? && category.value != 0 && amount.Some? && amount.value != 0
    ensures r.Some? ==> r.value == BudgetPayload(category.value, amount.value, month, year)
  {
    if category.Some? && category.value != 0 && amount.Some? && amount.value != 0 then
      Some(BudgetPayload(category.value, amount.value, month, year))
    else None
  }

  /** The server stores the posted number in a character field as `str`
      prints it: June becomes "6". */
  function StoredAsWritten(p: BudgetPayload, id: int, u: UserId): (b: Budget)
    requires p.month >= 0
    ensures b.month == NatToString(p.month) && b.amount == p.amount && b.category == p.category
  {
    Budget(id, u, p.category, p.amount, NatToString(p.month), p.year)
  }

  /** The payload's month stored in the two-digit form. */
  function StoredPadded(p: BudgetPayload, id: int, u: UserId): (b: Budget)
    requires 1 <= p.month <= 12
    ensures b.month == Pad2(p.month) && b.amount == p.amount && b.category == p.category
  {
    FormatMonthIsPad2(p.month);
    Budget(id, u, p.category, p.amount, FormatMonth(p.month), p.year)
  }

  /** A January-to-September budget added on this page is invisible to the
      comparison: its row reports a zero budget although one exists. */
  lemma AddedBudgetMissedByComparison(db: Db, u: UserId, c: Category, p: BudgetPayload, id: int)
    requires 1 <= p.month <= 9 && p.category == c.id
    requires forall t :: t in db.transactions ==> ValidDate(t.date)
    requires ValidDate(Date(p.year, p.month, 1))
    requires forall x :: x in db.budgets ==> !BudgetFor(x, u, c.id, Pad2(p.month), p.year)
    requires CreateBudget(db, StoredAsWritten(p, id, u)).Ok?
    ensures Row(CreateBudget(db, StoredAsWritten(p, id, u)).value, u, c, Date(p.year, p.month, 1)).budgetAmount == 0
  {
    var b := StoredAsWritten(p, id, u);
    assert |b.month| == 1;
    var db' := CreateBudget(db, b).value;
    assert forall x :: x in db'.budgets ==> x in db.budgets || x == b;
  }

  /** Stored in the two-digit form, an added budget is the one the
      comparison reports for its category and month. */
  lemma AddedBudgetSeenByComparison(db: Db, u: UserId, c: Category, p: BudgetPayload, id: int)
    requires 1 <= p.month <= 12 && p.category == c.id
    requires ValidDb(db)
    requires forall t :: t in db.transactions ==> ValidDate(t.date)
    requires ValidDate(Date(p.year, p.month, 1))
    requires CreateBudget(db, StoredPadded(p, id, u)).Ok?
    ensures Row(CreateBudget(db, StoredPadded(p, id, u)).value, u, c, Date(p.year, p.month, 1)).budgetAmount
         == p.amount
  {
    var b := StoredPadded(p, id, u);
    CreateBudgetKeepsValid(db, b);
    var db' := CreateBudget(db, b).value;
    assert b in db'.budgets && BudgetFor(b, u, c.id, Pad2(p.month), p.year);
  }
}

=== FILE: category_dialog.dfy ===
/** The add/edit category dialog (`CategoryFormDialogComponent`) and how the
    categories page reports what it returns. The request is an outcome
    passed in: the server's category on success, nothing on failure. */
module CategoryDialog {
  import opened Common
  import opened Forms

  /** A category as the server serialises it: `id`, `name`, `type`. */
  datatype ListedCategory = ListedCategory(id: int, name: string, ctype: string)

  datatype CatForm = CatForm(name: string, ctype: string, description: string, color: string)

  /** How the dialog was opened: `isEditing` comes with the category to edit. */
  datatype DialogData = DialogData(isEditing: bool, category: Option<ListedCategory>)

  /** `data.category?.x || default`: the category's value when it is a
      non-empty string. The server sends no description or colour, so those
      start empty. */
  function Prefill(c: Option<ListedCategory>): (f: CatForm)
    ensures c.None? ==> f == CatForm("", "expense", "", "")
    ensures c.Some? ==> f.name == c.value.name
    ensures c.Some? && c.value.ctype != "" ==> f.ctype == c.value.ctype
    ensures c.Some? && c.value.ctype == "" ==> f.ctype == "expense"
    ensures f.description == "" && f.color == ""
  {
    match c
    case None => CatForm("", "expense", "", "")
    case Some(x) => CatForm(x.name, if x.ctype != "" then x.ctype else "expense", "", "")
  }

  /** name: required, at least two characters; type: required. */
  predicate Valid(f: CatForm) {
    Required(Str(f.name)) && MinLength(Str(f.name), 2) && Required(Str(f.ctype))
  }

  lemma ValidMeans(f: CatForm)
    ensures Valid(f) <==> Utf16Length(f.name) >= 2 && f.ctype != ""
    ensures !Valid(Prefill(None))
  {
    RequiredText(f.name, 2);
  }

  /** What the dialog closes with: the server's answer plus the mode. */
  datatype Saved = Saved(category: ListedCategory, isEditing: bool)

  datatype CatRequest = UpdateCat(id: int, form: CatForm) | CreateCat(form: CatForm)

  datatype Closing = StillOpen | ClosedWith(result: Option<Saved>)

  datatype DialogState = DialogState(
    form: CatForm,
    loading: bool,
    isSubmitting: bool,
    errorMessage: Option<string>,
    closing: Closing)

  const UpdateFailed: string := "Failed to update category."
  const AddFailed: string := "Failed to add category."

  function Open(data: DialogData): (st: DialogState)
    ensures st.form == Prefill(data.category) && st.closing == StillOpen
    ensures !st.loading && !st.isSubmitting && st.errorMessage.None?
  {
    DialogState(Prefill(data.category), false, false, None, StillOpen)
  }

  /** `onSubmit` with the server's answer `response` (None when the request
      failed). An invalid form changes nothing and sends nothing. */
  function Submit(st: DialogState, data: DialogData, response: Option<ListedCategory>)
    : (r: (DialogState, Option<CatRequest>))
    requires data.isEditing ==> data.category.Some?
    ensures !Valid(st.form) ==> r == (st, None)
    ensures Valid(st.form) && data.isEditing ==> r.1 == Some(UpdateCat(data.category.value.id, st.form))
    ensures Valid(st.form) && !data.isEditing ==> r.1 == Some(CreateCat(st.form))
    ensures Valid(st.form) && response.Some? ==>
      && r.0.closing == ClosedWith(Some(Saved(response.value, data.isEditing)))
      && !r.0.isSubmitting && r.0.errorMessage.None?
    ensures Valid(st.form) && response.None? ==>
      && r.0.closing == st.closing
      && !r.0.loading && !r.0.isSubmitting
      && r.0.errorMessage == Some(if data.isEditing then UpdateFailed else AddFailed)
    ensures r.0.form == st.form
  {
    if !Valid(st.form) then (st, None)
    else
      var started := st.(loading := true, isSubmitting := true, errorMessage := None);
      var req := if data.isEditing then UpdateCat(data.category.value.id, st.form) else CreateCat(st.form);
      match response
      case Some(c) => (started.(closing := ClosedWith(Some(Saved(c, data.isEditing))), isSubmitting := false), Some(req))
      case None =>
        var msg := if data.isEditing then UpdateFailed else AddFailed;
        (started.(errorMessage := Some(msg), loading := false, isSubmitting := false), Some(req))
  }

  /** `onCancel` closes with no value. */
  function Cancel(st: DialogState): (r: DialogState)
    ensures r.closing == ClosedWith(None) && r.form == st.form
  {
    st.(closing := ClosedWith(None))
  }

  /** After a successful save the spinner flag stays set: only a failure
      clears `loading`. */
  lemma SuccessKeepsLoading(data: DialogData, c: ListedCategory)
    requires data.isEditing ==> data.category.Some?
    requires Valid(Open(data).form)
    ensures Submit(Open(data), data, Some(c)).0.loading
    ensures !Submit(Open(data), data, None).0.loading
  {
  }

  /** Opening on an existing category and saving it unchanged sends an
      update of that category with its own name and type. */
  lemma UnchangedEditSavesSameCategory(c: ListedCategory, response: Option<ListedCategory>)
    requires Utf16Length(c.name) >= 2 && c.ctype != ""
    ensures var data := DialogData(true, Some(c));
            var r := Submit(Open(data), data, response);
            && r.1.Some? && r.1.value.UpdateCat? && r.1.value.id == c.id
            && r.1.value.form.name == c.name && r.1.value.form.ctype == c.ctype
  {
    ValidMeans(Prefill(Some(c)));
  }

  // ---------------------------------------------------------------------
  // The categories page's reaction to the closed dialog.

  /** The confirmation for a truthy result, none for a dismissed dialog. */
  function SavedMessage(result: Option<Saved>): (m: Option<string>)
    ensures m.None? <==> result.None?
  {
    match result
    case None => None
    case Some(s) => Some("Category " + s.category.name + " " + (if s.isEditing then "updated" else "added") + " successfully!")
  }

  /** The page reports "updated" exactly for a dialog opened to edit, using
      the name the server answered with. */
  lemma ReportFollowsMode(data: DialogData, c: ListedCategory)
    requires data.isEditing ==> data.category.Some?
    requires Valid(Open(data).form)
    ensures var r := Submit(Open(data), data, Some(c));
            SavedMessage(r.0.closing.result)
              == Some("Category " + c.name + " " + (if data.isEditing then "updated" else "added") + " successfully!")
    ensures SavedMessage(Cancel(Open(data)).closing.result).None?
  {
  }
}

=== FILE: common.dfy ===
/** Shared building blocks: optional values, results, JavaScript/Python
    truthiness of strings, and decimal rendering of numbers. */
module Common {

  datatype Option<+T> = None | Some(value: T)

  datatype Result<+T, +E> = Ok(value: T) | Err(error: E)

  /** A string parameter is "truthy" (JavaScript `!!s`, Python `if s:`)
      when it is present and not empty. */
  predicate Truthy(s: Option<string>) {
    s.Some? && s.value != ""
  }

  predicate IsDigit(c: char) {
    '0' <= c <= '9'
  }

  predicate AllDigits(s: string) {
    forall i :: 0 <= i < |s| ==> IsDigit(s[i])
  }

  function DigitChar(d: nat): (c: char)
    requires d < 10
    ensures IsDigit(c)
  {
    ('0' as int + d) as char
  }

  function DigitValue(c: char): (d: nat)
    requires IsDigit(c)
    ensures d < 10
  {
    c as int - '0' as int
  }

  /** The value of a string of decimal digits. */
  function DigitsValue(s: string): nat
    requires AllDigits(s)
  {
    if |s| == 0 then 0 else DigitsValue(s[..|s| - 1]) * 10 + DigitValue(s[|s| - 1])
  }

  /** Decimal rendering of a natural number, as JavaScript's template
      literals and Python's `str` print it: no sign, no leading zero. */
  function NatToString(n: nat): (s: string)
    ensures 1 <= |s| && AllDigits(s)
    ensures s[0] == '0' ==> n == 0
    ensures n < 10 <==> |s| == 1
    decreases n
  {
    if n < 10 then [DigitChar(n)] else NatToString(n / 10) + [DigitChar(n % 10)]
  }

  /** Decimal rendering of an integer with a leading minus when negative. */
  function IntToString(i: int): (s: string)
    ensures 0 <= i ==> s == NatToString(i)
    ensures i < 0 ==> s == "-" + NatToString(-i)
  {
    if i < 0 then "-" + NatToString(-i) else NatToString(i)
  }

  lemma {:induction false} DigitsValueOfNatToString(n: nat)
    ensures DigitsValue(NatToString(n)) == n
    decreases n
  {
    if n >= 10 {
      DigitsValueOfNatToString(n / 10);
      var s := NatToString(n);
      assert s[..|s| - 1] == NatToString(n / 10);
    }
  }

  /** Rendering is injective: two numbers print alike only when equal. */
  lemma NatToStringInjective(a: nat, b: nat)
    requires NatToString(a) == NatToString(b)
    ensures a == b
  {
    DigitsValueOfNatToString(a);
    DigitsValueOfNatToString(b);
  }

  lemma {:induction false} NatToStringLength(n: nat, k: nat)
    requires 1 <= k
    requires Pow10(k - 1) <= n < Pow10(k) || (k == 1 && n < 10)
    ensures |NatToString(n)| == k
    decreases n
  {
    if n >= 10 {
      assert k >= 2;
      Pow10Step(k - 1);
      Pow10Step(k - 2);
      DivBounds(n, Pow10(k - 2));
      NatToStringLength(n / 10, k - 1);
    }
  }

  function Pow10(k: nat): (p: nat)
    ensures 1 <= p
  {
    if k == 0 then 1 else 10 * Pow10(k - 1)
  }

  lemma {:induction false} DigitsValueBound(s: string)
    requires AllDigits(s)
    ensures DigitsValue(s) < Pow10(|s|)
  {
    if |s| > 0 {
      DigitsValueBound(s[..|s| - 1]);
    }
  }

  lemma Pow10Step(k: nat)
    ensures Pow10(k + 1) == 10 * Pow10(k)
  {
  }

  lemma DivBounds(n: nat, p: nat)
    requires 1 <= p
    requires 10 * p <= n < 100 * p
    ensures p <= n / 10 < 10 * p
  {
  }

  /** Two-character month rendering: the client's `formatMonth`, the
      dialog's `padStart(2, '0')` and Python's `strftime('%m')` all agree
      on this for months 1..12. */
  function Pad2(n: nat): (s: string)
    ensures n < 10 ==> |s| == 2 && s[0] == '0'
    ensures 10 <= n < 100 ==> |s| == 2
    ensures AllDigits(s) && DigitsValue(s) == n
  {
    DigitsValueOfNatToString(n);
    if n < 10 then
      var s := "0" + NatToString(n);
      assert s[..|s| - 1] == "0";
      s
    else if n < 100 then
      NatToStringLength(n, 2);
      NatToString(n)
    else
      NatToString(n)
  }

  /** Digits appended to digits shift the value left by their count. */
  lemma {:induction false} DigitsValueAppend(a: string, b: string)
    requires AllDigits(a) && AllDigits(b)
    ensures AllDigits(a + b) && DigitsValue(a + b) == DigitsValue(a) * Pow10(|b|) + DigitsValue(b)
    decreases |b|
  {
    var ab := a + b;
    assert AllDigits(ab) by {
      forall i | 0 <= i < |ab| ensures IsDigit(ab[i]) {
        if i >= |a| { assert ab[i] == b[i - |a|]; }
      }
    }
    if |b| == 0 {
      assert ab == a;
    } else {
      var front := b[..|b| - 1];
      assert ab[..|ab| - 1] == a + front;
      assert ab[|ab| - 1] == b[|b| - 1];
      DigitsValueAppend(a, front);
      Pow10Step(|b| - 1);
      ShiftStep(DigitsValue(a), Pow10(|b| - 1), DigitsValue(front), DigitValue(b[|b| - 1]));
    }
  }

  lemma ShiftStep(x: nat, p: nat, y: nat, d: nat)
    ensures (x * p + y) * 10 + d == x * (10 * p) + (y * 10 + d)
  {
  }

  /** Four-character year rendering, as `toISOString()` writes years
      0..9999: exactly four digits, zero-padded on the left. */
  function Pad4(n: nat): (s: string)
    requires n < 10000
    ensures |s| == 4 && AllDigits(s) && DigitsValue(s) == n
  {
    var hi, lo := Pad2(n / 100), Pad2(n % 100);
    DigitsValueAppend(hi, lo);
    assert Pow10(2) == 100;
    hi + lo
  }

  /** The longest prefix of `s` made of digits. */
  function LeadingDigits(s: string): (p: string)
    ensures p <= s && AllDigits(p)
    ensures |p| < |s| ==> !IsDigit(s[|p|])
  {
    if |s| == 0 || !IsDigit(s[0]) then "" else [s[0]] + LeadingDigits(s[1..])
  }

  lemma {:induction false} LeadingDigitsOfRendering(n: nat, rest: string)
    requires |rest| == 0 || !IsDigit(rest[0])
    ensures LeadingDigits(NatToString(n) + rest) == NatToString(n)
  {
    DigitsFollowedBy(NatToString(n), rest);
  }

  lemma {:induction false} DigitsFollowedBy(d: string, rest: string)
    requires AllDigits(d)
    requires |rest| == 0 || !IsDigit(rest[0])
    ensures LeadingDigits(d + rest) == d
    decreases |d|
  {
    if |d| > 0 {
      assert (d + rest)[1..] == d[1..] + rest;
      DigitsFollowedBy(d[1..], rest);
    } else {
      assert d + rest == rest;
    }
  }
}

=== FILE: comparison.dfy ===
/** The budget-versus-actual endpoint (`BudgetComparisonView.get`): one
    record per expense category of the user for one month. */
module Comparison {
  import opened Common
  import opened Dates
  import opened Models
  import opened Summary

  datatype ComparisonRow = ComparisonRow(
    categoryId: CategoryId,
    categoryName: string,
    budgetAmount: int,
    actualAmount: int,
    difference: int,
    year: int,
    month: int)

  const InvalidMonthMessage: string := "Invalid month format. Use YYYY-MM"

  /** The month asked for: the parsed `month` parameter, a 400 error when it
      does not parse, or the current month when it is absent or empty. */
  function ResolveMonth(today: Date, month: Option<string>): (r: Result<Date, ApiError>)
    requires ValidDate(today)
    ensures r.Err? <==> Truthy(month) && ParseYearMonth(month.value).None?
    ensures r.Err? ==> r.error == BadRequest(InvalidMonthMessage)
    ensures r.Ok? ==> ValidDate(r.value) && r.value.day == 1
    ensures !Truthy(month) ==> r == Ok(Date(today.year, today.month, 1))
  {
    if Truthy(month) then
      match ParseYearMonth(month.value)
      case Some(d) => Ok(d)
      case None => Err(BadRequest(InvalidMonthMessage))
    else Ok(FirstOfMonth(today))
  }

  predicate BudgetFor(b: Budget, u: UserId, c: CategoryId, month: string, year: int) {
    b.user == u && b.category == c && b.month == month && b.year == year
  }

  /** `Budget.objects.filter(...).first()`. */
  function FirstBudget(bs: seq<Budget>, u: UserId, c: CategoryId, month: string, year: int)
    : (r: Option<Budget>)
    ensures r.None? <==> forall b :: b in bs ==> !BudgetFor(b, u, c, month, year)
    ensures r.Some? ==> exists i :: 0 <= i < |bs| && bs[i] == r.value && BudgetFor(r.value, u, c, month, year)
                          && forall j :: 0 <= j < i ==> !BudgetFor(bs[j], u, c, month, year)
  {
    if |bs| == 0 then None
    else if BudgetFor(bs[0], u, c, month, year) then Some(bs[0])
    else
      var r := FirstBudget(bs[1..], u, c, month, year);
      assert forall b :: b in bs ==> b == bs[0] || b in bs[1..];
      if r.Some? then
        var i :| 0 <= i < |bs[1..]| && bs[1..][i] == r.value && BudgetFor(r.value, u, c, month, year)
                 && forall j :: 0 <= j < i ==> !BudgetFor(bs[1..][j], u, c, month, year);
        assert bs[i + 1] == r.value;
        r
      else r
  }

  /** The category's spending in `[first, first + 1 month)`, 0 when no
      row of the user's in that category falls there. */
  function ActualExpenses(db: Db, u: UserId, c: Category, first: Date): (r: int)
    ensures (forall t :: t in db.transactions && t.user == u && t.category == c.id
               ==> !(OnOrBefore(first, t.date) && Before(t.date, AddMonths(first, 1)))) ==> r == 0
  {
    var next := AddMonths(first, 1);
    var p := (t: Transaction) => t.user == u && t.category == c.id && OnOrBefore(first, t.date) && Before(t.date, next);
    assert (forall t :: t in db.transactions ==> !p(t)) ==> Total(Keep(db.transactions, p)) == 0 by {
      if forall t :: t in db.transactions ==> !p(t) {
        TotalOfNone(db.transactions, p);
      }
    }
    Total(Keep(db.transactions, p))
  }

  /** The category's spending in the calendar month of `first`. */
  function SpentInMonth(db: Db, u: UserId, c: Category, first: Date): int {
    Total(Keep(db.transactions, (t: Transaction) =>
      t.user == u && t.category == c.id && t.date.year == first.year && t.date.month == first.month))
  }

  /** Over stored (hence valid) dates, the half-open range is the month. */
  lemma ActualIsMonthSpending(db: Db, u: UserId, c: Category, first: Date)
    requires ValidDate(first) && first.day == 1
    requires forall t :: t in db.transactions ==> ValidDate(t.date)
    ensures ActualExpenses(db, u, c, first) == SpentInMonth(db, u, c, first)
  {
    var next := AddMonths(first, 1);
    forall t | t in db.transactions
      ensures (OnOrBefore(first, t.date) && Before(t.date, next))
          <==> (t.date.year == first.year && t.date.month == first.month)
    {
      HalfOpenMonth(first, t.date);
    }
    TotalOfSameRows(db.transactions,
      (t: Transaction) => t.user == u && t.category == c.id && OnOrBefore(first, t.date) && Before(t.date, next),
      (t: Transaction) => t.user == u && t.category == c.id && t.date.year == first.year && t.date.month == first.month);
  }

  function BudgetAmount(db: Db, u: UserId, c: Category, first: Date): (a: int)
    requires 0 <= first.month
    ensures (forall b :: b in db.budgets ==> !BudgetFor(b, u, c.id, Pad2(first.month), first.year)) ==> a == 0
    ensures forall i :: 0 <= i < |db.budgets| && BudgetFor(db.budgets[i], u, c.id, Pad2(first.month), first.year)
                        && (forall j :: 0 <= j < i ==> !BudgetFor(db.budgets[j], u, c.id, Pad2(first.month), first.year))
                        ==> a == db.budgets[i].amount
  {
    match FirstBudget(db.budgets, u, c.id, Pad2(first.month), first.year)
    case Some(b) => b.amount
    case None => 0
  }

  /** One record: the budget looked up with a two-digit month string, the
      month's spending, and their difference. */
  function Row(db: Db, u: UserId, c: Category, first: Date): (r: ComparisonRow)
    requires ValidDate(first) && first.day == 1
    requires forall t :: t in db.transactions ==> ValidDate(t.date)
    ensures r.categoryId == c.id && r.categoryName == c.name
    ensures r.year == first.year && r.month == first.month
    ensures r.actualAmount == SpentInMonth(db, u, c, first)
    ensures r.difference == r.budgetAmount - r.actualAmount
    ensures (forall b :: b in db.budgets ==> !BudgetFor(b, u, c.id, Pad2(first.month), first.year))
              ==> r.budgetAmount == 0
    ensures forall i :: 0 <= i < |db.budgets| && BudgetFor(db.budgets[i], u, c.id, Pad2(first.month), first.year)
                        && (forall j :: 0 <= j < i ==> !BudgetFor(db.budgets[j], u, c.id, Pad2(first.month), first.year))
                        ==> r.budgetAmount == db.budgets[i].amount
    ensures UniqueBudgets(db.budgets) ==>
      forall b :: b in db.budgets && BudgetFor(b, u, c.id, Pad2(first.month), first.year) ==> r.budgetAmount == b.amount
  {
    ActualIsMonthSpending(db, u, c, first);
    var budget := BudgetAmount(db, u, c, first);
    var actual := ActualExpenses(db, u, c, first);
    var r := ComparisonRow(c.id, c.name, budget, actual, budget - actual, first.year, first.month);
    assert UniqueBudgets(db.budgets) ==>
      forall b :: b in db.budgets && BudgetFor(b, u, c.id, Pad2(first.month), first.year) ==> r.budgetAmount == b.amount by {
      forall b | b in db.budgets && BudgetFor(b, u, c.id, Pad2(first.month), first.year) && UniqueBudgets(db.budgets)
        ensures r.budgetAmount == b.amount
      {
        var f := FirstBudget(db.budgets, u, c.id, Pad2(first.month), first.year);
        var i :| 0 <= i < |db.budgets| && db.budgets[i] == f.value
                 && BudgetFor(f.value, u, c.id, Pad2(first.month), first.year);
        var k :| 0 <= k < |db.budgets| && db.budgets[k] == b;
        assert SameBudgetKey(db.budgets[i], db.budgets[k]) && SameBudgetKey(db.budgets[k], db.budgets[i]);
        assert i == k;
      }
    }
    r
  }

  function Rows(db: Db, u: UserId, cats: seq<Category>, first: Date): (r: seq<ComparisonRow>)
    requires ValidDate(first) && first.day == 1
    requires forall t :: t in db.transactions ==> ValidDate(t.date)
    ensures |r| == |cats|
    ensures forall i :: 0 <= i < |cats| ==> r[i] == Row(db, u, cats[i], first)
  {
    seq(|cats|, i requires 0 <= i < |cats| => Row(db, u, cats[i], first))
  }

  /** The endpoint. December of year 9999 has no following month, so the
      month arithmetic raises and the request fails with a 500. */
  function Get(db: Db, u: UserId, today: Date, month: Option<string>)
    : (r: Result<seq<ComparisonRow>, ApiError>)
    requires ValidDate(today)
    requires forall t :: t in db.transactions ==> ValidDate(t.date)
    ensures r == Err(BadRequest(InvalidMonthMessage)) <==> Truthy(month) && ParseYearMonth(month.value).None?
    ensures r.Ok? ==> |r.value| == |ExpenseCategories(db, u)|
    ensures r.Ok? ==> forall i :: 0 <= i < |r.value| ==>
      && r.value[i].categoryId == ExpenseCategories(db, u)[i].id
      && r.value[i].difference == r.value[i].budgetAmount - r.value[i].actualAmount
      && r.value[i].year == ResolveMonth(today, month).value.year
      && r.value[i].month == ResolveMonth(today, month).value.month
    ensures r.Ok? ==> r.value == Rows(db, u, ExpenseCategories(db, u), ResolveMonth(today, month).value)
    ensures r == Err(ServerError) <==>
      ResolveMonth(today, month).Ok? && ResolveMonth(today, month).value.year == MaxYear
      && ResolveMonth(today, month).value.month == 12
  {
    match ResolveMonth(today, month)
    case Err(e) => Err(e)
    case Ok(first) =>
      if first.year == MaxYear && first.month == 12 then Err(ServerError)
      else Ok(Rows(db, u, ExpenseCategories(db, u), first))
  }
}

=== FILE: dates.dfy ===
/** Calendar dates as (year, month, day) triples, the month arithmetic the
    server does with `relativedelta`, and the two `strptime` formats it
    accepts (`%Y-%m` and `%Y-%m-%d`). */
module Dates {
  import opened Common

  datatype Date = Date(year: int, month: int, day: int)

  /** Python's `datetime.MINYEAR` and `datetime.MAXYEAR`. */
  const MinYear: int := 1
  const MaxYear: int := 9999

  predicate IsLeapYear(y: int) {
    (y % 4 == 0 && y % 100 != 0) || y % 400 == 0
  }

  function DaysInMonth(y: int, m: int): (n: int)
    requires 1 <= m <= 12
    ensures 28 <= n <= 31
    ensures m == 2 ==> (n == 29 <==> IsLeapYear(y))
  {
    if m == 2 then (if IsLeapYear(y) then 29 else 28)
    else if m == 4 || m == 6 || m == 9 || m == 11 then 30
    else 31
  }

  /** A date Python's `datetime.date` accepts. */
  predicate ValidDate(d: Date) {
    && MinYear <= d.year <= MaxYear
    && 1 <= d.month <= 12
    && 1 <= d.day <= DaysInMonth(d.year, d.month)
  }

  /** Chronological order, the order of the `date` column. */
  predicate OnOrBefore(a: Date, b: Date) {
    || a.year < b.year
    || (a.year == b.year && a.month < b.month)
    || (a.year == b.year && a.month == b.month && a.day <= b.day)
  }

  predicate Before(a: Date, b: Date) {
    OnOrBefore(a, b) && a != b
  }

  /** `date__range=[start, end]`: both ends included. */
  predicate InRange(d: Date, start: Date, end: Date) {
    OnOrBefore(start, d) && OnOrBefore(d, end)
  }

  /** Months counted from year 0, so that consecutive months differ by one. */
  function MonthIndex(d: Date): int {
    d.year * 12 + (d.month - 1)
  }

  /** The first day of the month with the given index. */
  function MonthStart(k: int): (d: Date)
    ensures MonthIndex(d) == k && d.day == 1 && 1 <= d.month <= 12
    ensures 0 <= k ==> 0 <= d.year
  {
    Date(k / 12, k % 12 + 1, 1)
  }

  /** The month index names its month: counting to a date's index lands on
      the first of that date's month. */
  lemma MonthStartOfIndex(d: Date)
    requires 1 <= d.month <= 12
    ensures MonthStart(MonthIndex(d)) == Date(d.year, d.month, 1)
  {
    MonthIndexOrder(MonthStart(MonthIndex(d)), d);
  }

  /** `d.replace(day=1)`. */
  function FirstOfMonth(d: Date): (f: Date)
    requires ValidDate(d)
    ensures ValidDate(f) && f.day == 1 && MonthIndex(f) == MonthIndex(d)
    ensures OnOrBefore(f, d)
  {
    Date(d.year, d.month, 1)
  }

  /** The last day of the month of `d`: `first + relativedelta(months=1)
      - relativedelta(days=1)` on the server, `new Date(y, m + 1, 0)` on
      the client. */
  function LastOfMonth(d: Date): (l: Date)
    requires ValidDate(d)
    ensures ValidDate(l) && MonthIndex(l) == MonthIndex(d)
    ensures OnOrBefore(d, l)
    ensures forall e :: ValidDate(e) && MonthIndex(e) == MonthIndex(d) ==> OnOrBefore(e, l)
  {
    Date(d.year, d.month, DaysInMonth(d.year, d.month))
  }

  /** `first + relativedelta(months=n)` for a first-of-month date: a
      calendar month, and a valid date exactly when the target month lies
      within years 1 to 9999 (outside them the library raises). */
  function AddMonths(first: Date, n: int): (r: Date)
    ensures MonthIndex(r) == MonthIndex(first) + n && r.day == 1
    ensures 1 <= r.month <= 12
    ensures ValidDate(r) <==> MinYear * 12 <= MonthIndex(first) + n < (MaxYear + 1) * 12
  {
    MonthStart(MonthIndex(first) + n)
  }

  lemma MonthIndexOrder(a: Date, b: Date)
    requires 1 <= a.month <= 12 && 1 <= b.month <= 12
    ensures MonthIndex(a) < MonthIndex(b) ==> Before(a, b)
    ensures MonthIndex(a) == MonthIndex(b) <==> a.year == b.year && a.month == b.month
  {
  }

  /** The half-open range `[first, first + 1 month)` the budget comparison
      sums over is exactly the calendar month of `first`. */
  lemma HalfOpenMonth(first: Date, d: Date)
    requires ValidDate(first) && first.day == 1 && ValidDate(d)
    ensures (OnOrBefore(first, d) && Before(d, AddMonths(first, 1)))
        <==> (d.year == first.year && d.month == first.month)
  {
    var next := AddMonths(first, 1);
    if first.month == 12 {
      assert next == Date(first.year + 1, 1, 1);
    } else {
      assert next == Date(first.year, first.month + 1, 1);
    }
  }

  /** `%Y-%m` as `strftime` prints it (glibc: the year is not padded). */
  function YearMonthText(d: Date): string
    requires 0 <= d.year && 0 <= d.month
  {
    NatToString(d.year) + "-" + Pad2(d.month)
  }

  // ---------------------------------------------------------------------
  // strptime. CPython's `_strptime` turns `%Y` into exactly four digits,
  // `%m` into `1[0-2]|0[1-9]|[1-9]` and `%d` into
  // `3[01]|[12]\d|0[1-9]|[1-9]| [1-9]`, requires the whole input to be
  // consumed, and then lets `datetime.date` reject impossible dates.

  predicate MonthToken(s: string) {
    || (|s| == 1 && '1' <= s[0] <= '9')
    || (|s| == 2 && s[0] == '0' && '1' <= s[1] <= '9')
    || (|s| == 2 && s[0] == '1' && '0' <= s[1] <= '2')
  }

  predicate DayToken(s: string) {
    || (|s| == 1 && '1' <= s[0] <= '9')
    || (|s| == 2 && (s[0] == ' ' || s[0] == '0') && '1' <= s[1] <= '9')
    || (|s| == 2 && (s[0] == '1' || s[0] == '2') && IsDigit(s[1]))
    || (|s| == 2 && s[0] == '3' && (s[1] == '0' || s[1] == '1'))
  }

  /** The number a month or day token denotes (a leading blank or zero
      contributes nothing). */
  function TokenValue(s: string): (v: nat)
    requires 1 <= |s| <= 2 && IsDigit(s[|s| - 1])
    requires |s| == 2 ==> s[0] == ' ' || IsDigit(s[0])
    ensures v < 100
  {
    if |s| == 1 || s[0] == ' ' then DigitValue(s[|s| - 1])
    else DigitValue(s[0]) * 10 + DigitValue(s[1])
  }

  lemma MonthTokenRange(s: string)
    requires MonthToken(s)
    ensures 1 <= TokenValue(s) <= 12
  {
  }

  lemma DayTokenRange(s: string)
    requires DayToken(s)
    ensures 1 <= TokenValue(s) <= 31
  {
  }

  /** The four-digit year in front of the first `-`. */
  function YearPart(s: string): (r: Option<int>)
    ensures r.Some? ==> 0 <= r.value <= MaxYear && |s| >= 5 && s[4] == '-'
  {
    if |s| >= 5 && AllDigits(s[..4]) && s[4] == '-' then
      DigitsValueBound(s[..4]);
      assert Pow10(4) == 10000;
      Some(DigitsValue(s[..4]))
    else None
  }

  /** `datetime.strptime(s, '%Y-%m').date()`: the first of the month, or
      None where Python raises `ValueError`. */
  function ParseYearMonth(s: string): (r: Option<Date>)
    ensures r.Some? ==> ValidDate(r.value) && r.value.day == 1
    ensures r.Some? ==> |s| >= 6 && s[4] == '-' && MonthToken(s[5..])
  {
    match YearPart(s)
    case None => None
    case Some(y) =>
      var m := s[5..];
      if MonthToken(m) && y >= MinYear then
        MonthTokenRange(m);
        Some(Date(y, TokenValue(m), 1))
      else None
  }

  /** The position of the first `c` in `s`. */
  function IndexOf(s: string, c: char): (r: Option<nat>)
    ensures r.Some? ==> r.value < |s| && s[r.value] == c
    ensures r.Some? ==> forall i :: 0 <= i < r.value ==> s[i] != c
    ensures r.None? ==> forall i :: 0 <= i < |s| ==> s[i] != c
  {
    if |s| == 0 then None
    else if s[0] == c then Some(0)
    else match IndexOf(s[1..], c)
      case None => None
      case Some(k) => Some(k + 1)
  }

  lemma {:induction false} IndexOfFirst(a: string, c: char, b: string)
    requires forall i :: 0 <= i < |a| ==> a[i] != c
    ensures IndexOf(a + [c] + b, c) == Some(|a|)
  {
    if |a| > 0 {
      assert (a + [c] + b)[1..] == a[1..] + [c] + b;
      IndexOfFirst(a[1..], c, b);
    }
  }

  /** `datetime.strptime(s, '%Y-%m-%d').date()`, None where Python raises
      `ValueError` (a malformed field or an impossible date). */
  function ParseDate(s: string): (r: Option<Date>)
    ensures r.Some? ==> ValidDate(r.value)
  {
    match YearPart(s)
    case None => None
    case Some(y) =>
      var rest := s[5..];
      match IndexOf(rest, '-')
      case None => None
      case Some(k) =>
        var m := rest[..k];
        var d := rest[k + 1..];
        if MonthToken(m) && DayToken(d) && y >= MinYear then
          MonthTokenRange(m);
          DayTokenRange(d);
          var date := Date(y, TokenValue(m), TokenValue(d));
          if date.day <= DaysInMonth(date.year, date.month) then Some(date) else None
        else None
  }

  lemma FourDigitYear(y: int)
    requires 1000 <= y <= 9999
    ensures |NatToString(y)| == 4 && DigitsValue(NatToString(y)) == y
  {
    assert Pow10(3) == 1000 && Pow10(4) == 10000;
    NatToStringLength(y, 4);
    DigitsValueOfNatToString(y);
  }

  /** What `strftime('%Y-%m')` prints, `strptime('%Y-%m')` reads back. */
  lemma {:induction false} YearMonthRoundTrip(d: Date)
    requires 1000 <= d.year <= MaxYear && 1 <= d.month <= 12
    ensures ParseYearMonth(YearMonthText(d)) == Some(Date(d.year, d.month, 1))
  {
    var s := YearMonthText(d);
    FourDigitYear(d.year);
    PaddedToken(d.month);
    assert s[..4] == NatToString(d.year);
    assert s[5..] == Pad2(d.month);
  }

  /** `year-month-day` with no padding on month or day, the shape the
      transaction dialog sends. */
  function DashedDateText(d: Date): string
    requires 0 <= d.year && 0 <= d.month && 0 <= d.day
  {
    NatToString(d.year) + "-" + NatToString(d.month) + "-" + NatToString(d.day)
  }

  lemma SmallRendering(n: nat)
    requires 1 <= n <= 99
    ensures n < 10 ==> NatToString(n) == [DigitChar(n)]
    ensures 10 <= n ==> NatToString(n) == [DigitChar(n / 10), DigitChar(n % 10)]
  {
  }

  lemma {:induction false} RenderedMonthToken(m: int)
    requires 1 <= m <= 12
    ensures MonthToken(NatToString(m)) && TokenValue(NatToString(m)) == m
  {
    SmallRendering(m);
  }

  lemma {:induction false} RenderedDayToken(d: int)
    requires 1 <= d <= 31
    ensures DayToken(NatToString(d)) && TokenValue(NatToString(d)) == d
  {
    SmallRendering(d);
  }

  /** A four-digit year, a month token and a day token joined by dashes
      are read back by `strptime('%Y-%m-%d')` as the date they denote. */
  lemma {:induction false} ParseDateFields(y: string, m: string, dd: string, d: Date)
    requires ValidDate(d)
    requires |y| == 4 && AllDigits(y) && DigitsValue(y) == d.year
    requires MonthToken(m) && TokenValue(m) == d.month
    requires DayToken(dd) && TokenValue(dd) == d.day
    ensures ParseDate(y + "-" + m + "-" + dd) == Some(d)
  {
    var s := y + "-" + m + "-" + dd;
    assert s[..4] == y;
    var rest := s[5..];
    assert rest == m + "-" + dd;
    IndexOfFirst(m, '-', dd);
    assert IndexOf(rest, '-') == Some(|m|);
    assert rest[..|m|] == m;
    assert rest[|m| + 1..] == dd;
  }

  /** Unpadded `year-month-day` text is read back by `strptime('%Y-%m-%d')`
      whenever the year has four digits. */
  lemma {:induction false} DashedDateRoundTrip(d: Date)
    requires ValidDate(d) && 1000 <= d.year
    ensures ParseDate(DashedDateText(d)) == Some(d)
  {
    FourDigitYear(d.year);
    RenderedMonthToken(d.month);
    RenderedDayToken(d.day);
    ParseDateFields(NatToString(d.year), NatToString(d.month), NatToString(d.day), d);
  }

  /** Zero-padded day and month fields are tokens `strptime` accepts. */
  lemma {:induction false} PaddedToken(n: nat)
    requires 1 <= n <= 31
    ensures DayToken(Pad2(n)) && TokenValue(Pad2(n)) == n
    ensures n <= 12 ==> MonthToken(Pad2(n))
  {
    SmallRendering(n);
    if n < 10 {
      assert Pad2(n) == ['0', DigitChar(n)];
    } else {
      assert Pad2(n) == NatToString(n);
    }
  }

  /** The date part of `toISOString()`: year, then zero-padded month and
      day. */
  function IsoDateText(d: Date): string
    requires 0 <= d.year <= 9999 && 0 <= d.month && 0 <= d.day
  {
    Pad4(d.year) + "-" + Pad2(d.month) + "-" + Pad2(d.day)
  }

  /** Zero-padded `year-month-day` text is read back by
      `strptime('%Y-%m-%d')` for every supported year. */
  lemma {:induction false} IsoDateRoundTrip(d: Date)
    requires ValidDate(d)
    ensures ParseDate(IsoDateText(d)) == Some(d)
  {
    PaddedToken(d.month);
    PaddedToken(d.day);
    ParseDateFields(Pad4(d.year), Pad2(d.month), Pad2(d.day), d);
  }
}

=== FILE: forms.dfy ===
/** Angular's built-in validators as the dialogs and the signup page use
    them: `required`, `minLength`, `min` on amounts, and `email`. Amount
    controls hold integer cents, so `min(0.01)` is a bound of one cent. */
module Forms {
  import opened Common

  /** A control's value: null (or undefined), a string or a number. */
  datatype Value = Null | Str(s: string) | Num(n: int)

  /** Angular's notion of an empty input: null, undefined or the empty
      string. A number, even 0, is not empty. */
  predicate IsEmpty(v: Value) {
    v == Null || v == Str("")
  }

  /** `Validators.required`. */
  predicate Required(v: Value) {
    !IsEmpty(v)
  }

  /** JavaScript's `length` of a string: its UTF-16 code units, two for
      each character beyond the Basic Multilingual Plane. */
  function Utf16Length(s: string): (n: nat)
    ensures |s| <= n <= 2 * |s|
    ensures (forall i :: 0 <= i < |s| ==> s[i] as int < 0x1_0000) ==> n == |s|
    ensures (forall i :: 0 <= i < |s| ==> s[i] as int >= 0x1_0000) ==> n == 2 * |s|
  {
    if |s| == 0 then 0
    else (if s[0] as int >= 0x1_0000 then 2 else 1) + Utf16Length(s[1..])
  }

  /** `Validators.minLength(n)`: empty values and values without a length
      pass; a string must have a `length` of at least `n`. */
  predicate MinLength(v: Value, n: nat) {
    IsEmpty(v) || !v.Str? || Utf16Length(v.s) >= n
  }

  /** Four characters beyond the Basic Multilingual Plane have a `length`
      of eight, so they satisfy `minLength(8)`. */
  lemma AstralCharactersCountTwice()
    ensures |"\U{1F600}\U{1F600}\U{1F600}\U{1F600}"| == 4
    ensures MinLength(Str("\U{1F600}\U{1F600}\U{1F600}\U{1F600}"), 8)
  {
  }

  /** `Validators.min(0.01)` on an amount in cents: an empty control passes. */
  predicate MinCents(amount: Option<int>) {
    amount.None? || amount.value >= 1
  }

  /** `required` and `min(0.01)` together: an amount of at least one cent. */
  lemma RequiredAmount(amount: Option<int>)
    ensures amount.Some? && MinCents(amount) <==> amount.Some? && amount.value >= 1
  {
  }

  /** `required` and `minLength(n)` on a text control: a `length` of at
      least `n`, and at least one character. */
  lemma RequiredText(s: string, n: nat)
    ensures Required(Str(s)) && MinLength(Str(s), n) <==> Utf16Length(s) >= n && |s| >= 1
  {
  }

  // ---------------------------------------------------------------------
  // `Validators.email`: Angular's address pattern. The whole address has
  // 1 to 254 characters; an `@` comes within the first 65; the local part
  // is dot-separated atoms; the domain is dot-separated labels of at most
  // 63 letters, digits and hyphens that begin and end with a letter or a
  // digit.

  predicate Alnum(c: char) {
    ('a' <= c <= 'z') || ('A' <= c <= 'Z') || ('0' <= c <= '9')
  }

  predicate AtomChar(c: char) {
    Alnum(c) || c in "!#$%&'*+/=?^_`{|}~-"
  }

  predicate LabelChar(c: char) {
    Alnum(c) || c == '-'
  }

  /** Non-empty runs of `ok` characters joined by single dots. */
  predicate DotSeparated(s: string, ok: char -> bool) {
    && |s| > 0
    && s[0] != '.' && s[|s| - 1] != '.'
    && (forall i :: 0 <= i < |s| ==> s[i] == '.' || ok(s[i]))
    && (forall i :: 0 <= i < |s| - 1 ==> !(s[i] == '.' && s[i + 1] == '.'))
  }

  predicate LocalPart(s: string) {
    DotSeparated(s, AtomChar)
  }

  predicate NoDotIn(s: string, i: int, j: int)
    requires 0 <= i <= j <= |s|
  {
    forall k :: i <= k < j ==> s[k] != '.'
  }

  /** Every stretch without a dot, so every label, has at most 63
      characters. */
  predicate ShortLabels(s: string) {
    forall i, j :: 0 <= i <= j <= |s| && NoDotIn(s, i, j) ==> j - i <= 63
  }

  predicate DomainPart(s: string) {
    && DotSeparated(s, LabelChar)
    && Alnum(s[0]) && Alnum(s[|s| - 1])
    && (forall i :: 0 < i < |s| - 1 && s[i] == '.' ==> Alnum(s[i - 1]) && Alnum(s[i + 1]))
    && ShortLabels(s)
  }

  predicate EmailShaped(s: string) {
    && 1 <= |s| <= 254
    && exists k :: 1 <= k <= 64 && k < |s| && s[k] == '@' && LocalPart(s[..k]) && DomainPart(s[k + 1..])
  }

  /** `Validators.email`: an empty control passes. */
  predicate EmailValid(v: Value) {
    IsEmpty(v) || !v.Str? || EmailShaped(v.s)
  }

  /** `@` is neither an atom nor a label character, so a dot-separated run
      of either holds none. */
  lemma NoAtSign(s: string, ok: char -> bool)
    requires DotSeparated(s, ok) && !ok('@')
    ensures forall j :: 0 <= j < |s| ==> s[j] != '@'
  {
  }

  /** An email-shaped address has exactly one `@`, and it splits the
      address into its local part and its domain. */
  lemma OneAtSign(s: string, k: int)
    requires EmailShaped(s)
    requires 0 <= k < |s| && s[k] == '@'
    ensures LocalPart(s[..k]) && DomainPart(s[k + 1..])
    ensures forall j :: 0 <= j < |s| && s[j] == '@' ==> j == k
  {
    var m :| 1 <= m <= 64 && m < |s| && s[m] == '@' && LocalPart(s[..m]) && DomainPart(s[m + 1..]);
    OnlyAtSign(s, m);
  }

  /** Around an `@` with a local part before it and a domain part after it,
      no other `@` can occur. */
  lemma OnlyAtSign(s: string, m: int)
    requires 0 <= m < |s| && s[m] == '@' && LocalPart(s[..m]) && DomainPart(s[m + 1..])
    ensures forall j :: 0 <= j < |s| && s[j] == '@' ==> j == m
  {
    var local, domain := s[..m], s[m + 1..];
    AtSignIsNoPartChar();
    assert forall j :: 0 <= j < m ==> s[j] != '@' by {
      NoAtSign(local, AtomChar);
      forall j | 0 <= j < m ensures s[j] != '@' {
        assert s[j] == local[j];
      }
    }
    assert forall j :: m < j < |s| ==> s[j] != '@' by {
      NoAtSign(domain, LabelChar);
      forall j | m < j < |s| ensures s[j] != '@' {
        assert s[j] == domain[j - m - 1];
      }
    }
  }

  lemma AtSignIsNoPartChar()
    ensures !AtomChar('@') && !LabelChar('@')
  {
  }

  /** `host.tld` with letters and digits only and both labels at most 63
      long is a domain part. */
  lemma PlainDomain(host: string, tld: string)
    requires 1 <= |host| <= 63 && 1 <= |tld| <= 63
    requires forall i :: 0 <= i < |host| ==> Alnum(host[i])
    requires forall i :: 0 <= i < |tld| ==> Alnum(tld[i])
    ensures DomainPart(host + "." + tld)
  {
    var d := host + "." + tld;
    var h := |host|;
    assert d[h] == '.';
    assert forall i :: 0 <= i < h ==> d[i] == host[i];
    assert forall i :: h < i < |d| ==> d[i] == tld[i - h - 1];
    assert forall i :: 0 <= i < |d| && i != h ==> Alnum(d[i]);
    forall i, j | 0 <= i <= j <= |d| && NoDotIn(d, i, j) ensures j - i <= 63 {
    }
  }

  /** A plain address, `user@host.tld` with letters and digits only and
      every part short enough, is email-shaped. */
  lemma PlainAddress(user: string, host: string, tld: string)
    requires 1 <= |user| <= 64 && 1 <= |host| <= 63 && 1 <= |tld| <= 63
    requires |user| + |host| + |tld| + 2 <= 254
    requires forall i :: 0 <= i < |user| ==> Alnum(user[i])
    requires forall i :: 0 <= i < |host| ==> Alnum(host[i])
    requires forall i :: 0 <= i < |tld| ==> Alnum(tld[i])
    ensures EmailShaped(user + "@" + host + "." + tld)
  {
    var s := user + "@" + host + "." + tld;
    var k := |user|;
    assert s[..k] == user;
    assert s[k + 1..] == host + "." + tld;
    assert s[k] == '@';
    PlainDomain(host, tld);
    assert LocalPart(user);
  }

  /** An address without a dot-separated domain or without a local part
      is refused. */
  lemma MissingPartsRefused(user: string, host: string)
    ensures !EmailShaped(user + "@")
    ensures !EmailShaped("@" + host)
  {
    if EmailShaped(user + "@") {
      OneAtSign(user + "@", |user|);
    }
    if EmailShaped("@" + host) {
      OneAtSign("@" + host, 0);
    }
  }
}

=== FILE: guard.dfy ===
/** The guard on the login and signup pages (`PublicGuard`): a logged-in
    user is turned away to the dashboard. */
module Guard {
  import opened Common
  import opened Session

  const DashboardPath: string := "/dashboard"

  /** Whether navigation may proceed, and where the guard navigated instead. */
  datatype GuardResult = GuardResult(allow: bool, navigateTo: Option<string>)

  function CanActivate(s: State): (r: GuardResult)
    ensures r.allow <==> !IsLoggedIn(s)
    ensures r.navigateTo.Some? <==> IsLoggedIn(s)
    ensures r.navigateTo.Some? ==> r.navigateTo.value == DashboardPath
  {
    if IsLoggedIn(s) then GuardResult(false, Some(DashboardPath)) else GuardResult(true, None)
  }

  /** The exported guard function; the route and router state it receives
      play no part. */
  function PublicGuardFn(s: State, route: string, routerState: string): (r: GuardResult)
    ensures r == CanActivate(s)
  {
    CanActivate(s)
  }

  /** Two sessions with the same login snapshot get the same verdict,
      whatever else differs between them. */
  lemma VerdictDependsOnLoginOnly(s1: State, s2: State, route1: string, route2: string,
                                  st1: string, st2: string)
    requires IsLoggedIn(s1) == IsLoggedIn(s2)
    ensures PublicGuardFn(s1, route1, st1) == PublicGuardFn(s2, route2, st2)
  {
  }

  /** After a logout the public pages open; after storing a non-empty token
      they redirect to the dashboard. */
  lemma GuardFollowsSession(s: State, t: string)
    ensures CanActivate(Logout(s)) == GuardResult(true, None)
    ensures |t| > 0 ==> CanActivate(SetToken(s, t)) == GuardResult(false, Some(DashboardPath))
    ensures |t| == 0 ==> CanActivate(SetToken(s, t)).allow
  {
  }
}

=== FILE: list_pages.dfy ===
/** The two paged list pages (`TransactionsComponent`, `CategoriesComponent`):
    the query each load sends, the loading and error flags around it, the
    confirmed delete, and the category-name lookup of the transaction
    table. Paginator and sort header are optional, as they are before the
    view is initialised. */
module ListPages {
  import opened Common
  import opened Models
  import opened Views
  import Api

  // ---------------------------------------------------------------------
  // Ordering and paging.

  /** `MatSort`'s direction: `'asc'`, `'desc'` or `''`. */
  datatype Direction = Asc | Desc | Unset

  datatype Sort = Sort(active: string, direction: Direction)

  datatype Paginator = Paginator(pageIndex: nat, pageSize: nat)

  const DefaultPageSize: nat := 10

  /** A field name as a sort header carries it: not empty, and not
      starting with the descending sign. */
  predicate PlainField(f: string) {
    |f| > 0 && f[0] != '-'
  }

  /** `ordering`: the active column, prefixed with `-` when descending,
      and empty without an active column. */
  function Ordering(sort: Option<Sort>): (r: string)
    ensures r == "" <==> sort.None? || sort.value.active == ""
    ensures sort.Some? && PlainField(sort.value.active) ==>
      (r[0] == '-' <==> sort.value.direction == Desc)
    ensures sort.Some? && sort.value.active != "" ==>
      |r| >= |sort.value.active| && r[|r| - |sort.value.active|..] == sort.value.active
  {
    if sort.None? || sort.value.active == "" then ""
    else (if sort.value.direction == Desc then "-" else "") + sort.value.active
  }

  /** How an ordering string is read by convention: an optional `-` for
      descending, then the field. */
  function ReadOrdering(o: string): Option<(string, bool)> {
    if o == "" then None
    else if o[0] == '-' then Some((o[1..], true))
    else Some((o, false))
  }

  /** The ordering string loses nothing: it reads back as the active column
      and whether it is descending; an ascending and an unset direction
      both read as ascending. */
  lemma OrderingRoundTrip(sort: Option<Sort>)
    ensures sort.None? || sort.value.active == "" ==> ReadOrdering(Ordering(sort)).None?
    ensures sort.Some? && PlainField(sort.value.active) ==>
      ReadOrdering(Ordering(sort)) == Some((sort.value.active, sort.value.direction == Desc))
  {
    if sort.Some? && PlainField(sort.value.active) && sort.value.direction == Desc {
      assert Ordering(sort)[1..] == sort.value.active;
    }
  }

  /** The 1-based page number the server expects. */
  function PageNumber(p: Option<Paginator>): (n: nat)
    ensures n >= 1
    ensures p.None? ==> n == 1
    ensures p.Some? ==> n - 1 == p.value.pageIndex
  {
    if p.None? then 1 else p.value.pageIndex + 1
  }

  function PageSize(p: Option<Paginator>): (n: nat)
    ensures p.None? ==> n == DefaultPageSize
    ensures p.Some? ==> n == p.value.pageSize
  {
    if p.None? then DefaultPageSize else p.value.pageSize
  }

  /** `page`, `page_size` and `ordering`, in that order. */
  function BaseParams(p: Option<Paginator>, sort: Option<Sort>): (r: Api.Pairs)
    ensures Api.Lookup(r, "page") == Some(NatToString(PageNumber(p)))
    ensures Api.Lookup(r, "page_size") == Some(NatToString(PageSize(p)))
    ensures Api.Lookup(r, "ordering") == Some(Ordering(sort))
    ensures forall k :: k != "page" && k != "page_size" && k != "ordering" ==> Api.Lookup(r, k).None?
    ensures Api.Lookup(r, "name").None? && Api.Lookup(r, "type").None?
  {
    assert "page" != "ordering" && "page_size" != "ordering" && "page" != "page_size";
    assert "type"[0] != "page"[0] && "name"[0] != "page"[0];
    var ps := Api.SetParam([], "page", NatToString(PageNumber(p)));
    var ps := Api.SetParam(ps, "page_size", NatToString(PageSize(p)));
    Api.SetParam(ps, "ordering", Ordering(sort))
  }

  /** Before the paginator exists the first page of ten is asked for. */
  lemma FirstLoadAsksForFirstPage(sort: Option<Sort>)
    ensures Api.Lookup(BaseParams(None, sort), "page") == Some("1")
    ensures Api.Lookup(BaseParams(None, sort), "page_size") == Some("10")
  {
    assert NatToString(1) == "1";
    assert NatToString(10) == NatToString(1) + [DigitChar(0)];
    assert NatToString(1) + [DigitChar(0)] == "10";
  }

  // ---------------------------------------------------------------------
  // The transaction list's query.

  /** `{page, page_size, ordering, ...filters}` handed to `getTransactions`:
      a filter key that is also a paging key replaces it. */
  function TransactionParams(p: Option<Paginator>, sort: Option<Sort>, filters: Api.Pairs): (r: Api.Pairs)
    requires Api.DistinctKeys(filters)
    ensures forall k :: Api.Lookup(r, k)
                     == (if Api.Lookup(filters, k).Some? then Api.Lookup(filters, k) else Api.Lookup(BaseParams(p, sort), k))
  {
    forall k ensures Api.LastValue(filters, k) == Api.Lookup(filters, k) {
      Api.LastValueOfDistinct(filters, k);
    }
    Api.CopyParams(BaseParams(p, sort), filters)
  }

  /** Caller filters win over the defaults, and the defaults survive under
      every key the caller leaves alone. */
  lemma FiltersOverrideDefaults(p: Option<Paginator>, sort: Option<Sort>, filters: Api.Pairs, k: string, v: string)
    requires Api.DistinctKeys(filters)
    requires (k, v) in filters
    ensures Api.Lookup(TransactionParams(p, sort, filters), k) == Some(v)
    ensures Api.Lookup(TransactionParams(p, sort, filters), "page").Some?
    ensures Api.Lookup(TransactionParams(p, sort, filters), "ordering").Some?
  {
    var base := BaseParams(p, sort);
    var r := TransactionParams(p, sort, filters);
    assert Api.Lookup(r, k) == Some(v) by {
      Api.LookupOfDistinct(filters, k, v);
      assert Api.Lookup(r, k) == Api.Lookup(filters, k);
    }
    assert Api.Lookup(r, "page").Some? by {
      assert Api.Lookup(base, "page").Some?;
      assert Api.Lookup(r, "page") == (if Api.Lookup(filters, "page").Some? then Api.Lookup(filters, "page") else Api.Lookup(base, "page"));
    }
    assert Api.Lookup(r, "ordering").Some? by {
      assert Api.Lookup(base, "ordering").Some?;
      assert Api.Lookup(r, "ordering") == (if Api.Lookup(filters, "ordering").Some? then Api.Lookup(filters, "ordering") else Api.Lookup(base, "ordering"));
    }
  }

  // ---------------------------------------------------------------------
  // The category list's query.

  /** The paging keys, then `name` and `type` only when the filter field is
      not blank. */
  function CategoryParams(p: Option<Paginator>, sort: Option<Sort>, name: Option<string>, ctype: Option<string>)
    : (r: Api.Pairs)
    ensures Api.Lookup(r, "name") == (if Truthy(name) then name else None)
    ensures Api.Lookup(r, "type") == (if Truthy(ctype) then ctype else None)
    ensures forall k :: k != "name" && k != "type" ==> Api.Lookup(r, k) == Api.Lookup(BaseParams(p, sort), k)
  {
    var base := BaseParams(p, sort);
    assert "name" != "type" by { assert "type"[0] != "name"[0]; }
    Api.TwoFilters(base, "name", name, "type", ctype);
    Api.SetIfTruthy(Api.SetIfTruthy(base, "name", name), "type", ctype)
  }

  /** The server lists exactly the categories the filter form describes:
      a blank field filters on neither side. */
  lemma CategoryFiltersReachServer(db: Db, u: UserId, p: Option<Paginator>, sort: Option<Sort>,
                                   name: Option<string>, ctype: Option<string>)
    ensures var ps := CategoryParams(p, sort, name, ctype);
            forall c :: c in ListCategories(db, u, Api.Lookup(ps, "name"), Api.Lookup(ps, "type"))
              <==> c in db.categories && CategoryMatches(c, u, name, ctype)
  {
  }

  // ---------------------------------------------------------------------
  // Loading and error flags.

  datatype PageState<T> = PageState(items: seq<T>, loading: bool, errorMessage: Option<string>)

  /** How a request ended: the listed items, or a failure. */
  datatype Outcome<T> = Loaded(items: seq<T>) | Failed

  const TransactionsLoadError: string := "Failed to load transactions. Please try again."
  const TransactionsDeleteError: string := "Failed to delete transaction. Please try again."
  const CategoriesLoadError: string := "Failed to load categories. Please try again."
  const CategoriesDeleteError: string := "Failed to delete category. Please try again."

  /** A load starts: spinner on, old error cleared. */
  function StartLoad<T>(s: PageState<T>): (r: PageState<T>)
    ensures r.loading && r.errorMessage.None? && r.items == s.items
  {
    s.(loading := true, errorMessage := None)
  }

  /** A load ends: the new items on success, the page's message on failure. */
  function FinishLoad<T>(s: PageState<T>, o: Outcome<T>, message: string): (r: PageState<T>)
    ensures !r.loading
    ensures o.Loaded? ==> r.items == o.items && r.errorMessage == s.errorMessage
    ensures o.Failed? ==> r.items == s.items && r.errorMessage == Some(message)
  {
    match o
    case Loaded(items) => s.(items := items, loading := false)
    case Failed => s.(loading := false, errorMessage := Some(message))
  }

  /** What a delete asks the outside world for. */
  datatype Effect = SendDelete(id: int) | Reload

  /** `deleteTransaction` / `deleteCategory` after the confirmation dialog
      closed with `confirmed`, the delete request ending in `succeeded`.
      On success the page reloads and then clears the spinner at once, so
      the spinner is off while the reload is still on its way. */
  function Delete<T>(s: PageState<T>, id: int, confirmed: bool, succeeded: bool, message: string)
    : (r: (PageState<T>, seq<Effect>))
    ensures !confirmed ==> r == (s, [])
    ensures confirmed ==> |r.1| >= 1 && r.1[0] == SendDelete(id) && !r.0.loading
    ensures confirmed ==> (Reload in r.1 <==> succeeded)
    ensures confirmed ==> (r.0.errorMessage == Some(message) <==> !succeeded)
    ensures confirmed && succeeded ==> r.0.errorMessage.None?
  {
    if !confirmed then (s, [])
    else
      var started := StartLoad(s);
      if succeeded then (StartLoad(started).(loading := false), [SendDelete(id), Reload])
      else (FinishLoad(started, Failed, message), [SendDelete(id)])
  }

  // ---------------------------------------------------------------------
  // Category names in the transaction table.

  /** The first category with the id, as `Array.find` returns it. */
  function FindCategory(cats: seq<Category>, id: CategoryId): (r: Option<Category>)
    ensures r.None? <==> forall c :: c in cats ==> c.id != id
    ensures r.Some? ==> exists i :: 0 <= i < |cats| && cats[i] == r.value && r.value.id == id
                          && forall j :: 0 <= j < i ==> cats[j].id != id
  {
    if |cats| == 0 then None
    else if cats[0].id == id then Some(cats[0])
    else
      var r := FindCategory(cats[1..], id);
      assert forall c :: c in cats[1..] ==> c in cats;
      assert forall i :: 1 <= i < |cats| ==> cats[i] == cats[1..][i - 1];
      r
  }

  const UnknownCategory: string := "Unknown"

  /** `getCategoryName`: the found category's name, even an empty one. */
  function TransactionCategoryName(cats: seq<Category>, id: CategoryId): (r: string)
    ensures (forall c :: c in cats ==> c.id != id) ==> r == UnknownCategory
    ensures FindCategory(cats, id).Some? ==> r == FindCategory(cats, id).value.name
  {
    match FindCategory(cats, id)
    case None => UnknownCategory
    case Some(c) => c.name
  }

  /** With ids unique among the loaded categories, the table shows the name
      of the category the transaction points at. */
  lemma CategoryNameOfUniqueIds(cats: seq<Category>, c: Category)
    requires forall i, j :: 0 <= i < j < |cats| ==> cats[i].id != cats[j].id
    requires c in cats
    ensures TransactionCategoryName(cats, c.id) == c.name
  {
    var f := FindCategory(cats, c.id).value;
    var i :| 0 <= i < |cats| && cats[i] == f && f.id == c.id;
    var k :| 0 <= k < |cats| && cats[k] == c;
    assert i == k;
  }
}

=== FILE: models.dfy ===
/** The server's tables (budget/models.py): users, categories,
    transactions and budgets, their field constraints, the uniqueness of a
    budget per (user, category, month, year), and cascading deletion. */
module Models {
  import opened Common
  import opened Dates

  type UserId = int
  type CategoryId = int

  /** The two choices of `Category.type`. */
  datatype CategoryType = Income | Expense

  function TypeName(t: CategoryType): string {
    match t
    case Income => "income"
    case Expense => "expense"
  }

  /** The stored choice for a submitted `type` value; anything else is
      rejected by the field's choices. */
  function ParseCategoryType(s: string): (r: Option<CategoryType>)
    ensures r.Some? <==> s == "income" || s == "expense"
    ensures r.Some? ==> TypeName(r.value) == s
  {
    if s == "income" then Some(Income) else if s == "expense" then Some(Expense) else None
  }

  datatype User = User(id: UserId, username: string, email: string)

  datatype Category = Category(id: CategoryId, user: UserId, name: string, ctype: CategoryType)

  /** Amounts are decimals with two places, held here as integer cents. */
  datatype Transaction = Transaction(
    id: int, user: UserId, amount: int, category: CategoryId, description: string, date: Date)

  /** `month` is a character field of at most two characters; the server
      never normalises it, so "6" and "06" are different months to it. */
  datatype Budget = Budget(
    id: int, user: UserId, category: CategoryId, amount: int, month: string, year: int)

  datatype Db = Db(
    users: seq<User>, categories: seq<Category>, transactions: seq<Transaction>, budgets: seq<Budget>)

  /** `max_digits=10, decimal_places=2`: at most eight digits before the
      point, so fewer than 10^10 cents in magnitude. */
  const AmountLimit: int := 10_000_000_000

  predicate ValidAmount(cents: int) {
    -AmountLimit < cents < AmountLimit
  }

  predicate ValidCategory(c: Category) {
    |c.name| <= 100
  }

  predicate ValidTransaction(t: Transaction) {
    ValidAmount(t.amount) && |t.description| <= 255 && ValidDate(t.date)
  }

  predicate ValidBudget(b: Budget) {
    ValidAmount(b.amount) && |b.month| <= 2
  }

  /** The `unique_together` key of a budget. */
  predicate SameBudgetKey(a: Budget, b: Budget) {
    a.user == b.user && a.category == b.category && a.month == b.month && a.year == b.year
  }

  predicate UniqueBudgets(bs: seq<Budget>) {
    forall i, j :: 0 <= i < j < |bs| ==> !SameBudgetKey(bs[i], bs[j])
  }

  predicate UserExists(db: Db, u: UserId) {
    exists x :: x in db.users && x.id == u
  }

  predicate CategoryExists(db: Db, c: CategoryId) {
    exists x :: x in db.categories && x.id == c
  }

  /** Every foreign key points at an existing row. */
  predicate ReferencesResolve(db: Db) {
    && (forall c :: c in db.categories ==> UserExists(db, c.user))
    && (forall t :: t in db.transactions ==> UserExists(db, t.user) && CategoryExists(db, t.category))
    && (forall b :: b in db.budgets ==> UserExists(db, b.user) && CategoryExists(db, b.category))
  }

  predicate ValidDb(db: Db) {
    && (forall c :: c in db.categories ==> ValidCategory(c))
    && (forall t :: t in db.transactions ==> ValidTransaction(t))
    && (forall b :: b in db.budgets ==> ValidBudget(b))
    && UniqueBudgets(db.budgets)
    && ReferencesResolve(db)
  }

  datatype DbError = FieldInvalid | IntegrityError | MissingReference

  /** An endpoint's error answer: a 400 with its message, or an uncaught
      exception (500). */
  datatype ApiError = BadRequest(message: string) | ServerError

  /** Saving a new budget: field validation, then the foreign keys, then the
      unique key. */
  function CreateBudget(db: Db, b: Budget): (r: Result<Db, DbError>)
    ensures r.Ok? <==> ValidBudget(b) && UserExists(db, b.user) && CategoryExists(db, b.category)
                       && (forall x :: x in db.budgets ==> !SameBudgetKey(x, b))
    ensures r.Ok? ==> r.value.budgets == db.budgets + [b]
    ensures r.Ok? ==> r.value.categories == db.categories && r.value.transactions == db.transactions
    ensures (r.Err? && ValidBudget(b) && UserExists(db, b.user) && CategoryExists(db, b.category))
              ==> r.error == IntegrityError
  {
    if !ValidBudget(b) then Err(FieldInvalid)
    else if !UserExists(db, b.user) || !CategoryExists(db, b.category) then Err(MissingReference)
    else if exists x :: x in db.budgets && SameBudgetKey(x, b) then Err(IntegrityError)
    else Ok(db.(budgets := db.budgets + [b]))
  }

  /** No sequence of successful saves can produce two budgets with one key. */
  lemma CreateBudgetKeepsValid(db: Db, b: Budget)
    requires ValidDb(db)
    requires CreateBudget(db, b).Ok?
    ensures ValidDb(CreateBudget(db, b).value)
  {
    var db' := CreateBudget(db, b).value;
    forall i, j | 0 <= i < j < |db'.budgets|
      ensures !SameBudgetKey(db'.budgets[i], db'.budgets[j])
    {
      if j == |db.budgets| {
        assert db'.budgets[i] in db.budgets;
      }
    }
    assert forall x :: x in db'.users ==> x in db.users;
  }

  /** Deleting a category deletes its transactions and budgets
      (`on_delete=CASCADE`). */
  function DeleteCategory(db: Db, id: CategoryId): (r: Db)
    ensures r.users == db.users
    ensures forall c :: c in r.categories <==> c in db.categories && c.id != id
    ensures forall t :: t in r.transactions <==> t in db.transactions && t.category != id
    ensures forall b :: b in r.budgets <==> b in db.budgets && b.category != id
  {
    Db(db.users,
       Keep(db.categories, (c: Category) => c.id != id),
       Keep(db.transactions, (t: Transaction) => t.category != id),
       Keep(db.budgets, (b: Budget) => b.category != id))
  }

  /** Deleting a user deletes everything that user owns, and everything
      that hangs off a category they own. */
  function DeleteUser(db: Db, u: UserId): (r: Db)
    ensures forall x :: x in r.users <==> x in db.users && x.id != u
    ensures forall c :: c in r.categories <==> c in db.categories && c.user != u
    ensures forall t :: t in r.transactions <==>
      t in db.transactions && t.user != u && !OwnedCategory(db, u, t.category)
    ensures forall b :: b in r.budgets <==>
      b in db.budgets && b.user != u && !OwnedCategory(db, u, b.category)
  {
    Db(Keep(db.users, (x: User) => x.id != u),
       Keep(db.categories, (c: Category) => c.user != u),
       Keep(db.transactions, (t: Transaction) => t.user != u && !OwnedCategory(db, u, t.category)),
       Keep(db.budgets, (b: Budget) => b.user != u && !OwnedCategory(db, u, b.category)))
  }

  predicate OwnedCategory(db: Db, u: UserId, c: CategoryId) {
    exists x :: x in db.categories && x.id == c && x.user == u
  }

  /** The rows of `s` that satisfy `p`, in their original order. */
  function Keep<T(!new)>(s: seq<T>, p: T -> bool): (r: seq<T>)
    ensures |r| <= |s|
    ensures forall x :: x in r <==> x in s && p(x)
  {
    if |s| == 0 then []
    else if p(s[0]) then [s[0]] + Keep(s[1..], p)
    else Keep(s[1..], p)
  }

  /** Two filters that agree on every row of `s` keep the same rows. */
  lemma {:induction false} KeepAgrees<T(!new)>(s: seq<T>, p: T -> bool, q: T -> bool)
    requires forall x :: x in s ==> p(x) == q(x)
    ensures Keep(s, p) == Keep(s, q)
  {
    if |s| > 0 {
      assert s[0] in s;
      assert forall x :: x in s[1..] ==> x in s;
      KeepAgrees(s[1..], p, q);
    }
  }

  /** A filter every row passes keeps the whole sequence. */
  lemma {:induction false} KeepEvery<T(!new)>(s: seq<T>, p: T -> bool)
    requires forall x :: x in s ==> p(x)
    ensures Keep(s, p) == s
  {
    if |s| > 0 {
      assert s[0] in s;
      assert forall x :: x in s[1..] ==> x in s;
      KeepEvery(s[1..], p);
    }
  }

  /** Deleting a category keeps every remaining reference resolvable. */
  lemma DeleteCategoryKeepsReferences(db: Db, id: CategoryId)
    requires ReferencesResolve(db)
    ensures ReferencesResolve(DeleteCategory(db, id))
  {
    var r := DeleteCategory(db, id);
    forall t | t in r.transactions
      ensures CategoryExists(r, t.category)
    {
      var x :| x in db.categories && x.id == t.category;
      assert x in r.categories;
    }
    forall b | b in r.budgets
      ensures CategoryExists(r, b.category)
    {
      var x :| x in db.categories && x.id == b.category;
      assert x in r.categories;
    }
  }

  /** Deleting a user keeps every remaining reference resolvable, provided a
      category's owner is unique (ids are primary keys). */
  lemma DeleteUserKeepsReferences(db: Db, u: UserId)
    requires ReferencesResolve(db)
    requires forall c, d :: c in db.categories && d in db.categories && c.id == d.id ==> c == d
    ensures ReferencesResolve(DeleteUser(db, u))
  {
    var r := DeleteUser(db, u);
    forall c | c in r.categories
      ensures UserExists(r, c.user)
    {
      var x :| x in db.users && x.id == c.user;
      assert x in r.users;
    }
    forall t | t in r.transactions
      ensures UserExists(r, t.user) && CategoryExists(r, t.category)
    {
      var x :| x in db.users && x.id == t.user;
      assert x in r.users;
      var c :| c in db.categories && c.id == t.category;
      assert c in r.categories;
    }
    forall b | b in r.budgets
      ensures UserExists(r, b.user) && CategoryExists(r, b.category)
    {
      var x :| x in db.users && x.id == b.user;
      assert x in r.users;
      var c :| c in db.categories && c.id == b.category;
      assert c in r.categories;
    }
  }
}

=== FILE: routes.dfy ===
/** The client's route table (app.routes.ts) and first-match navigation
    through it. URLs are paths without the leading slash. The verdict of
    `authGuard` comes from a file that is not part of this model, so it is
    a parameter. */
module Routes {
  import opened Common
  import opened Session
  import opened Guard

  datatype RouteGuard = PublicGuard | AuthGuard

  /** A lazily loaded page behind its guards, or a redirect. */
  datatype Route =
    | Page(path: string, component: string, guards: seq<RouteGuard>)
    | Redirect(path: string, target: string, fullMatch: bool)

  const AppRoutes: seq<Route> := [
    Page("auth/signup", "SignupComponent", [PublicGuard]),
    Page("dashboard", "DashboardComponent", [AuthGuard]),
    Page("auth/login", "LoginComponent", [PublicGuard]),
    Page("transactions", "TransactionsComponent", [AuthGuard]),
    Page("profile", "ProfileComponent", [AuthGuard]),
    Page("transactions", "TransactionsComponent", [AuthGuard]),
    Page("budgets", "BudgetsComponent", [AuthGuard]),
    Page("categories", "CategoriesComponent", [AuthGuard]),
    Redirect("", "auth/signup", true)
  ]

  /** A leaf route matches only the whole URL; the redirect asks for that
      explicitly with a full path match. */
  predicate Matches(r: Route, url: string) {
    r.path == url
  }

  /** The router takes the first route in table order that matches. */
  function FirstMatch(routes: seq<Route>, url: string): (r: Option<Route>)
    ensures r.None? <==> forall i :: 0 <= i < |routes| ==> !Matches(routes[i], url)
    ensures r.Some? ==> exists i :: 0 <= i < |routes| && routes[i] == r.value && Matches(r.value, url)
                         && forall j :: 0 <= j < i ==> !Matches(routes[j], url)
  {
    if |routes| == 0 then None
    else if Matches(routes[0], url) then Some(routes[0])
    else
      var r := FirstMatch(routes[1..], url);
      if r.Some? then
        var i :| 0 <= i < |routes[1..]| && routes[1..][i] == r.value && Matches(r.value, url)
                 && forall j :: 0 <= j < i ==> !Matches(routes[1..][j], url);
        assert routes[i + 1] == r.value;
        assert forall j :: 1 <= j < i + 1 ==> routes[j] == routes[1..][j - 1];
        r
      else
        assert forall i :: 1 <= i < |routes| ==> routes[i] == routes[1..][i - 1];
        r
  }

  datatype Outcome = Render(component: string) | Denied(navigateTo: Option<string>) | NoMatch

  function GuardVerdict(g: RouteGuard, s: State, authAllows: bool): GuardResult {
    match g
    case PublicGuard => PublicGuardFn(s, "", "")
    case AuthGuard => GuardResult(authAllows, None)
  }

  /** Every guard must allow; the first refusing guard's navigation is the
      one that takes effect. */
  function RunGuards(gs: seq<RouteGuard>, s: State, authAllows: bool): (r: GuardResult)
    ensures r.allow <==> forall i :: 0 <= i < |gs| ==> GuardVerdict(gs[i], s, authAllows).allow
  {
    if |gs| == 0 then GuardResult(true, None)
    else
      var v := GuardVerdict(gs[0], s, authAllows);
      if !v.allow then v
      else
        var rest := RunGuards(gs[1..], s, authAllows);
        assert forall i :: 1 <= i < |gs| ==> gs[i] == gs[1..][i - 1];
        rest
  }

  function OpenPage(r: Route, s: State, authAllows: bool): Outcome {
    match r
    case Page(_, component, guards) =>
      var v := RunGuards(guards, s, authAllows);
      if v.allow then Render(component) else Denied(v.navigateTo)
    case Redirect(_, _, _) => NoMatch
  }

  /** Navigation to `url`: the first matching route, following one redirect. */
  function Navigate(routes: seq<Route>, s: State, authAllows: bool, url: string): Outcome {
    var found := FirstMatch(routes, url);
    if found.None? then NoMatch
    else if found.value.Redirect? then
      var next := FirstMatch(routes, found.value.target);
      if next.None? then NoMatch else OpenPage(next.value, s, authAllows)
    else OpenPage(found.value, s, authAllows)
  }

  /** The first matching route is the one at the first matching index. */
  lemma FirstMatchAt(routes: seq<Route>, url: string, i: nat)
    requires i < |routes| && Matches(routes[i], url)
    requires forall j :: 0 <= j < i ==> !Matches(routes[j], url)
    ensures FirstMatch(routes, url) == Some(routes[i])
  {
    var r := FirstMatch(routes, url);
    var k :| 0 <= k < |routes| && routes[k] == r.value && Matches(r.value, url)
             && forall j :: 0 <= j < k ==> !Matches(routes[j], url);
    if k < i { assert Matches(routes[k], url); }
    if i < k { assert Matches(routes[i], url); }
  }

  /** The signup and login pages sit behind the public guard. */
  lemma PublicPages()
    ensures FirstMatch(AppRoutes, "auth/signup") == Some(Page("auth/signup", "SignupComponent", [PublicGuard]))
    ensures FirstMatch(AppRoutes, "auth/login") == Some(Page("auth/login", "LoginComponent", [PublicGuard]))
  {
  }

  // The application pages sit behind the auth guard alone (one lemma per
  // page keeps each proof small).

  lemma DashboardPageProtected()
    ensures FirstMatch(AppRoutes, "dashboard") == Some(Page("dashboard", "DashboardComponent", [AuthGuard]))
  {
    FirstMatchAt(AppRoutes, "dashboard", 1);
  }

  lemma TransactionsPageProtected()
    ensures FirstMatch(AppRoutes, "transactions") == Some(Page("transactions", "TransactionsComponent", [AuthGuard]))
  {
    FirstMatchAt(AppRoutes, "transactions", 3);
  }

  lemma ProfilePageProtected()
    ensures FirstMatch(AppRoutes, "profile") == Some(Page("profile", "ProfileComponent", [AuthGuard]))
  {
    FirstMatchAt(AppRoutes, "profile", 4);
  }

  lemma BudgetsPageProtected()
    ensures FirstMatch(AppRoutes, "budgets") == Some(Page("budgets", "BudgetsComponent", [AuthGuard]))
  {
    FirstMatchAt(AppRoutes, "budgets", 6);
  }

  lemma CategoriesPageProtected()
    ensures FirstMatch(AppRoutes, "categories") == Some(Page("categories", "CategoriesComponent", [AuthGuard]))
  {
    FirstMatchAt(AppRoutes, "categories", 7);
  }

  /** The empty path leads to the signup page, guard included. */
  lemma EmptyPathIsSignup(s: State, authAllows: bool)
    ensures FirstMatch(AppRoutes, "") == Some(Redirect("", "auth/signup", true))
    ensures Navigate(AppRoutes, s, authAllows, "") == Navigate(AppRoutes, s, authAllows, "auth/signup")
  {
  }

  /** A logged-in user who opens the login or signup page lands on the
      dashboard instead; a logged-out one sees the page. */
  lemma PublicPagesRedirectWhenLoggedIn(s: State, authAllows: bool, url: string)
    requires url == "auth/login" || url == "auth/signup"
    ensures IsLoggedIn(s) ==> Navigate(AppRoutes, s, authAllows, url) == Denied(Some(DashboardPath))
    ensures !IsLoggedIn(s) ==> Navigate(AppRoutes, s, authAllows, url).Render?
  {
    PublicPages();
    var page := if url == "auth/login" then Page("auth/login", "LoginComponent", [PublicGuard])
                else Page("auth/signup", "SignupComponent", [PublicGuard]);
    assert FirstMatch(AppRoutes, url) == Some(page);
    assert Navigate(AppRoutes, s, authAllows, url) == OpenPage(page, s, authAllows);
    PublicGuardedPage(page, s, authAllows);
  }

  /** A page behind the public guard alone opens exactly when no one is
      logged in, and otherwise sends the user to the dashboard. */
  lemma PublicGuardedPage(page: Route, s: State, authAllows: bool)
    requires page.Page? && page.guards == [PublicGuard]
    ensures IsLoggedIn(s) ==> OpenPage(page, s, authAllows) == Denied(Some(DashboardPath))
    ensures !IsLoggedIn(s) ==> OpenPage(page, s, authAllows) == Render(page.component)
  {
    assert RunGuards(page.guards, s, authAllows) == GuardVerdict(PublicGuard, s, authAllows);
  }

  /** A route shadowed by an earlier one with the same path never takes part
      in resolution, so deleting it changes nothing. */
  lemma {:induction false} ShadowedRouteIrrelevant(routes: seq<Route>, i: nat, j: nat, url: string)
    requires i < j < |routes| && routes[i].path == routes[j].path
    ensures FirstMatch(routes, url) == FirstMatch(routes[..j] + routes[j + 1..], url)
  {
    var cut := routes[..j] + routes[j + 1..];
    assert cut[0] == routes[0];
    if Matches(routes[0], url) {
    } else if i == 0 {
      assert !Matches(routes[j], url);
      assert cut[1..] == routes[1..][..j - 1] + routes[1..][j..];
      NoShadowMatch(routes[1..], j - 1, url);
    } else {
      assert cut[1..] == routes[1..][..j - 1] + routes[1..][j..];
      ShadowedRouteIrrelevant(routes[1..], i - 1, j - 1, url);
    }
  }

  /** Deleting a route that does not match leaves resolution unchanged. */
  lemma {:induction false} NoShadowMatch(routes: seq<Route>, j: nat, url: string)
    requires j < |routes| && !Matches(routes[j], url)
    ensures FirstMatch(routes, url) == FirstMatch(routes[..j] + routes[j + 1..], url)
  {
    var cut := routes[..j] + routes[j + 1..];
    if j == 0 {
      assert cut == routes[1..];
    } else {
      assert cut[0] == routes[0];
      if !Matches(routes[0], url) {
        assert cut[1..] == routes[1..][..j - 1] + routes[1..][j..];
        NoShadowMatch(routes[1..], j - 1, url);
      }
    }
  }

  /** `transactions` is declared twice with the same page and guard; the
      second entry never decides anything. */
  lemma DuplicateTransactionsRoute(url: string)
    ensures AppRoutes[3] == AppRoutes[5]
    ensures FirstMatch(AppRoutes, url) == FirstMatch(AppRoutes[..5] + AppRoutes[6..], url)
  {
    ShadowedRouteIrrelevant(AppRoutes, 3, 5, url);
  }

  /** There is no wildcard route: an unknown URL matches nothing, whatever
      the stored session and whatever the authentication guard would say. */
  lemma UnknownUrl(s: State, authAllows: bool, url: string)
    requires forall i :: 0 <= i < |AppRoutes| ==> AppRoutes[i].path != url
    ensures Navigate(AppRoutes, s, authAllows, url) == NoMatch
  {
  }
}

=== FILE: session.dfy ===
/** The client's session store (`AuthService`): a key-value storage, the
    published token and the published username. Storage is the browser's
    local storage, passed explicitly; the published values are what the
    two subjects last emitted. */
module Session {
  import opened Common

  type Storage = map<string, string>

  const TokenKey: string := "token"
  const UsernameKey: string := "username"

  datatype State = State(storage: Storage, token: Option<string>, username: Option<string>)

  /** `localStorage.getItem`: null for a missing key. */
  function GetItem(st: Storage, key: string): (r: Option<string>)
    ensures r.Some? <==> key in st
    ensures r.Some? ==> r.value == st[key]
  {
    if key in st then Some(st[key]) else None
  }

  function GetToken(s: State): (r: Option<string>)
    ensures r == GetItem(s.storage, TokenKey)
  {
    GetItem(s.storage, TokenKey)
  }

  /** `!!getToken()`: a stored, non-empty token. */
  predicate IsLoggedIn(s: State) {
    Truthy(GetToken(s))
  }

  /** The stored token is `t` and is published; nothing else changes. */
  function SetToken(s: State, t: string): (r: State)
    ensures GetToken(r) == Some(t) && r.token == Some(t)
    ensures r.username == s.username
    ensures forall k :: k != TokenKey ==> GetItem(r.storage, k) == GetItem(s.storage, k)
    ensures IsLoggedIn(r) <==> |t| > 0
  {
    s.(storage := s.storage[TokenKey := t], token := Some(t))
  }

  /** The token is removed and null is published; the stored username stays. */
  function Logout(s: State): (r: State)
    ensures GetToken(r).None? && r.token.None?
    ensures !IsLoggedIn(r)
    ensures r.username == s.username
    ensures forall k :: k != TokenKey ==> GetItem(r.storage, k) == GetItem(s.storage, k)
  {
    s.(storage := s.storage - {TokenKey}, token := None)
  }

  /** The username is stored and published; the token is not touched. */
  function SetUsername(s: State, name: string): (r: State)
    ensures GetItem(r.storage, UsernameKey) == Some(name) && r.username == Some(name)
    ensures GetToken(r) == GetToken(s) && r.token == s.token
    ensures forall k :: k != UsernameKey ==> GetItem(r.storage, k) == GetItem(s.storage, k)
  {
    s.(storage := s.storage[UsernameKey := name], username := Some(name))
  }

  /** Construction over an existing storage: the username subject starts
      from the stored username, and a stored non-empty token is set again
      and published; otherwise null is published. */
  function Init(st: Storage): (r: State)
    ensures r.storage == st
    ensures r.username == GetItem(st, UsernameKey)
    ensures r.token == (if Truthy(GetItem(st, TokenKey)) then GetItem(st, TokenKey) else None)
  {
    var s := State(st, None, GetItem(st, UsernameKey));
    var stored := GetItem(st, TokenKey);
    if Truthy(stored) then
      assert st[TokenKey := stored.value] == st;
      SetToken(s, stored.value)
    else s
  }

  /** The published token agrees with storage: whenever a token is
      published it is the stored one, and when none is published the
      stored token (if any) is empty. The published username is the stored
      one. */
  predicate Coherent(s: State) {
    && (if s.token.Some? then s.token == GetToken(s) else !Truthy(GetToken(s)))
    && s.username == GetItem(s.storage, UsernameKey)
  }

  datatype Op = SetTokenOp(t: string) | SetUsernameOp(name: string) | LogoutOp

  function Step(s: State, op: Op): State {
    match op
    case SetTokenOp(t) => SetToken(s, t)
    case SetUsernameOp(name) => SetUsername(s, name)
    case LogoutOp => Logout(s)
  }

  function Run(s: State, ops: seq<Op>): State
    decreases |ops|
  {
    if |ops| == 0 then s else Run(Step(s, ops[0]), ops[1..])
  }

  lemma InitCoherent(st: Storage)
    ensures Coherent(Init(st))
  {
  }

  lemma StepKeepsCoherent(s: State, op: Op)
    requires Coherent(s)
    ensures Coherent(Step(s, op))
  {
  }

  /** Whatever the service does after construction, the published token is
      truthy exactly when the user counts as logged in. */
  lemma {:induction false} RunKeepsCoherent(s: State, ops: seq<Op>)
    requires Coherent(s)
    ensures Coherent(Run(s, ops))
    ensures Truthy(Run(s, ops).token) <==> IsLoggedIn(Run(s, ops))
    decreases |ops|
  {
    if |ops| > 0 {
      StepKeepsCoherent(s, ops[0]);
      RunKeepsCoherent(Step(s, ops[0]), ops[1..]);
    }
  }

  /** Logging out and back in restores the login without touching the
      username. */
  lemma LogoutThenLogin(s: State, t: string)
    requires |t| > 0
    ensures IsLoggedIn(SetToken(Logout(s), t))
    ensures SetToken(Logout(s), t).username == s.username
    ensures GetItem(SetToken(Logout(s), t).storage, UsernameKey) == GetItem(s.storage, UsernameKey)
  {
  }
}

=== FILE: signup_page.dfy ===
/** The signup page (`SignupComponent`): its validators, the payload it
    posts, and the session update after the server accepts the account.
    The request is an outcome passed in: the server's answer on success,
    nothing on failure (the error is reported by the HTTP layer). */
module SignupPage {
  import opened Common
  import opened Models
  import opened Forms
  import opened Session
  import opened Guard
  import AuthViews

  datatype SignupForm = SignupForm(username: string, email: string, password: string)

  /** username: required; email: required and email-shaped; password:
      required, at least eight characters. */
  predicate Valid(f: SignupForm) {
    && Required(Str(f.username))
    && Required(Str(f.email)) && EmailValid(Str(f.email))
    && Required(Str(f.password)) && MinLength(Str(f.password), 8)
  }

  lemma ValidMeans(f: SignupForm)
    ensures Valid(f) <==> f.username != "" && EmailShaped(f.email) && Utf16Length(f.password) >= 8
  {
    RequiredText(f.password, 8);
  }

  datatype SignupPayload = SignupPayload(username: string, email: string, password: string)

  /** The members of a successful answer the page reads. */
  datatype SignupAnswer = SignupAnswer(token: string, username: string)

  /** `onSubmit`: no request unless the form is valid; after a successful
      answer the token is stored, then the username, then the page moves to
      the dashboard. */
  function Submit(f: SignupForm, s: State, answer: Option<SignupAnswer>)
    : (r: (State, Option<SignupPayload>, Option<string>))
    ensures !Valid(f) ==> r == (s, None, None)
    ensures Valid(f) ==> r.1 == Some(SignupPayload(f.username, f.email, f.password))
    ensures Valid(f) && answer.None? ==> r.0 == s && r.2.None?
    ensures Valid(f) && answer.Some? ==>
      && GetToken(r.0) == Some(answer.value.token) && r.0.token == Some(answer.value.token)
      && GetItem(r.0.storage, UsernameKey) == Some(answer.value.username)
      && r.0.username == Some(answer.value.username)
      && (IsLoggedIn(r.0) <==> answer.value.token != "")
      && (forall k :: k != TokenKey && k != UsernameKey ==> GetItem(r.0.storage, k) == GetItem(s.storage, k))
      && r.2 == Some(DashboardPath)
  {
    if !Valid(f) then (s, None, None)
    else
      var payload := SignupPayload(f.username, f.email, f.password);
      match answer
      case None => (s, Some(payload), None)
      case Some(a) =>
        var withToken := SetToken(s, a.token);
        (SetUsername(withToken, a.username), Some(payload), Some(DashboardPath))
  }

  /** A valid form always gets past the server's missing-field check. */
  lemma ValidFormHasEveryField(db: Db, f: SignupForm, newId: UserId, authenticates: bool, token: string)
    requires Valid(f)
    ensures AuthViews.Signup(db, Some(f.username), Some(f.email), Some(f.password), newId, authenticates, token).1
         != AuthViews.Response(400, AuthViews.ErrorBody(AuthViews.SignupFieldsMessage))
  {
    ValidMeans(f);
    assert AuthViews.SignupFieldsMessage != AuthViews.UsernameTakenMessage;
    assert AuthViews.SignupFieldsMessage != AuthViews.EmailTakenMessage;
    assert |AuthViews.SignupFieldsMessage| != |AuthViews.SignupAuthFailedMessage|;
  }

  /** The whole signup: a fresh account accepted with a token leaves the
      browser logged in as that user, and the login and signup pages then
      send it to the dashboard. */
  lemma AcceptedSignupLogsIn(db: Db, f: SignupForm, s: State, newId: UserId, token: string)
    requires Valid(f) && token != ""
    requires !AuthViews.UsernameTaken(db, f.username) && !AuthViews.EmailTaken(db, f.email)
    ensures var resp := AuthViews.Signup(db, Some(f.username), Some(f.email), Some(f.password), newId, true, token).1;
            && resp.status == 201
            && resp.body.SignedUp?
            && var r := Submit(f, s, Some(SignupAnswer(resp.body.token, resp.body.username)));
               && IsLoggedIn(r.0)
               && r.0.username == Some(f.username)
               && CanActivate(r.0) == GuardResult(false, Some(DashboardPath))
  {
    ValidMeans(f);
  }
}

=== FILE: summary.dfy ===
/** The financial summary endpoint (`FinancialSummaryView.get`): the date
    range it settles on, income and expense totals, the net balance, the
    per-category expenses and the six-month trend. */
module Summary {
  import opened Common
  import opened Dates
  import opened Models

  datatype CategoryExpense = CategoryExpense(category: string, amount: int)

  datatype TrendPoint = TrendPoint(month: string, income: int, expenses: int)

  datatype FinancialSummary = FinancialSummary(
    totalIncome: int,
    totalExpenses: int,
    netBalance: int,
    expensesByCategory: seq<CategoryExpense>,
    monthlyTrend: seq<TrendPoint>)

  const InvalidDateMessage: string := "Invalid date format. Use YYYY-MM-DD"

  /** `aggregate(total=Sum('amount'))['total'] or 0`. */
  function Total(ts: seq<Transaction>): int {
    if |ts| == 0 then 0 else ts[0].amount + Total(ts[1..])
  }

  /** A transaction of user `u` filed under one of `u`'s categories of type `ty`
      (`category__in=income_categories` and its expense twin). */
  predicate OfType(db: Db, u: UserId, t: Transaction, ty: CategoryType) {
    t.user == u && exists c :: c in db.categories && c.id == t.category && c.user == u && c.ctype == ty
  }

  /** Nothing kept: `Sum` over no rows is `None`, which `or 0` turns into 0. */
  lemma TotalOfNone(s: seq<Transaction>, p: Transaction -> bool)
    requires forall x :: x in s ==> !p(x)
    ensures Total(Keep(s, p)) == 0
  {
    var k := Keep(s, p);
    if |k| > 0 {
      assert k[0] in k;
    }
  }

  lemma {:induction false} TotalOfSameRows(s: seq<Transaction>, p: Transaction -> bool, q: Transaction -> bool)
    requires forall x :: x in s ==> (p(x) <==> q(x))
    ensures Total(Keep(s, p)) == Total(Keep(s, q))
  {
    if |s| > 0 {
      assert forall x :: x in s[1..] ==> x in s;
      TotalOfSameRows(s[1..], p, q);
    }
  }

  /** The income or expense total over `date__range=[start, end]`: 0 when
      no row of that type is dated in the range, in particular when the
      range starts after it ends. */
  function TypeTotal(db: Db, u: UserId, ty: CategoryType, start: Date, end: Date): (r: int)
    ensures (forall t :: t in db.transactions && OfType(db, u, t, ty) ==> !InRange(t.date, start, end)) ==> r == 0
    ensures !OnOrBefore(start, end) ==> r == 0
  {
    var p := (t: Transaction) => OfType(db, u, t, ty) && InRange(t.date, start, end);
    assert (forall t :: t in db.transactions ==> !p(t)) ==> Total(Keep(db.transactions, p)) == 0 by {
      if forall t :: t in db.transactions ==> !p(t) {
        TotalOfNone(db.transactions, p);
      }
    }
    Total(Keep(db.transactions, p))
  }

  /** One category's total over `date__range=[start, end]`: 0 when none of
      its rows is dated in the range, in particular when the range starts
      after it ends. */
  function CategoryTotal(db: Db, u: UserId, c: Category, start: Date, end: Date): (r: int)
    ensures (forall t :: t in db.transactions && t.user == u && t.category == c.id ==> !InRange(t.date, start, end)) ==> r == 0
    ensures !OnOrBefore(start, end) ==> r == 0
  {
    var p := (t: Transaction) => t.user == u && t.category == c.id && InRange(t.date, start, end);
    assert (forall t :: t in db.transactions ==> !p(t)) ==> Total(Keep(db.transactions, p)) == 0 by {
      if forall t :: t in db.transactions ==> !p(t) {
        TotalOfNone(db.transactions, p);
      }
    }
    Total(Keep(db.transactions, p))
  }

  function ExpenseCategories(db: Db, u: UserId): (r: seq<Category>)
    ensures forall c :: c in r <==> c in db.categories && c.user == u && c.ctype == Expense
  {
    Keep(db.categories, (c: Category) => c.user == u && c.ctype == Expense)
  }

  /** The range the summary covers: the two parameters only when both are
      given, a 400 error when either of them does not parse, and otherwise
      the first of the current month up to today. */
  function ResolveRange(today: Date, start: Option<string>, end: Option<string>)
    : (r: Result<(Date, Date), string>)
    requires ValidDate(today)
    ensures Truthy(start) && Truthy(end) ==>
      if ParseDate(start.value).Some? && ParseDate(end.value).Some?
      then r == Ok((ParseDate(start.value).value, ParseDate(end.value).value))
      else r == Err(InvalidDateMessage)
    ensures !(Truthy(start) && Truthy(end)) ==>
      r.Ok? && r.value.0 == Date(today.year, today.month, 1) && r.value.1 == today
    ensures r.Ok? ==> ValidDate(r.value.0) && ValidDate(r.value.1)
  {
    if Truthy(start) && Truthy(end) then
      match (ParseDate(start.value), ParseDate(end.value))
      case (Some(s), Some(e)) => Ok((s, e))
      case _ => Err(InvalidDateMessage)
    else
      Ok((FirstOfMonth(today), today))
  }

  /** Expense categories with a positive total in the range, in category
      order. */
  function ExpensesByCategory(db: Db, u: UserId, cats: seq<Category>, start: Date, end: Date)
    : (r: seq<CategoryExpense>)
    ensures |r| <= |cats|
    ensures forall e :: e in r ==> e.amount > 0
    ensures forall e :: e in r ==>
      exists c :: c in cats && e == CategoryExpense(c.name, CategoryTotal(db, u, c, start, end))
    ensures forall c :: c in cats && CategoryTotal(db, u, c, start, end) > 0 ==>
      CategoryExpense(c.name, CategoryTotal(db, u, c, start, end)) in r
  {
    if |cats| == 0 then []
    else
      var total := CategoryTotal(db, u, cats[0], start, end);
      var rest := ExpensesByCategory(db, u, cats[1..], start, end);
      assert forall c :: c in cats[1..] ==> c in cats;
      if total > 0 then [CategoryExpense(cats[0].name, total)] + rest else rest
  }

  /** The type's total over the rows dated in the calendar month of `first`. */
  function TypeInMonth(db: Db, u: UserId, ty: CategoryType, first: Date): int {
    Total(Keep(db.transactions, (t: Transaction) =>
      OfType(db, u, t, ty) && t.date.year == first.year && t.date.month == first.month))
  }

  /** Over stored (hence valid) dates, the first to the last day of a month
      covers exactly the rows dated in that month. */
  lemma CalendarMonthRange(db: Db, u: UserId, ty: CategoryType, first: Date)
    requires ValidDate(first) && first.day == 1
    requires forall t :: t in db.transactions ==> ValidDate(t.date)
    ensures TypeTotal(db, u, ty, first, LastOfMonth(first)) == TypeInMonth(db, u, ty, first)
  {
    var last := LastOfMonth(first);
    TotalOfSameRows(db.transactions,
      (t: Transaction) => OfType(db, u, t, ty) && InRange(t.date, first, last),
      (t: Transaction) => OfType(db, u, t, ty) && t.date.year == first.year && t.date.month == first.month);
  }

  /** The trend loop's income or expense total of one month:
      `date__range=[month_start, month_end]` from the first to the last day.
      For a first of month and stored dates it is that calendar month's. */
  function MonthTotal(db: Db, u: UserId, ty: CategoryType, first: Date): (r: int)
    requires ValidDate(first)
    ensures (first.day == 1 && forall t :: t in db.transactions ==> ValidDate(t.date))
            ==> r == TypeInMonth(db, u, ty, first)
  {
    if first.day == 1 && (forall t :: t in db.transactions ==> ValidDate(t.date)) then
      CalendarMonthRange(db, u, ty, first);
      TypeTotal(db, u, ty, first, LastOfMonth(first))
    else
      TypeTotal(db, u, ty, first, LastOfMonth(first))
  }

  /** The trend point of the month starting on `first`: its `%Y-%m` label
      and the month's income and expense totals. */
  function PointOfMonth(db: Db, u: UserId, first: Date): TrendPoint
    requires ValidDate(first)
  {
    TrendPoint(YearMonthText(first), MonthTotal(db, u, Income, first), MonthTotal(db, u, Expense, first))
  }

  /** The five months before `today`'s month are still in year 1 or later;
      from 0001-01 to 0001-05 `relativedelta` would reach year 0. */
  predicate TrendStartsInRange(today: Date) {
    MinYear * 12 <= MonthIndex(today) - 5
  }

  /** The first of the month `k` months before the month of `today`. */
  function MonthsBack(today: Date, k: int): (first: Date)
    requires ValidDate(today) && TrendStartsInRange(today) && 0 <= k < 6
    ensures ValidDate(first) && first.day == 1 && MonthIndex(first) == MonthIndex(today) - k
  {
    MonthStart(MonthIndex(today) - k)
  }

  /** The loop's list: the current month first, then each month before. */
  function TrendBackwards(db: Db, u: UserId, today: Date): (pts: seq<TrendPoint>)
    requires ValidDate(today) && TrendStartsInRange(today)
    ensures |pts| == 6
    ensures forall i :: 0 <= i < 6 ==> pts[i] == PointOfMonth(db, u, MonthsBack(today, i))
  {
    seq(6, i requires 0 <= i < 6 => PointOfMonth(db, u, MonthsBack(today, i)))
  }

  function Reverse<T>(s: seq<T>): (r: seq<T>)
    ensures |r| == |s|
    ensures forall i :: 0 <= i < |s| ==> r[i] == s[|s| - 1 - i]
  {
    if |s| == 0 then [] else Reverse(s[1..]) + [s[0]]
  }

  /** Reversing six elements puts element `5 - k` at position `k`. */
  lemma ReverseOfSix<T>(s: seq<T>)
    requires |s| == 6
    ensures forall k :: 0 <= k < 6 ==> Reverse(s)[k] == s[5 - k]
  {
  }

  /** Six points built from the current month backwards, then reversed. The
      result is chronological: point `k` is the month `5 - k` months back,
      so the last point is the current month. */
  function MonthlyTrend(db: Db, u: UserId, today: Date): (r: seq<TrendPoint>)
    requires ValidDate(today) && TrendStartsInRange(today)
    ensures |r| == 6
    ensures forall k :: 0 <= k < 6 ==> r[k] == PointOfMonth(db, u, MonthsBack(today, 5 - k))
  {
    var backwards := TrendBackwards(db, u, today);
    ReverseOfSix(backwards);
    Reverse(backwards)
  }

  /** The trend's labels are six consecutive months ending with the month of
      `today`, and each point holds that month's income and expense. */
  lemma TrendMonths(db: Db, u: UserId, today: Date)
    requires ValidDate(today) && TrendStartsInRange(today)
    ensures var r := MonthlyTrend(db, u, today);
            && r[5].month == YearMonthText(FirstOfMonth(today))
            && (forall k :: 1 <= k < 6 ==> MonthIndex(MonthsBack(today, k - 1)) == MonthIndex(MonthsBack(today, k)) + 1)
            && (forall k :: 0 <= k < 6 ==>
                  && r[k].month == YearMonthText(MonthsBack(today, 5 - k))
                  && r[k].income == MonthTotal(db, u, Income, MonthsBack(today, 5 - k))
                  && r[k].expenses == MonthTotal(db, u, Expense, MonthsBack(today, 5 - k)))
  {
    var r := MonthlyTrend(db, u, today);
    MonthStartOfIndex(today);
    assert r[5] == PointOfMonth(db, u, MonthsBack(today, 0));
  }

  /** `FinancialSummaryView.get`. A bad range is the 400 answer. The trend
      loop raises (an uncaught 500) when it leaves years 1 to 9999: going
      five months back from 0001-01 to 0001-05, or forming the month after
      the current one in December 9999. */
  /** `FinancialSummarySerializer` renders each total through
      `DecimalField(max_digits=10, decimal_places=2)`, whose quantize step
      raises `InvalidOperation` once a value needs more than ten digits,
      that is, from 10^10 cents in magnitude on. */
  predicate SerializerRejects(income: int, expenses: int) {
    !ValidAmount(income) || !ValidAmount(expenses) || !ValidAmount(income - expenses)
  }

  /** The months whose six-month trend leaves years 1..9999, where
      `relativedelta` raises. */
  predicate TrendLeavesCalendar(today: Date) {
    (today.year == MinYear && today.month <= 5) || (today.year == MaxYear && today.month == 12)
  }

  function Get(db: Db, u: UserId, today: Date, start: Option<string>, end: Option<string>)
    : (r: Result<FinancialSummary, ApiError>)
    requires ValidDate(today)
    ensures r == Err(BadRequest(InvalidDateMessage)) <==> ResolveRange(today, start, end).Err?
    ensures r == Err(ServerError) <==>
      && ResolveRange(today, start, end).Ok?
      && var (s, e) := ResolveRange(today, start, end).value;
         || TrendLeavesCalendar(today)
         || SerializerRejects(TypeTotal(db, u, Income, s, e), TypeTotal(db, u, Expense, s, e))
    ensures r.Ok? ==> r.value.netBalance == r.value.totalIncome - r.value.totalExpenses
    ensures r.Ok? ==> |r.value.monthlyTrend| == 6
    ensures r.Ok? ==> forall e :: e in r.value.expensesByCategory ==> e.amount > 0
    ensures r.Ok? ==>
      && ValidAmount(r.value.totalIncome)
      && ValidAmount(r.value.totalExpenses)
      && ValidAmount(r.value.netBalance)
    ensures r.Ok? ==>
      var (s, e) := ResolveRange(today, start, end).value;
      && TrendStartsInRange(today)
      && r.value.totalIncome == TypeTotal(db, u, Income, s, e)
      && r.value.totalExpenses == TypeTotal(db, u, Expense, s, e)
      && r.value.expensesByCategory == ExpensesByCategory(db, u, ExpenseCategories(db, u), s, e)
      && r.value.monthlyTrend == MonthlyTrend(db, u, today)
  {
    match ResolveRange(today, start, end)
    case Err(m) => Err(BadRequest(m))
    case Ok((s, e)) =>
      var income := TypeTotal(db, u, Income, s, e);
      var expenses := TypeTotal(db, u, Expense, s, e);
      if TrendLeavesCalendar(today) then Err(ServerError)
      else if SerializerRejects(income, expenses) then Err(ServerError)
      else
        Ok(FinancialSummary(
          income,
          expenses,
          income - expenses,
          ExpensesByCategory(db, u, ExpenseCategories(db, u), s, e),
          MonthlyTrend(db, u, today)))
  }

  /** When every stored row falls under the selection, the type total is
      the sum of all of them. */
  lemma {:induction false} TypeTotalOfEveryRow(db: Db, u: UserId, ty: CategoryType, start: Date, end: Date)
    requires forall t :: t in db.transactions ==> OfType(db, u, t, ty) && InRange(t.date, start, end)
    ensures TypeTotal(db, u, ty, start, end) == Total(db.transactions)
  {
    var p := (t: Transaction) => OfType(db, u, t, ty) && InRange(t.date, start, end);
    KeepEvery(db.transactions, p);
  }

  /** One user with one income category and two income rows of
      60,000,000.00 each, both dated 2024-06-15. */
  function BigIncomeDb(): Db {
    var today := Date(2024, 6, 15);
    Db([User(1, "a", "a@b.c")],
       [Category(1, 1, "Salary", Income)],
       [Transaction(1, 1, 6_000_000_000, 1, "", today), Transaction(2, 1, 6_000_000_000, 1, "", today)],
       [])
  }

  lemma BigIncomeTotal()
    ensures TypeTotal(BigIncomeDb(), 1, Income, Date(2024, 6, 1), Date(2024, 6, 15)) == 12_000_000_000
  {
    var db := BigIncomeDb();
    assert db.categories[0] in db.categories;
    assert forall t :: t in db.transactions ==> OfType(db, 1, t, Income);
    TypeTotalOfEveryRow(db, 1, Income, Date(2024, 6, 1), Date(2024, 6, 15));
    assert db.transactions[1..][1..] == [];
  }

  /** Each row fits its model field, but their sum does not fit the
      summary's, so the summary for that month answers 500. */
  lemma OversizedIncomeFails()
    ensures forall t :: t in BigIncomeDb().transactions ==> ValidTransaction(t)
    ensures Get(BigIncomeDb(), 1, Date(2024, 6, 15), None, None) == Err(ServerError)
  {
    var today := Date(2024, 6, 15);
    BigIncomeTotal();
    assert ResolveRange(today, None, None) == Ok((Date(2024, 6, 1), today));
  }

  // ---------------------------------------------------------------------
  // Income and expenses split the user's typed transactions.

  lemma {:induction false} TotalOfSplit(s: seq<Transaction>, p: Transaction -> bool, q: Transaction -> bool,
                                        either: Transaction -> bool)
    requires forall x :: x in s ==> (either(x) <==> p(x) || q(x)) && !(p(x) && q(x))
    ensures Total(Keep(s, p)) + Total(Keep(s, q)) == Total(Keep(s, either))
  {
    if |s| > 0 {
      assert forall x :: x in s[1..] ==> x in s;
      TotalOfSplit(s[1..], p, q, either);
    }
  }

  predicate UniqueCategoryIds(db: Db) {
    forall i, j :: 0 <= i < j < |db.categories| ==> db.categories[i].id != db.categories[j].id
  }

  /** With category ids unique, every in-range transaction filed under one
      of the user's categories is counted exactly once, as income or as
      expense. */
  lemma IncomePlusExpensesIsEverything(db: Db, u: UserId, start: Date, end: Date)
    requires UniqueCategoryIds(db)
    ensures TypeTotal(db, u, Income, start, end) + TypeTotal(db, u, Expense, start, end)
         == Total(Keep(db.transactions, (t: Transaction) =>
              t.user == u && OwnedCategory(db, u, t.category) && InRange(t.date, start, end)))
  {
    var p := (t: Transaction) => OfType(db, u, t, Income) && InRange(t.date, start, end);
    var q := (t: Transaction) => OfType(db, u, t, Expense) && InRange(t.date, start, end);
    var either := (t: Transaction) => t.user == u && OwnedCategory(db, u, t.category) && InRange(t.date, start, end);
    forall x | x in db.transactions
      ensures (either(x) <==> p(x) || q(x)) && !(p(x) && q(x))
    {
      if either(x) {
        var c :| c in db.categories && c.id == x.category && c.user == u;
        if c.ctype == Income { assert p(x); } else { assert q(x); }
      }
    }
    TotalOfSplit(db.transactions, p, q, either);
  }
}

=== FILE: summary_view.dfy ===
/** The financial-summary card (`FinancialSummaryComponent`): the balance it
    shows, the sign-dependent styling around it, and the date range it asks
    the server for. Chart drawing is outside the model. */
module SummaryView {
  import opened Common
  import opened Dates
  import opened Models
  import opened Summary
  import Api

  /** `getBalance`: nothing to show before the first answer arrives. */
  function Balance(data: Option<FinancialSummary>): (b: int)
    ensures data.None? ==> b == 0
    ensures data.Some? ==> b == data.value.totalIncome - data.value.totalExpenses
  {
    if data.None? then 0 else data.value.totalIncome - data.value.totalExpenses
  }

  /** Once the server has answered, the balance on the card is the server's
      net balance: income minus expenses over the resolved range. */
  lemma BalanceIsNetBalance(db: Db, u: UserId, today: Date, start: Option<string>, end: Option<string>)
    requires ValidDate(today)
    requires Summary.Get(db, u, today, start, end).Ok?
    ensures Balance(Some(Summary.Get(db, u, today, start, end).value))
         == Summary.Get(db, u, today, start, end).value.netBalance
    ensures Balance(Some(Summary.Get(db, u, today, start, end).value))
         == TypeTotal(db, u, Income, ResolveRange(today, start, end).value.0, ResolveRange(today, start, end).value.1)
          - TypeTotal(db, u, Expense, ResolveRange(today, start, end).value.0, ResolveRange(today, start, end).value.1)
  {
  }

  // ---------------------------------------------------------------------
  // Styling. Every sign-dependent piece picks its first variant for a
  // balance of zero or more.

  const PositiveCard: string := "summary-card bg-gradient-to-br from-blue-50 to-blue-100 border-l-4 border-blue-500"
  const NegativeCard: string := "summary-card bg-gradient-to-br from-orange-50 to-orange-100 border-l-4 border-orange-500"
  const PositiveIcon: string := "p-2 rounded-lg bg-blue-500 bg-opacity-10 mr-3 text-blue-600"
  const NegativeIcon: string := "p-2 rounded-lg bg-orange-500 bg-opacity-10 mr-3 text-orange-600"
  const BalanceText: string := "text-2xl md:text-3xl font-bold text-gray-800"
  const PositiveTrend: string := "text-blue-600"
  const NegativeTrend: string := "text-orange-600"
  const UpIcon: string := "arrow_upward"
  const DownIcon: string := "arrow_downward"
  const PositiveFlow: string := "Positive cash flow"
  const NegativeFlow: string := "Negative cash flow"

  /** Everything the card derives from the balance's sign. */
  datatype BalanceLook = BalanceLook(
    cardClass: string,
    iconClass: string,
    textClass: string,
    trendClass: string,
    trendIcon: string,
    trendText: string)

  function Look(balance: int): (l: BalanceLook)
    ensures l.cardClass == PositiveCard <==> balance >= 0
    ensures l.cardClass == NegativeCard <==> balance < 0
    ensures l.iconClass == PositiveIcon <==> balance >= 0
    ensures l.iconClass == NegativeIcon <==> balance < 0
    ensures l.textClass == BalanceText
    ensures l.trendClass == PositiveTrend <==> balance >= 0
    ensures l.trendIcon == UpIcon <==> balance >= 0
    ensures l.trendText == PositiveFlow <==> balance >= 0
    ensures l.trendText == NegativeFlow <==> balance < 0
  {
    var positive := balance >= 0;
    assert |PositiveCard| != |NegativeCard| && |PositiveIcon| != |NegativeIcon|;
    assert PositiveFlow[0] != NegativeFlow[0];
    BalanceLook(
      if positive then PositiveCard else NegativeCard,
      if positive then PositiveIcon else NegativeIcon,
      BalanceText,
      if positive then PositiveTrend else NegativeTrend,
      if positive then UpIcon else DownIcon,
      if positive then PositiveFlow else NegativeFlow)
  }

  /** The pieces never contradict each other: the upward arrow, the blue
      card and "Positive cash flow" come together or not at all, and a zero
      balance looks exactly like a positive one. */
  lemma LookIsConsistent(balance: int)
    ensures Look(balance).trendIcon == UpIcon <==> Look(balance).trendText == PositiveFlow
    ensures Look(balance).trendIcon == UpIcon <==> Look(balance).cardClass == PositiveCard
    ensures Look(balance).trendClass == PositiveTrend <==> Look(balance).iconClass == PositiveIcon
    ensures balance >= 0 ==> Look(balance) == Look(0)
    ensures balance < 0 ==> Look(balance) == Look(-1)
  {
  }

  // ---------------------------------------------------------------------
  // The requested range.

  /** The constructor's range: `new Date(y, m, 1)` to `new Date(y, m + 1, 0)`,
      the first to the last day of today's month. */
  function DefaultRange(today: Date): (r: (Date, Date))
    requires ValidDate(today)
    ensures ValidDate(r.0) && ValidDate(r.1)
    ensures r.0.day == 1 && r.1.day == DaysInMonth(today.year, today.month)
    ensures forall d :: ValidDate(d) ==>
      (InRange(d, r.0, r.1) <==> d.year == today.year && d.month == today.month)
  {
    var first := FirstOfMonth(today);
    var last := LastOfMonth(today);
    forall d | ValidDate(d)
      ensures InRange(d, first, last) <==> d.year == today.year && d.month == today.month
    {
      MonthIndexOrder(d, first);
      MonthIndexOrder(last, d);
      MonthIndexOrder(d, today);
    }
    (first, last)
  }

  /** A date picker may be cleared, so either end may be missing; present
      ends are sent as ISO dates. */
  function RequestParams(start: Option<Date>, end: Option<Date>): (r: Api.Pairs)
    requires start.Some? ==> ValidDate(start.value)
    requires end.Some? ==> ValidDate(end.value)
    ensures Api.Lookup(r, "start_date").Some? <==> start.Some?
    ensures Api.Lookup(r, "end_date").Some? <==> end.Some?
    ensures start.Some? ==> Api.Lookup(r, "start_date") == Some(IsoDateText(start.value))
    ensures end.Some? ==> Api.Lookup(r, "end_date") == Some(IsoDateText(end.value))
  {
    var s := if start.Some? then Some(IsoDateText(start.value)) else None;
    var e := if end.Some? then Some(IsoDateText(end.value)) else None;
    Api.SummaryParams(s, e)
  }

  /** The default range survives the trip to the server: the view reads
      back exactly the first and last day of today's month. */
  lemma DefaultRangeReachesServer(today: Date)
    requires ValidDate(today)
    ensures var (first, last) := DefaultRange(today);
            var ps := RequestParams(Some(first), Some(last));
            ResolveRange(today, Api.Lookup(ps, "start_date"), Api.Lookup(ps, "end_date")) == Ok((first, last))
  {
    var (first, last) := DefaultRange(today);
    IsoDateRoundTrip(first);
    IsoDateRoundTrip(last);
  }

  /** With one picker cleared the server ignores the other one too and
      falls back to the first of the month up to today. */
  lemma OneEndIgnored(today: Date, start: Option<Date>, end: Option<Date>)
    requires ValidDate(today)
    requires start.Some? ==> ValidDate(start.value)
    requires end.Some? ==> ValidDate(end.value)
    requires start.None? || end.None?
    ensures var ps := RequestParams(start, end);
            ResolveRange(today, Api.Lookup(ps, "start_date"), Api.Lookup(ps, "end_date"))
              == Ok((FirstOfMonth(today), today))
  {
  }
}

=== FILE: transaction_dialog.dfy ===
/** The add/edit transaction dialog (`TransactionFormDialogComponent`): its
    form and validators, the pre-filled edit form, and what a submission
    sends and how the dialog ends. The request itself is an outcome passed
    in: whether it succeeded. */
module TransactionDialog {
  import opened Common
  import opened Dates
  import opened Models
  import opened Forms

  /** The form: amount in cents, the picked date, and the other controls'
      values. */
  datatype TxForm = TxForm(
    amount: Option<int>,
    description: Value,
    category: Value,
    date: Option<Date>,
    transactionType: Value)

  /** Blank controls, with the type preset to "expense". */
  const BlankForm: TxForm := TxForm(None, Str(""), Str(""), None, Str("expense"))

  /** amount: required, at least 0.01; description, category, date and
      type: required. */
  predicate Valid(f: TxForm) {
    && f.amount.Some? && MinCents(f.amount)
    && Required(f.description)
    && Required(f.category)
    && f.date.Some?
    && Required(f.transactionType)
  }

  /** What validity asks of each control, and that a blank form is
      invalid while its type is already filled in. */
  lemma ValidMeans(f: TxForm)
    ensures Valid(f) <==>
      && f.amount.Some? && f.amount.value >= 1
      && !IsEmpty(f.description) && !IsEmpty(f.category) && !IsEmpty(f.transactionType)
      && f.date.Some?
    ensures !Valid(BlankForm) && BlankForm.transactionType == Str("expense")
  {
    RequiredAmount(f.amount);
  }

  // ---------------------------------------------------------------------
  // Opening the dialog.

  /** A transaction as the list endpoint serialises it: `category` is the
      category's primary key, and the type comes back as `category_type`;
      there is no `transaction_type` member. */
  datatype Listed = Listed(
    id: int,
    amount: int,
    category: CategoryId,
    categoryType: string,
    description: string,
    date: Date)

  datatype DialogData = DialogData(isEditing: bool, transaction: Option<Listed>)

  /** `patchForm` as written: `transaction.category.id` reads a member of a
      number and `transaction.transaction_type` a member that is not
      there, so both controls are patched with undefined. */
  function PatchAsWritten(f: TxForm, t: Listed): (r: TxForm)
    ensures r.amount == Some(t.amount) && r.description == Str(t.description) && r.date == Some(t.date)
    ensures IsEmpty(r.category) && IsEmpty(r.transactionType)
  {
    f.(amount := Some(t.amount), description := Str(t.description), category := Null,
       date := Some(t.date), transactionType := Null)
  }

  /** Patching from the members the list does send. */
  function Patch(f: TxForm, t: Listed): (r: TxForm)
    ensures r.amount == Some(t.amount) && r.description == Str(t.description) && r.date == Some(t.date)
    ensures r.category == Num(t.category) && r.transactionType == Str(t.categoryType)
  {
    f.(amount := Some(t.amount), description := Str(t.description), category := Num(t.category),
       date := Some(t.date), transactionType := Str(t.categoryType))
  }

  /** `ngOnInit`: the form is patched only when editing a given transaction. */
  function OpenAsWritten(data: DialogData): (f: TxForm)
    ensures !(data.isEditing && data.transaction.Some?) ==> f == BlankForm
  {
    if data.isEditing && data.transaction.Some? then PatchAsWritten(BlankForm, data.transaction.value)
    else BlankForm
  }

  function Open(data: DialogData): (f: TxForm)
    ensures !(data.isEditing && data.transaction.Some?) ==> f == BlankForm
    ensures data.isEditing && data.transaction.Some? ==> f == Patch(BlankForm, data.transaction.value)
  {
    if data.isEditing && data.transaction.Some? then Patch(BlankForm, data.transaction.value)
    else BlankForm
  }

  /** As written, every edit dialog opens invalid: submitting it does
      nothing until category and type are picked again. */
  lemma EditFormStartsInvalid(t: Listed)
    ensures !Valid(OpenAsWritten(DialogData(true, Some(t))))
  {
  }

  /** Patched from the members the list sends, the edit form of a complete
      transaction is valid as it opens. */
  lemma EditFormStartsValid(t: Listed)
    requires t.amount >= 1 && t.description != "" && t.categoryType != ""
    ensures Valid(Open(DialogData(true, Some(t))))
  {
  }

  // ---------------------------------------------------------------------
  // Submitting.

  /** The posted body: the form's values with the date as text. */
  datatype TxPayload = TxPayload(
    amount: Option<int>,
    description: Value,
    category: Value,
    date: string,
    transactionType: Value)

  datatype TxRequest = UpdateTx(id: int, payload: TxPayload) | CreateTx(payload: TxPayload)

  datatype DialogState = DialogState(
    form: TxForm,
    isSubmitting: bool,
    errorMessage: Option<string>,
    closedWith: Option<bool>)

  const UpdateFailed: string := "Failed to update transaction. Please try again."
  const CreateFailed: string := "Failed to create transaction. Please try again."

  /** The form value with `date` as `getFullYear()-(getMonth()+1)-getDate()`. */
  function Payload(f: TxForm): (p: TxPayload)
    requires f.date.Some? && ValidDate(f.date.value)
    ensures p.amount == f.amount && p.description == f.description && p.category == f.category
    ensures p.transactionType == f.transactionType
  {
    TxPayload(f.amount, f.description, f.category, DashedDateText(f.date.value), f.transactionType)
  }

  /** An update needs edit mode, a transaction and a truthy id. */
  predicate Updates(data: DialogData) {
    data.isEditing && data.transaction.Some? && data.transaction.value.id != 0
  }

  function Submit(st: DialogState, data: DialogData, succeeded: bool): (r: (DialogState, Option<TxRequest>))
    requires st.form.date.Some? ==> ValidDate(st.form.date.value)
    ensures !Valid(st.form) ==> r == (st, None)
    ensures Valid(st.form) ==> r.1.Some? && r.1.value.payload == Payload(st.form)
    ensures Valid(st.form) ==> (r.1.value.UpdateTx? <==> Updates(data))
    ensures Valid(st.form) && Updates(data) ==> r.1.value.id == data.transaction.value.id
    ensures Valid(st.form) && succeeded ==> r.0.closedWith == Some(true) && r.0.errorMessage.None?
    ensures Valid(st.form) && !succeeded ==>
      && r.0.closedWith == st.closedWith
      && !r.0.isSubmitting
      && r.0.errorMessage == Some(if Updates(data) then UpdateFailed else CreateFailed)
    ensures r.0.form == st.form
  {
    if !Valid(st.form) then (st, None)
    else
      var started := st.(isSubmitting := true, errorMessage := None);
      var p := Payload(st.form);
      var req := if Updates(data) then UpdateTx(data.transaction.value.id, p) else CreateTx(p);
      var failed := if Updates(data) then UpdateFailed else CreateFailed;
      if succeeded then (started.(closedWith := Some(true)), Some(req))
      else (started.(isSubmitting := false, errorMessage := Some(failed)), Some(req))
  }

  function Cancel(st: DialogState): (r: DialogState)
    ensures r.closedWith == Some(false) && r.form == st.form
  {
    st.(closedWith := Some(false))
  }

  /** The unpadded date text the dialog sends is read back by the server
      as the picked date. */
  lemma SubmittedDateReadBack(f: TxForm)
    requires f.date.Some? && ValidDate(f.date.value) && 1000 <= f.date.value.year
    ensures ParseDate(Payload(f).date) == f.date
  {
    DashedDateRoundTrip(f.date.value);
  }

  /** Editing a listed transaction and saving it unchanged sends an update
      of that transaction carrying its own amount, category and date. */
  lemma UnchangedEditSavesSameTransaction(t: Listed, succeeded: bool)
    requires t.id != 0 && t.amount >= 1 && t.description != "" && t.categoryType != ""
    requires ValidDate(t.date) && 1000 <= t.date.year
    ensures var data := DialogData(true, Some(t));
            var r := Submit(DialogState(Open(data), false, None, None), data, succeeded);
            && r.1 == Some(UpdateTx(t.id, Payload(Open(data))))
            && r.1.value.payload.amount == Some(t.amount)
            && r.1.value.payload.category == Num(t.category)
            && ParseDate(r.1.value.payload.date) == Some(t.date)
  {
    DashedDateRoundTrip(t.date);
  }
}

=== FILE: views.dfy ===
/** The list endpoints' query filters (budget/views.py, the three
    `get_queryset` methods), as filters over the in-memory tables. Query
    parameters arrive already converted; `None` stands for a parameter that
    is absent or empty, which the views treat alike. */
module Views {
  import opened Common
  import opened Dates
  import opened Models

  // ---------------------------------------------------------------------
  // Categories: `name__icontains` and an exact `type`.

  function LowerChar(c: char): char {
    if 'A' <= c <= 'Z' then (c as int + 32) as char else c
  }

  function Lower(s: string): (r: string)
    ensures |r| == |s|
    ensures forall i :: 0 <= i < |s| ==> r[i] == LowerChar(s[i])
  {
    if |s| == 0 then "" else [LowerChar(s[0])] + Lower(s[1..])
  }

  /** Case-insensitive substring test, the `icontains` lookup. */
  predicate IContains(hay: string, needle: string) {
    exists i :: 0 <= i <= |hay| - |needle| && MatchesAt(hay, needle, i)
  }

  predicate MatchesAt(hay: string, needle: string, i: int) {
    0 <= i && i + |needle| <= |hay| && Lower(hay[i..i + |needle|]) == Lower(needle)
  }

  predicate CategoryMatches(c: Category, u: UserId, name: Option<string>, ctype: Option<string>) {
    && c.user == u
    && (Truthy(name) ==> IContains(c.name, name.value))
    && (Truthy(ctype) ==> TypeName(c.ctype) == ctype.value)
  }

  function ListCategories(db: Db, u: UserId, name: Option<string>, ctype: Option<string>)
    : (r: seq<Category>)
    ensures forall c :: c in r <==>
      && c in db.categories
      && c.user == u
      && (Truthy(name) ==> IContains(c.name, name.value))
      && (Truthy(ctype) ==> TypeName(c.ctype) == ctype.value)
  {
    Keep(db.categories, (c: Category) => CategoryMatches(c, u, name, ctype))
  }

  /** Absent filters do not filter: a missing or empty name and type give
      the same list, in the same order, as no parameters at all, which is
      every category of the user. */
  lemma UnfilteredCategories(db: Db, u: UserId, name: Option<string>, ctype: Option<string>)
    requires !Truthy(name) && !Truthy(ctype)
    ensures ListCategories(db, u, name, ctype) == ListCategories(db, u, None, None)
    ensures forall c :: c in ListCategories(db, u, name, ctype) <==> c in db.categories && c.user == u
  {
    KeepAgrees(db.categories, (c: Category) => CategoryMatches(c, u, name, ctype),
                              (c: Category) => CategoryMatches(c, u, None, None));
  }

  // ---------------------------------------------------------------------
  // Transactions.

  datatype TransactionQuery = TransactionQuery(
    startDate: Option<Date>,
    endDate: Option<Date>,
    category: Option<CategoryId>,
    minAmount: Option<int>,
    maxAmount: Option<int>,
    transactionType: Option<string>)

  /** The type of the category a transaction points at. */
  predicate CategoryHasType(db: Db, id: CategoryId, t: string) {
    exists c :: c in db.categories && c.id == id && TypeName(c.ctype) == t
  }

  predicate TransactionMatches(db: Db, t: Transaction, u: UserId, q: TransactionQuery) {
    && t.user == u
    && (q.startDate.Some? ==> OnOrBefore(q.startDate.value, t.date))
    && (q.endDate.Some? ==> OnOrBefore(t.date, q.endDate.value))
    && (q.category.Some? ==> t.category == q.category.value)
    && (q.minAmount.Some? ==> q.minAmount.value <= t.amount)
    && (q.maxAmount.Some? ==> t.amount <= q.maxAmount.value)
    && (Truthy(q.transactionType) ==> CategoryHasType(db, t.category, q.transactionType.value))
  }

  /** Newest first: `order_by('-date')`. Rows with equal dates come in an
      order the database chooses; only the date order is promised. */
  predicate NewestFirst(s: seq<Transaction>) {
    forall i, j :: 0 <= i < j < |s| ==> OnOrBefore(s[j].date, s[i].date)
  }

  function InsertByDate(t: Transaction, s: seq<Transaction>): (r: seq<Transaction>)
    requires NewestFirst(s)
    ensures NewestFirst(r)
    ensures multiset(r) == multiset(s) + multiset{t}
    ensures forall x :: x in r <==> x == t || x in s
  {
    if |s| == 0 then [t]
    else if OnOrBefore(s[0].date, t.date) then
      assert forall y :: y in s ==> OnOrBefore(y.date, t.date) by {
        forall y | y in s ensures OnOrBefore(y.date, t.date) {
          var k :| 0 <= k < |s| && s[k] == y;
          if k > 0 { assert OnOrBefore(s[k].date, s[0].date); }
        }
      }
      PrependNewest(t, s);
      [t] + s
    else
      var tail := InsertByDate(t, s[1..]);
      assert s == [s[0]] + s[1..];
      assert forall y :: y in tail ==> OnOrBefore(y.date, s[0].date) by {
        forall y | y in tail ensures OnOrBefore(y.date, s[0].date) {
          if y != t {
            var k :| 0 <= k < |s[1..]| && s[1..][k] == y;
            assert s[k + 1] == y;
          }
        }
      }
      PrependNewest(s[0], tail);
      [s[0]] + tail
  }

  lemma PrependNewest(x: Transaction, s: seq<Transaction>)
    requires NewestFirst(s)
    requires forall y :: y in s ==> OnOrBefore(y.date, x.date)
    ensures NewestFirst([x] + s)
  {
    var r := [x] + s;
    forall i, j | 0 <= i < j < |r|
      ensures OnOrBefore(r[j].date, r[i].date)
    {
      if i == 0 {
        assert r[j] in s;
      } else {
        assert r[i] == s[i - 1] && r[j] == s[j - 1];
      }
    }
  }

  function SortNewestFirst(s: seq<Transaction>): (r: seq<Transaction>)
    ensures NewestFirst(r)
    ensures multiset(r) == multiset(s)
  {
    if |s| == 0 then []
    else
      assert s == [s[0]] + s[1..];
      InsertByDate(s[0], SortNewestFirst(s[1..]))
  }

  /** The transaction list: exactly the user's rows that pass every supplied
      filter, each as often as it is stored, newest first. */
  function ListTransactions(db: Db, u: UserId, q: TransactionQuery): (r: seq<Transaction>)
    ensures NewestFirst(r)
    ensures forall t :: t in r <==> t in db.transactions && TransactionMatches(db, t, u, q)
    ensures multiset(r) == multiset(Keep(db.transactions, (t: Transaction) => TransactionMatches(db, t, u, q)))
  {
    var kept := Keep(db.transactions, (t: Transaction) => TransactionMatches(db, t, u, q));
    var r := SortNewestFirst(kept);
    forall t ensures t in r <==> t in kept {
      assert t in r <==> t in multiset(r);
      assert t in kept <==> t in multiset(kept);
    }
    r
  }

  // ---------------------------------------------------------------------
  // Budgets: category id, and `month` and `year` compared as stored.

  datatype BudgetQuery = BudgetQuery(category: Option<CategoryId>, month: Option<string>, year: Option<int>)

  predicate BudgetMatches(b: Budget, u: UserId, q: BudgetQuery) {
    && b.user == u
    && (q.category.Some? ==> b.category == q.category.value)
    && (Truthy(q.month) ==> b.month == q.month.value)
    && (q.year.Some? ==> b.year == q.year.value)
  }

  function ListBudgets(db: Db, u: UserId, q: BudgetQuery): (r: seq<Budget>)
    ensures forall b :: b in r <==>
      && b in db.budgets
      && b.user == u
      && (q.category.Some? ==> b.category == q.category.value)
      && (Truthy(q.month) ==> b.month == q.month.value)
      && (q.year.Some? ==> b.year == q.year.value)
  {
    Keep(db.budgets, (b: Budget) => BudgetMatches(b, u, q))
  }
}
